=== FILE: README.md ===
# 3D-print LLM assistant — staged edits and version history in Dafny

This project models the core of a design assistant for concrete 3D printing.
An operator loads an OpenSCAD file and asks for changes in plain language. An
LLM turns each request into either parameter modifications
(`name = value;` assignments) or a complete replacement of the SCAD code. The
backend then:

- stages the change and renders a preview (`modified.stl`);
- lets the operator approve or reject the staged change;
- keeps a numbered version history; every approved version is snapshotted
  under `models/versions/` (STL) and `models/versions/scad/` (SCAD);
- restores, re-parameterises, uploads, clears and names projects.

What is modelled:

- **`Text`**: the Python string operations the code relies on. These are
  `find`, `rfind`, `count`, `replace`, `strip`, `startswith`, ASCII `lower`
  and upper-casing, and `str(n)` with `{n:04d}` padding.
- **`ScadParams`**: the regex scan `(\w+)\s*=\s*(\d+(?:\.\d+)?)\s*;` that
  extracts parameters, and the rewrite of one parameter's literal.
- **`ScadRewrite`**: the round trip of the rewrite. Extracting the
  parameters of a rewritten text gives the old parameters with the new
  values.
- **`StateManager`**: description cleaning, snapshot names, the bounded
  history list, and saving and loading the state file.
- **`DesignState`**: the one immutable record for the whole backend state,
  plus `backup_version`. The record holds:
  - the design modifier (head file, head text, cached parameters, staged
    edit);
  - the designs directory and the preview flag;
  - the version counter, active version and project name;
  - the history and both snapshot directories.
- **`DesignRoutes`, `VersionRoutes`, `ProjectRoutes`**: the HTTP routes that
  change state. Each route is a function from a state and its request to a
  response and the next state.
- **`Engine`**: one step dispatcher over all routes, and runs of steps, with
  the invariant every reachable state keeps.
- **`LlmReply`, `RestrictedHandler`, `GroqHandler`, `BenchmarkHandler`**:
  how the three LLM handlers turn raw model text into an answer.
  - `LlmReply` covers JSON extraction, the code fix-ups and the fallback
    answers.
  - `RestrictedHandler` covers the ±20 % filter.
  - `GroqHandler` covers keyword routing.
  - `BenchmarkHandler` covers module-call completion and the structural-change
    override.

Everything outside the modelled code is a parameter:

- the OpenSCAD renderer is `render: string -> bool`;
- Python's `str()` of a JSON number is `show`;
- the clock is a `Clock` value;
- the order of `os.listdir` is a caller-supplied listing;
- the LLM's raw reply is an `Option<string>`, where `None` means the HTTP
  call failed;
- `json.loads` is a `decode` function returning `None` on a decode error.

Some consequences of the code that a reader might not expect, each stated
as a lemma:

- **Failed render.** An edit whose render fails stays staged. A later approve
  commits that edit (`DesignRoutes.ApproveAfterFailedRender`) as long as an
  earlier preview is still on disk.
- **Snapshots after upload.** Uploading a new file clears the STL snapshots
  but not the SCAD snapshots. A restore of version `n` can therefore pick
  up a snapshot from an earlier project (`ProjectRoutes.UploadKeepsOldSnapshots`).
- **Restore.** Restore finds a snapshot by file-name prefix and sets the
  active version. It does not consult the history, move a cursor or create a
  version (`VersionRoutes.RestoreIgnoresHistory`, `Engine.StepHistory`).

One place where the model does not follow the code: the parameter rewrite.
In `backend/design_modifier.py` the pattern built from a parameter name has
no left word boundary, so rewriting `width` also rewrites `inner_width`
(see "## Findings"). The routes and the engine use the corrected rewrite
`ScadParams.Rewrite`, which changes only statements whose whole name is the
parameter; the code as written is `ScadParams.RewriteAsWritten`.

## Model

| member | source | states |
|---|---|---|
| ScadParams.MatchAt | backend/design_modifier.py:26-27 | a match at `i` names the longest word run starting at `i`, ends in `;` after a well-formed decimal literal, and its value is that literal's number |
| ScadParams.CollectKeys | backend/design_modifier.py:29-33 | the extracted dict has exactly the names of the matched statements as keys |
| ScadParams.CollectLastWins | backend/design_modifier.py:29-33 | when a name is assigned several times, the last assignment's value is the one kept |
| ScadParams.ExtractKeys | backend/design_modifier.py:21-37 | a name is an extracted parameter iff some statement of the text assigns it a literal |
| ScadParams.ExtractLastWins | backend/design_modifier.py:39-54 | extraction from any content keeps the value parsed from the last statement for each name |
| ScadParams.ParseLitKind | backend/design_modifier.py:31 | a literal becomes a float exactly when it contains a '.', an int otherwise |
| ScadParams.StatementsLiterals | backend/design_modifier.py:26-27 | every statement found carries a well-formed literal and the number it denotes |
| ScadParams.StatementsChained | backend/design_modifier.py:27 | the matches are non-overlapping and found left to right, as `re.findall` scans |
| ScadParams.EmptyExtraction | backend/design_modifier.py:21-37 | text with no assignment statement yields no parameters |
| ScadParams.SpliceAbsent | backend/design_modifier.py:83-88 | splicing new literals for a name that no statement assigns copies the text unchanged (corrected splice, whole names only) |
| ScadParams.RewriteAbsentName | backend/design_modifier.py:83-88 | rewriting a parameter that is not extracted from the text leaves the text unchanged (corrected rewrite) |
| ScadParams.RewriteAllAbsent | backend/design_modifier.py:76-89 | applying modifications whose names are all unknown leaves the text unchanged (corrected rewrite; the code as written also rewrites suffix-named statements) |
| ScadParams.SuffixNameCounterexample | backend/design_modifier.py:86-88 | as written, modifying `w` in `aw=5;` rewrites `aw`, though `w` is no parameter; the corrected rewrite leaves the text alone |
| ScadParams.TailFromFound | backend/design_modifier.py:26 | the character-by-character reading of `\s*=\s*`, the literal, `\s*` and `;` only finds tails that end in `;` and hold a well-formed decimal literal |
| ScadRewrite.MatchAtAgree | backend/design_modifier.py:26-27 | whether the pattern matches at a position, and what it matches, depends only on the characters the match reads; the same characters elsewhere give the same match, moved |
| ScadRewrite.StatementsSuffix | backend/design_modifier.py:27 | two texts that are equal from some position on yield the same names and values from there |
| ScadRewrite.SpliceScan | backend/design_modifier.py:86-88 | scanning the spliced text finds the original statements in order, with the new literal's value wherever the name is the parameter |
| ScadRewrite.RewriteExtract | backend/design_modifier.py:84-88 | after one parameter is rewritten to a decimal literal, extraction gives the same names, that parameter has the literal's value and the others keep theirs; a name that is no parameter changes nothing |
| ScadRewrite.RewriteAllExtract | backend/design_modifier.py:76-89 | extracting after all the rewrites equals applying the modifications, in order, to the old parameter dict |
| ScadRewrite.RewriteAllValues | backend/design_modifier.py:84-88 | for a dict of modifications: the extracted names are unchanged, each modified parameter has the value of its new literal, and every other parameter keeps its value |
| ScadParams.ParseNatText | backend/design_modifier.py:26-31 | `str(n)` of a non-negative integer matches the literal pattern and `int()` reads it back as n |
| ScadRewrite.RewriteAllNatValues | backend/design_modifier.py:84-88 | with non-negative integer values written by `str()`, extracting the rewritten design gives every modified parameter exactly its requested value, and no name appears or disappears |
| StateManager.FirstPrefix | backend/state_manager.py:30-43 | finds the first verbose prefix in list order that the description starts with, or none |
| StateManager.StripVerbosePrefix | backend/state_manager.py:38-42 | only the first matching prefix in list order is removed; a text with no prefix is unchanged |
| StateManager.CleanDescription | backend/state_manager.py:24-52 | empty or missing gives "Modified"; else the prefix is dropped, the first letter upper-cased, and text over 60 characters cut to 57 plus "..."; the rest is kept |
| StateManager.CleanDescriptionFixedPoint | backend/state_manager.py:24-52 | a short, prefix-free, not lower-case-initial description is returned as it is |
| StateManager.DescSafe | backend/state_manager.py:100 | the file-name slug has at most 30 characters, with spaces and slashes turned to underscores and nothing else changed |
| StateManager.Pad4 | backend/state_manager.py:107 | `{n:04d}` has at least four characters and starts with a digit iff n is non-negative. For n ≥ 0 its digits read as n; for n < 0 it is a minus sign followed by digits that read as −n |
| StateManager.Pad4Injective | backend/state_manager.py:107 | different version numbers never produce the same padded text |
| StateManager.SnapshotName | backend/state_manager.py:107 | every snapshot file name starts with its version's `v{n:04d}_` prefix |
| StateManager.SnapshotPrefixMatches | backend/state_manager.py:107 | a snapshot name starts with the prefix of version m iff it was written for version m |
| StateManager.AddToHistory | backend/state_manager.py:128-149 | the new entry is appended last to a suffix of the old list, and the list length is capped at 50 |
| StateManager.AddToHistoryOrder | backend/state_manager.py:142-144 | below the cap nothing is dropped; at the cap exactly the oldest entry is dropped |
| StateManager.SaveDesignState | backend/state_manager.py:55-70 | the written state always records the version and the active version |
| StateManager.LoadDesignState | backend/state_manager.py:73-87 | no file leaves the globals alone; a missing version loads as 0 and a missing active version as the loaded version |
| StateManager.LoadAfterSave | backend/state_manager.py:55-87 | loading what was saved gives back the saved counter, active version and project name |
| DesignState.TextArg | backend/routes/design_routes.py:135 | a missing JSON field takes the default, an explicit null stays null, a string is kept |
| DesignState.NewModifier | backend/design_modifier.py:7-14 | a new modifier holds the file's text, nothing staged, and the parameters extracted from that text |
| DesignState.ApplyScadModification | backend/design_modifier.py:56-74 | stages the code with its own extracted parameters and leaves the head file and head text untouched |
| DesignState.ApplyModifications | backend/design_modifier.py:76-104 | rewrites (with the corrected rewrite) and writes the head file, re-extracts its parameters, keeps any staged edit, and keeps the text when no name is a parameter |
| DesignState.RenderSource | backend/design_modifier.py:106-123 | the renderer reads the staged text if one exists, else the head file on disk, and fails without one |
| DesignState.Save | backend/state_manager.py:55-70 | a loaded project's state is written so that loading it gives back its globals; nothing else changes |
| DesignState.Backup | backend/state_manager.py:90-125 | bumps the counter and activates the new version; records the STL snapshot and, when the head file exists, its SCAD snapshot and a history entry with the cleaned description and current parameters; keeps all older snapshots |
| DesignState.BackupKeepsSnapshots | backend/state_manager.py:114-125 | a backup never removes the SCAD snapshot of an existing version |
| DesignState.BackupStoresSnapshot | backend/state_manager.py:114-120 | after a backup, the new version has a SCAD snapshot |
| DesignState.AddToHistoryOrdered | backend/state_manager.py:128-149 | history versions stay strictly increasing and within 1..counter when the next version is appended |
| DesignState.AddToHistoryFrom | backend/state_manager.py:140-144 | every entry after the update is the new one or was in the old list |
| DesignState.BackupHistorySnapshots | backend/state_manager.py:90-149 | if every history version had a SCAD snapshot before a backup, it still has one after |
| DesignState.InitialInv | backend/state_manager.py:13-21 | the start-up state satisfies the invariant |
| DesignState.BackupInv | backend/state_manager.py:90-149 | a backup preserves the invariant: coherent cached parameters, bounded and ordered history, a snapshot per history version |
| DesignRoutes.ToParams | backend/routes/design_routes.py:100 | the reported modifications have exactly the names the LLM proposed |
| DesignRoutes.Diff | backend/routes/design_routes.py:103-107 | the change report holds only new parameters, each with its new value |
| DesignRoutes.DiffExactly | backend/routes/design_routes.py:103-107 | the loop over `new_params` (`DiffLoop`), in any key order, reports exactly `Diff`: a parameter iff it is new or its value compares unequal as a Python number (5 equals 5.0), with its new value |
| DesignRoutes.DiffLoopPrefix | backend/routes/design_routes.py:103-107 | after visiting some of the keys, the loop has reported exactly the visited keys that are new or changed, with their new values |
| DesignRoutes.DiffOfSame | backend/routes/design_routes.py:103-107 | comparing parameters with themselves reports nothing |
| DesignRoutes.ApplyAnswer | backend/routes/design_routes.py:50-83 | an answer applies iff it carries modifications without code, or code; it touches only the modifier and the designs |
| DesignRoutes.Modify | backend/routes/design_routes.py:13-124 | no project gives 400, clarification changes nothing, and an empty answer gives 500. Code is staged with the head kept; parameters rewrite the head (corrected rewrite). Once the answer is applied, the route succeeds exactly when the render does, and a failed render gives 500. A modify never creates a version; a preview exists exactly after success; the reported changes are as proposed or the parameter diff |
| DesignRoutes.CommitPending | backend/routes/design_routes.py:141-158 | a staged edit becomes the head file and head text with re-extracted parameters and nothing staged; without one nothing changes |
| DesignRoutes.Approve | backend/routes/design_routes.py:127-184 | without a preview, 400. With a loaded project, the staged edit is committed and a new version saved; the answer names it and its STL backup, and the preview stays |
| DesignRoutes.Reject | backend/routes/design_routes.py:187-204 | discards the staged edit and changes nothing else; without a project, 500 |
| DesignRoutes.RejectIdempotent | backend/routes/design_routes.py:187-204 | rejecting twice is rejecting once, and with nothing staged a reject changes nothing |
| DesignRoutes.ApproveTwice | backend/routes/design_routes.py:140-176 | a second approve keeps the head and still saves another version, because the preview remains |
| DesignRoutes.ApproveAfterFailedRender | backend/routes/design_routes.py:67-93 | a code edit whose render fails answers 500 but stays staged, and a later approve commits it |
| DesignRoutes.ModifyInv | backend/routes/design_routes.py:13-124 | modify preserves the state invariant |
| DesignRoutes.ApproveInv | backend/routes/design_routes.py:127-184 | approve preserves the state invariant |
| DesignRoutes.RejectInv | backend/routes/design_routes.py:187-204 | reject preserves the state invariant |
| VersionRoutes.FirstWithId | backend/routes/version_routes.py:46-50 | finds the first history entry with the id, or reports that none has it |
| VersionRoutes.UpdateDescription | backend/routes/version_routes.py:30-68 | missing or empty id or description gives 400, an unknown id 404; otherwise only the first entry with that id gets the new description |
| VersionRoutes.UpdateDescriptionInv | backend/routes/version_routes.py:30-68 | editing a description preserves the state invariant |
| VersionRoutes.Matching | backend/routes/version_routes.py:87 | the files considered are exactly the listed ones with the version's prefix |
| VersionRoutes.Reinstate | backend/routes/version_routes.py:104-115 | the snapshot text becomes the head file and head text, nothing is staged, the version becomes active, nothing else changes |
| VersionRoutes.SnapshotText | backend/routes/version_routes.py:87-102 | a snapshot text is found iff some SCAD snapshot has the version's prefix, and it is that file's content |
| VersionRoutes.Restore | backend/routes/version_routes.py:71-165 | a missing or zero version gives 400 and a missing snapshot 404 with nothing changed. Success reinstates a snapshot of that version and makes it active; no version is created and the history is untouched |
| VersionRoutes.RestoreSucceeds | backend/routes/version_routes.py:71-165 | a restore succeeds iff a snapshot exists, a project is loaded, and an STL backup exists or the render succeeds; then its state is the reinstated, saved state |
| VersionRoutes.RestoreInv | backend/routes/version_routes.py:71-165 | restore preserves the state invariant |
| VersionRoutes.RestoreIgnoresHistory | backend/routes/version_routes.py:86-115 | the outcome of a restore does not depend on the history list |
| VersionRoutes.RestoreSameButHead | backend/routes/version_routes.py:104-149 | whatever its outcome, a restore only moves the head, the active version and the saved file |
| VersionRoutes.ReinstateAbsorbs | backend/routes/version_routes.py:104-149 | reinstating from a state that differs only in its head gives the same result |
| VersionRoutes.RestoreOverridesRestore | backend/routes/version_routes.py:71-165 | a successful restore after any other restore gives the same answer and state as restoring directly |
| VersionRoutes.UpdateParameters | backend/routes/version_routes.py:168-225 | empty parameters give 400. The head is rewritten (corrected rewrite) even if the render fails, and the staged edit is kept. The update succeeds exactly when the rewritten head renders, and otherwise gives 500. A version is saved exactly when a backup was requested and the render succeeded; the preview is untouched |
| VersionRoutes.UpdateParametersInv | backend/routes/version_routes.py:168-225 | updating parameters preserves the state invariant |
| ProjectRoutes.SplitExtBase | backend/routes/project_routes.py:98 | `os.path.splitext(name)[0]` is a prefix of the name ending just before its last extension dot |
| ProjectRoutes.SplitExtOfScad | backend/routes/project_routes.py:98 | for any `b` whose last path component is not all dots, `b.scad` splits back to `b` |
| ProjectRoutes.WithoutScad | backend/routes/project_routes.py:50-56 | exactly the .scad files are removed from the designs directory; the rest are kept as they were |
| ProjectRoutes.UploadScad | backend/routes/project_routes.py:25-122 | no file or a non-.scad name gives 400. An accepted file replaces all .scad designs and resets counter, history and STL snapshots, even if its render fails. A rendered file becomes the project and its version 1; earlier SCAD snapshots survive |
| ProjectRoutes.UploadKeepsOldSnapshots | backend/routes/project_routes.py:63-76 | after an upload, an earlier project's version-1 SCAD snapshot is still stored beside the new one |
| ProjectRoutes.UploadInv | backend/routes/project_routes.py:25-122 | upload preserves the state invariant |
| ProjectRoutes.ClearProject | backend/routes/project_routes.py:125-174 | resets counter, name, modifier, history, state file, preview and both snapshot directories; keeps the designs and the active version |
| ProjectRoutes.ClearInv | backend/routes/project_routes.py:125-174 | clear establishes the state invariant from any state |
| ProjectRoutes.RestoreAfterClear | backend/routes/project_routes.py:139-148 | after a clear no version has a SCAD snapshot to restore |
| ProjectRoutes.SetProjectName | backend/routes/project_routes.py:177-210 | a missing or blank name gives 400 and null 500; else the stripped name is stored and saved with a loaded project, nothing else changes |
| ProjectRoutes.SetProjectNameStable | backend/routes/project_routes.py:183-190 | setting the stored (stripped) name again stores the same name |
| ProjectRoutes.SetProjectNameInv | backend/routes/project_routes.py:177-210 | naming preserves the state invariant |
| Engine.StepInv | backend/routes_register.py:11-28 | every route preserves the state invariant |
| Engine.RunInv | backend/routes_register.py:11-28 | every sequence of requests from an invariant state ends in an invariant state |
| Engine.StepKeepsSnapshot | backend/state_manager.py:114-147 | no request except clear removes the SCAD snapshot of a version |
| Engine.RunKeepsSnapshot | backend/state_manager.py:114-147 | over any run without a clear, a version that had a SCAD snapshot keeps one |
| Engine.StepCounter | backend/state_manager.py:90-94 | apart from upload and clear, a request raises the version counter by at most one |
| Engine.StepHistory | backend/routes/version_routes.py:114 | modify, reject, restore and naming never change the counter or the history |
| LlmReply.Fallback | backend/llm_handlers/llm_handler_groq.py:246-255 | the fallback answer asks for clarification, proposes no modifications and carries no code |
| LlmReply.Default | backend/llm_handlers/llm_handler_groq.py:144-147 | a field left out by the LLM gets the default; one present is kept |
| LlmReply.BraceSlice | backend/llm_handlers/llm_handler_restricted.py:93-99 | no JSON iff a brace is missing. Otherwise the text from the first `{` to the last `}` inclusive, or empty when they are out of order |
| LlmReply.CutAndSlice | backend/llm_handlers/llm_handler_groq.py:185-198 | after cutting at the last `}`, a candidate exists iff a `{` comes first; it spans from the first `{` to the last `}` |
| LlmReply.CutKeepsBraces | backend/llm_handlers/llm_handler_groq.py:186-193 | cutting after the last `}` keeps that brace last and keeps the first `{` when it comes before |
| LlmReply.BareObjectIsCandidate | backend/llm_handlers/llm_handler_groq.py:171-198 | a reply that is a bare `{...}` without code fences is passed to the JSON decoder unchanged |
| LlmReply.FirstLineIsBrace | backend/llm_handlers/llm_handler_groq.py:177-182 | if the first line starts with `{`, the preamble removal keeps the whole text |
| LlmReply.NoFences | backend/llm_handlers/llm_handler_groq.py:174 | a reply without code fences is unchanged by the fence removal |
| Text.ReplaceAbsent | backend/llm_handlers/llm_handler_groq.py:174 | removing a fence that does not occur leaves the text unchanged |
| Text.ReplaceAllLength | backend/llm_handlers/llm_handler_groq.py:158-160 | `replace` changes the length by `len(new) - len(old)` once per occurrence that `count` counts |
| Text.CountZero | benchmark/llm_handler_openai.py:191-196 | `count` is zero exactly when the pattern does not occur (`p in s` is false) |
| LlmReply.StripUntouched | backend/llm_handlers/llm_handler_groq.py:184 | stripping text without surrounding white space leaves it unchanged |
| LlmReply.ReplacePairRemoves | backend/llm_handlers/llm_handler_groq.py:155-160 | after replacing every backslash-x pair, and given no backslash-y pair before, none of either is left |
| LlmReply.FixEscapes | backend/llm_handlers/llm_handler_groq.py:155-160 | the fixed code contains no literal backslash-n or backslash-t |
| LlmReply.FixEscapesPlain | backend/llm_handlers/llm_handler_groq.py:155-160 | code without backslashes is left as it is |
| LlmReply.FixEscapesRoundTrip | backend/llm_handlers/llm_handler_groq.py:155-160 | backslash-free code whose newlines and tabs were written as backslash-n and backslash-t comes back exactly |
| LlmReply.UnescapeNewlines | backend/llm_handlers/llm_handler_groq.py:158 | the first replacement turns every backslash-n back into a newline and leaves the escaped tabs |
| LlmReply.UnescapeTabs | backend/llm_handlers/llm_handler_groq.py:160 | the second replacement turns every backslash-t back into a tab |
| LlmReply.FixCode | backend/llm_handlers/llm_handler_groq.py:150-160 | a code list of strings becomes the un-escaped join of its parts, and string code is un-escaped. A list holding a non-string makes the join raise (`None`), and absent or other non-string code is untouched. No backslash-n or backslash-t pair is left |
| LlmReply.Join | backend/llm_handlers/llm_handler_groq.py:150-153 | joining one part gives that part, and the result is at least as long as every part |
| LlmReply.JoinAppend | backend/llm_handlers/llm_handler_groq.py:150-153 | `''.join` of two concatenated lists is the concatenation of their joins |
| LlmReply.JoinSnoc | backend/llm_handlers/llm_handler_groq.py:150-153 | one more part appends exactly that part, with no separator |
| RestrictedHandler.Fallback | backend/llm_handlers/llm_handler_restricted.py:136-146 | the fallback asks for clarification, proposes no modifications and is not a rejection |
| RestrictedHandler.EffectiveParams | backend/llm_handlers/llm_handler_restricted.py:15-25 | without given parameters but with content, the names assigned in the content are used; any replacement is what the extraction computes |
| RestrictedHandler.Validate | backend/llm_handlers/llm_handler_restricted.py:109-122 | the filtered modifications are never more than proposed |
| RestrictedHandler.ValidateSpec | backend/llm_handlers/llm_handler_restricted.py:109-122 | raises iff some proposal exists and parameters are None or a known parameter got a value that is neither a number nor a boolean. Otherwise the kept proposals are in order, each a number or boolean for a known parameter within ±20 %, and every such proposal is kept |
| RestrictedHandler.BooleanAsInteger | backend/llm_handlers/llm_handler_restricted.py:112-118 | a JSON `true`/`false` is judged as Python judges `bool`: as the integer 1/0 against the ±20 % bound; it is kept as the boolean itself |
| RestrictedHandler.UnchangedValueKept | backend/llm_handlers/llm_handler_restricted.py:113-118 | proposing a parameter's current value always passes the filter |
| RestrictedHandler.ValidateAdmissible | backend/llm_handlers/llm_handler_restricted.py:109-122 | proposals that all pass are returned unchanged |
| RestrictedHandler.ValidateIdempotent | backend/llm_handlers/llm_handler_restricted.py:109-122 | filtering the filtered result changes nothing |
| RestrictedHandler.WithDefaults | backend/llm_handlers/llm_handler_restricted.py:102-106 | `rejected` defaults to false and `rejection_reason` to null; present values and other fields are kept |
| RestrictedHandler.ReversedBracesFallBack | backend/llm_handlers/llm_handler_restricted.py:93-100 | a reply whose last `}` precedes its first `{` slices to empty text, which `json.loads` rejects, so the handler falls back |
| RestrictedHandler.Interpret | backend/llm_handlers/llm_handler_restricted.py:71-134 | a failed call, no braces, braces out of order or undecodable JSON give the fallback. Absent `modifications` or a raising filter escape as an exception. Otherwise the reply is the decoded one with defaults, and its modifications are exactly what `Validate` keeps of the proposals; `null` or an empty dict is returned as it came |
| RestrictedHandler.InterpretFilters | backend/llm_handlers/llm_handler_restricted.py:109-122 | the modifications the caller receives are the proposals in order with some dropped. Every acceptable proposal is among them, and so is every value equal to the current one |
| RestrictedHandler.EmptyModificationsPassThrough | backend/llm_handlers/llm_handler_restricted.py:109 | a reply with an empty modification dict is returned with only the defaults added |
| GroqHandler.UsesFullScad | backend/llm_handlers/llm_handler_groq.py:31-41 | full-code mode is chosen iff the lower-cased request contains one of the nine add/create phrases |
| GroqHandler.RoutingIgnoresCase | backend/llm_handlers/llm_handler_groq.py:35-38 | requests that differ only in letter case are routed the same way |
| GroqHandler.CodeModeReply | backend/llm_handlers/llm_handler_groq.py:141-163 | `mode` defaults to code_modification and `changes_summary` to empty; code is joined and un-escaped; nothing else changes. A code list holding a non-string raises (`None`) |
| GroqHandler.ParameterModeReply | backend/llm_handlers/llm_handler_groq.py:84-91 | `mode` defaults to parameter_modification; nothing else changes |
| GroqHandler.Interpret | backend/llm_handlers/llm_handler_groq.py:26-207 | a failed call, no JSON candidate or undecodable JSON give the fallback. In full-code mode a code list holding a non-string also gives the fallback. Routed replies keep all decoded fields apart from the defaults and code fix-ups of their mode |
| GroqHandler.ParameterModeKeepsCode | backend/llm_handlers/llm_handler_groq.py:84-91 | parameter mode passes any decoded code through unmodified |
| BenchmarkHandler.StructuralRatio | benchmark/llm_handler_openai.py:188-207 | a change is structural iff the module count differs or the translate/cube count moved by a ratio above 0.2 of a non-zero old count |
| BenchmarkHandler.IdenticalNotStructural | benchmark/llm_handler_openai.py:188-207 | unchanged code is never structural |
| BenchmarkHandler.NoTransformsOnlyModulesCount | benchmark/llm_handler_openai.py:199-205 | with no translate/cube in the old code only the module count decides |
| BenchmarkHandler.ModuleCountStructural | benchmark/llm_handler_openai.py:199-200 | a different module count is always structural |
| BenchmarkHandler.ModuleAt | benchmark/llm_handler_openai.py:162 | a match at i is `module`, white space, a non-empty word name, white space and `(`, and the name is the word between them |
| BenchmarkHandler.ModuleAtFinds | benchmark/llm_handler_openai.py:162 | conversely, wherever `module`, white space, a word, white space and `(` occur at i, the match at i yields exactly that word |
| BenchmarkHandler.FirstModule | benchmark/llm_handler_openai.py:162 | the first position at or after i where the pattern matches: no earlier position matches, and it matches there unless there is none |
| BenchmarkHandler.ModuleSearch | benchmark/llm_handler_openai.py:162 | `re.search` yields the name of the first match at or after i (no position before it matches), or reports that none exists |
| BenchmarkHandler.CompleteModuleCall | benchmark/llm_handler_openai.py:155-167 | code without `module `, already ending in `);`, or with no module header is left alone; otherwise the result is the stripped code, the comment line, the name of the first module header and `();` with a newline |
| BenchmarkHandler.WithCall | benchmark/llm_handler_openai.py:166 | the result is the code, `\n\n// Generate the design\n`, the name and `();\n`; once stripped it ends in `);` |
| BenchmarkHandler.CompleteIdempotent | benchmark/llm_handler_openai.py:155-167 | completing the module call twice is completing it once |
| BenchmarkHandler.WithDefaults | benchmark/llm_handler_openai.py:131-135 | `mode` and `changes_summary` get defaults; nothing else changes |
| BenchmarkHandler.Override | benchmark/llm_handler_openai.py:169-178 | the override asks for clarification without code, mode or modifications and keeps what was understood |
| BenchmarkHandler.RepairCode | benchmark/llm_handler_openai.py:142-167 | repaired code is a string whose module call is already complete; absent or non-string code, and a list the join rejects, is untouched |
| BenchmarkHandler.Judge | benchmark/llm_handler_openai.py:169-186 | the answer never carries code with structural changes unless it asks for clarification |
| BenchmarkHandler.Shape | benchmark/llm_handler_openai.py:128-186 | a clarifying or code-less reply gets only the defaults. Non-string code, or a code list the join rejects, gives the fallback. Accepted code is the only field changed, and structural code never gets through |
| BenchmarkHandler.SameStructureAccepted | benchmark/llm_handler_openai.py:142-186 | repaired code of the same structure is accepted into the reply with the defaults |
| BenchmarkHandler.StructuralChangeRejected | benchmark/llm_handler_openai.py:169-177 | repaired code with structural changes turns the reply into the override |
| BenchmarkHandler.ModuleCountChangeRejected | benchmark/llm_handler_openai.py:169-178 | repaired code with another module count turns the reply into the override |
| BenchmarkHandler.Interpret | benchmark/llm_handler_openai.py:24-245 | a failed call, no JSON or undecodable JSON give the fallback. A clarifying reply gets only the defaults. No answer carries structurally changed code unless it asks for clarification |

## Left out

- The read-only routes `get_history` and `get_current_design`, and the file,
  slicer and test routes: they do not change the edit or version state.
- `analyze_stl`, the STL mesh and its statistics: `analysis` fields in
  responses are omitted. `generate_stl` is the `render` parameter, and the
  model records only whether the preview `modified.stl` exists, not the
  contents of `current.stl`.
- Saving and loading projects as zip archives (`save_project`,
  `load_project`): archive I/O only.
- HTTP calls to the LLM services, the prompt texts and console output:
  the reply text is a parameter.
- `json.loads`: it is the `decode` parameter. `_fix_literal_newlines`, the
  retry after a control-character error, is folded into it. The handlers
  require only that it rejects empty text, as `json.loads("")` does; on
  other text it is unconstrained.
- Exceptions from the file system (permissions, a missing designs
  directory) and the generic 500 handlers that catch them.
- Concurrency between requests: every route is one atomic step.
- Timestamps and `time.time()`: a `Clock` parameter.
- Non-ASCII `\w`, `\d` and case mapping: only ASCII is modelled, which
  matches the SCAD text the tool handles.
- JSON values of unexpected types (a string where a number is expected,
  nested objects as parameters): a proposal that is neither a number nor a
  boolean is `NotNumber`, and other shapes are not modelled. A boolean is
  `Boolean` and counts as 0 or 1, as Python's `bool` does. A
  `new_scad_code` list is either all strings (`CodeParts`) or holds some
  other value (`CodeMixed`), which makes `''.join` raise; the element
  values of such a list are not modelled.
- `float(value)` on a literal with a '.': the model reads the digits into
  an exact real, without IEEE rounding (`ScadParams.ParseLit`).
- RestrictedHandler.Within: floats are exact reals, so IEEE rounding at
  the ±20 % boundary is not modelled.
- BenchmarkHandler.HasStructuralChanges: the ratio is compared over the
  integers (`5·|new−old| > old`). StructuralRatio proves this equal to the
  exact real ratio; it is not the float division the code performs.
- ScadParams.RewriteAll: Python's `str()` of a number is the `show`
  parameter, so the literal text written back is not pinned down in
  general. `ScadRewrite.RewriteAllNatValues` pins it down for non-negative
  integers (`str(n)` is the decimal text of n); `str()` of a float is not
  modelled.
- DesignState.ApplyModifications: it uses the corrected rewrite
  `ScadParams.RewriteAll`, not the pattern of `backend/design_modifier.py:86`
  as written. That pattern also rewrites statements whose name merely ends
  in the parameter name (`aw = 5;` for `w`), so "unknown names leave the
  text unchanged" holds of the model and not of the code (see "## Findings").
- DesignState.ApplyModifications: the parameter name is put into the regex
  unescaped. A name holding regex metacharacters is not modelled: `a(`
  makes `re.sub` raise, the method returns False and `modify` answers 500,
  while `update_parameters` ignores the result; `w.dth` also rewrites
  `width`. The model treats every name as a literal word.
- DesignRoutes.Modify: parameter mode goes through the corrected rewrite,
  so its contract about the rewritten head describes the corrected
  behaviour, not the suffix matches or regex errors of the code.
- VersionRoutes.UpdateParameters: the same; the head it writes is the
  corrected rewrite of the proposed values.
- ScadRewrite.RewriteExtract: a fact about the corrected rewrite. As
  written, setting `w` also rewrites `aw = 5;`, so `aw` would change too.
  It also requires the new text to be a decimal literal.
- ScadRewrite.RewriteAllExtract: requires `str()` of every new value to be
  a decimal literal. A negative value is written back as `-3;` and a small
  float as `1e-05;`. The extraction pattern no longer matches those, so the
  parameter drops out of the extracted dict; the lemma does not cover them.
- ScadRewrite.RewriteAllValues: the same requirement on `str()`, and it
  describes the corrected rewrite only. ScadRewrite.RewriteAllNatValues
  discharges the requirement for non-negative integer values.
- ScadParams.RewriteAllAbsent: holds of the corrected rewrite only; the
  code as written changes `aw = 5;` when asked to set `w`.
- ScadParams.SpliceAbsent: likewise a fact about the corrected splice,
  which matches whole statement names.
- StateManager.LoadDesignState: a state field holding JSON `null` (or any
  non-integer) is not modelled. `state.get('version', 0)` would load
  `None` and the next `backup_version` would raise. Only
  `save_design_state` writes the file and it always writes integers
  (`StateManager.SaveDesignState`), so the model's fields are either
  missing or integers.
- Engine.Step and Engine.Run: they are compositions of the route
  functions and carry no contract of their own; their properties are the
  Engine lemmas.
- The `llm_handler.py` and `llm_handler_advanced.py` handlers and the
  backup copies of older code: they are not part of this model.

## Findings

| source | as written | input that shows it | evidently intended | confidence | as-written member | corrected member |
|---|---|---|---|---|---|---|
| backend/design_modifier.py:86-88 | the pattern `{param}\s*=` has no left word boundary, so it also matches any parameter whose name ends in `param` | modifying `w` to 7 in `aw=5;` gives `aw=7;` although `w` is not a parameter | only statements whose whole name is the parameter are rewritten | high, not executed | ScadParams.SuffixNameCounterexample | ScadParams.RewriteAbsentName |

=== FILE: design_routes.dfy ===
/**
 `backend/routes/design_routes.py`: modify (stage an edit and render a
 preview), approve (commit the staged edit and save a version) and reject
 (drop the staged edit). The LLM is an oracle whose answer is an
 `Interpretation`; `show` is Python's `str()` of a JSON number.
 */
module DesignRoutes {
  import opened Text
  import opened ScadParams
  import opened StateManager
  import opened DesignState

  /** The fields of the LLM answer the route reads: a modifications dict
      (in its JSON order; empty when absent) and new SCAD code ("" when
      absent). */
  datatype Interpretation = Interpretation(
    needsClarification: bool,
    modifications: seq<(string, Num)>,
    newScadCode: string)

  /** The dict a JSON object of numbers becomes: a later key wins. */
  function ToParams(mods: seq<(string, Num)>): (p: Params)
    ensures forall k :: k in p <==> exists i :: 0 <= i < |mods| && mods[i].0 == k
    decreases |mods|
  {
    if |mods| == 0 then map[]
    else
      var init := mods[..|mods| - 1];
      var p := ToParams(init)[mods[|mods| - 1].0 := mods[|mods| - 1].1];
      assert forall i :: 0 <= i < |init| ==> init[i] == mods[i];
      p
  }

  /** The parameters whose value changed: keys of `after` that `before` lacks
      or holds with a different number (`5 == 5.0` in Python). */
  function Diff(before: Params, after: Params): (d: Params)
    ensures d.Keys <= after.Keys
    ensures forall k :: k in d ==> d[k] == after[k]
  {
    map k | k in after && (k !in before || NumValue(before[k]) != NumValue(after[k])) :: after[k]
  }

  /** The reporting loop itself: walk `new_params` in the order `keys`
      and record a key when `old_params.get(key)` is `None` or compares
      unequal to the new value. */
  function DiffLoop(before: Params, after: Params, keys: seq<string>): (d: Params)
    requires forall i :: 0 <= i < |keys| ==> keys[i] in after
    ensures d.Keys <= after.Keys
  {
    if |keys| == 0 then map[]
    else
      var d := DiffLoop(before, after, keys[..|keys| - 1]);
      var key := keys[|keys| - 1];
      if key !in before || NumValue(before[key]) != NumValue(after[key]) then d[key := after[key]] else d
  }

  /** The loop visits a prefix of the keys: it has reported exactly the
      visited keys that `Diff` reports, with their new values. */
  lemma {:induction false} DiffLoopPrefix(before: Params, after: Params, keys: seq<string>)
    requires forall i :: 0 <= i < |keys| ==> keys[i] in after
    ensures forall k :: k in DiffLoop(before, after, keys) <==> k in Diff(before, after) && k in keys
    ensures forall k :: k in DiffLoop(before, after, keys) ==> DiffLoop(before, after, keys)[k] == after[k]
  {
    if |keys| > 0 {
      var init := keys[..|keys| - 1];
      DiffLoopPrefix(before, after, init);
      assert keys == init + [keys[|keys| - 1]];
    }
  }

  /** A loop over all of `new_params` reports the same dict as `Diff`: a
      key is reported exactly when it is new or its value compares unequal
      as a Python number (5 equals 5.0), whatever the visiting order. */
  lemma {:induction false} DiffExactly(before: Params, after: Params, keys: seq<string>)
    requires forall i :: 0 <= i < |keys| ==> keys[i] in after
    requires forall k :: k in after ==> k in keys
    ensures DiffLoop(before, after, keys) == Diff(before, after)
  {
    DiffLoopPrefix(before, after, keys);
    assert DiffLoop(before, after, keys).Keys == Diff(before, after).Keys;
  }

  lemma {:induction false} DiffOfSame(p: Params)
    ensures Diff(p, p) == map[]
  {
    assert Diff(p, p).Keys == {};
  }

  /** Parameter mode: the answer names modifications and no code. */
  predicate ParameterMode(i: Interpretation) {
    |i.modifications| > 0 && i.newScadCode == ""
  }

  /** Full-code mode: the answer carries new code. */
  predicate CodeMode(i: Interpretation) {
    i.newScadCode != ""
  }

  /** Step 3 of `modify_design`: apply the answer; `None` when it carries
      neither modifications nor code. */
  function ApplyAnswer(st: State, i: Interpretation, show: Num -> string): (r: Option<State>)
    requires st.modifier.Some?
    ensures r.Some? <==> ParameterMode(i) || CodeMode(i)
    ensures r.Some? ==> r.value.modifier.Some? && r.value.modifier.value.scadFile == st.modifier.value.scadFile
    ensures r.Some? ==> r.value.(modifier := st.modifier, designs := st.designs) == st
  {
    if ParameterMode(i) then Some(ApplyModifications(st, i.modifications, show))
    else if CodeMode(i) then Some(st.(modifier := Some(ApplyScadModification(st.modifier.value, i.newScadCode))))
    else None
  }

  /** `new_params`: the staged parameters when there are some, else the
      head's. */
  function ShownParams(m: Modifier): Params {
    if m.pending.Some? && |m.pending.value.params| > 0 then m.pending.value.params else m.params
  }

  /** `modify_design`. */
  function Modify(st: State, i: Interpretation, render: string -> bool, show: Num -> string): (r: Outcome)
    ensures st.modifier.None? ==> r == Outcome(Error(400), st)
    ensures st.modifier.Some? && i.needsClarification ==> r == Outcome(ClarificationNeeded, st)
    ensures st.modifier.Some? && !i.needsClarification && !ParameterMode(i) && !CodeMode(i)
            ==> r == Outcome(Error(500), st)
    // a modification never creates a version
    ensures r.state.counter == st.counter && r.state.active == st.active
    ensures r.state.history == st.history && r.state.scadVersions == st.scadVersions
    ensures r.state.stlVersions == st.stlVersions && r.state.saved == st.saved
    ensures r.state.projectName == st.projectName
    // full-code mode stages the code and leaves the head alone
    ensures st.modifier.Some? && !i.needsClarification && CodeMode(i) ==>
              r.state.modifier == Some(st.modifier.value.(pending := Some(Staged(i.newScadCode, Extract(i.newScadCode)))))
              && r.state.designs == st.designs
    // parameter mode rewrites the head file directly
    ensures st.modifier.Some? && !i.needsClarification && ParameterMode(i) ==>
              var text := RewriteAll(st.modifier.value.content, i.modifications, show);
              r.state.modifier == Some(st.modifier.value.(content := text, params := Extract(text)))
              && r.state.designs == st.designs[st.modifier.value.scadFile := text]
    // once the answer is applied, the route succeeds exactly when the render does
    ensures st.modifier.Some? && !i.needsClarification && ApplyAnswer(st, i, show).Some? ==>
              (r.response.Modified? <==> Rendered(ApplyAnswer(st, i, show).value, render)) &&
              (!r.response.Modified? ==> r.response == Error(500))
    // the preview exists after a success and is untouched by a failure
    ensures r.response.Modified? ==> r.state.preview
    ensures !r.response.Modified? ==> r.state.preview == st.preview
    ensures r.response.Modified? ==>
              st.modifier.Some? && r.state.modifier.Some? &&
              r.response.newParameters == ShownParams(r.state.modifier.value) &&
              r.response.modifications ==
                (if |i.modifications| > 0 then ToParams(i.modifications)
                 else Diff(st.modifier.value.params, r.response.newParameters))
  {
    if st.modifier.None? then Outcome(Error(400), st)
    else if i.needsClarification then Outcome(ClarificationNeeded, st)
    else
      var before := st.modifier.value.params;
      match ApplyAnswer(st, i, show)
      case None => Outcome(Error(500), st)
      case Some(st1) =>
        if !Rendered(st1, render) then Outcome(Error(500), st1)
        else
          var shown := ShownParams(st1.modifier.value);
          var reported := if |i.modifications| > 0 then ToParams(i.modifications) else Diff(before, shown);
          Outcome(Modified(reported, shown), st1.(preview := true))
  }

  /** The first half of `approve_design`: a staged edit is written to the
      head file and becomes the head, with fresh parameters and nothing
      pending; without one nothing changes. */
  function CommitPending(st: State): (r: State)
    requires st.modifier.Some?
    ensures st.modifier.value.pending.Some? ==>
              var p := st.modifier.value.pending.value.content;
              r.modifier == Some(NewModifier(st.modifier.value.scadFile, p)) &&
              r.designs == st.designs[st.modifier.value.scadFile := p]
    ensures st.modifier.value.pending.None? ==> r == st
    ensures r.(modifier := st.modifier, designs := st.designs) == st
    ensures HeadExists(r)
            || (st.modifier.value.pending.None? && st.modifier.value.scadFile !in st.designs)
  {
    var m := st.modifier.value;
    if m.pending.Some? then
      st.(modifier := Some(NewModifier(m.scadFile, m.pending.value.content)),
          designs := st.designs[m.scadFile := m.pending.value.content])
    else st
  }

  /** `approve_design`. */
  function Approve(st: State, desc: JsonText, clock: Clock): (r: Outcome)
    ensures !st.preview ==> r == Outcome(Error(400), st)
    ensures st.preview && st.modifier.None? ==> r == Outcome(Error(500), st)
    ensures st.preview && st.modifier.Some? ==>
              r.response == Approved(st.counter + 1, StlBackupName(st.counter + 1, TextArg(desc, "design_approved"), clock))
    ensures st.preview && st.modifier.Some? ==>
              r.state.modifier == CommitPending(st).modifier && r.state.designs == CommitPending(st).designs
    // a version is saved; the preview stays
    ensures st.preview && st.modifier.Some? ==>
              r.state.counter == st.counter + 1 && r.state.active == r.state.counter && r.state.preview
  {
    if !st.preview then Outcome(Error(400), st)
    else if st.modifier.None? then Outcome(Error(500), st)
    else
      var n := st.counter + 1;
      var desc' := TextArg(desc, "design_approved");
      Outcome(Approved(n, StlBackupName(n, desc', clock)), Backup(CommitPending(st), desc', clock))
  }

  /** `reject_design`. */
  function Reject(st: State): (r: Outcome)
    ensures st.modifier.None? ==> r == Outcome(Error(500), st)
    ensures st.modifier.Some? ==> r.response == Rejected
    ensures st.modifier.Some? ==> r.state.modifier.Some? && r.state.modifier.value.pending.None?
    ensures st.modifier.Some? ==> r.state.modifier.value.(pending := st.modifier.value.pending) == st.modifier.value
    ensures r.state.(modifier := st.modifier) == st
  {
    match st.modifier
    case None => Outcome(Error(500), st)
    case Some(m) => Outcome(Rejected, st.(modifier := Some(m.(pending := None))))
  }

  /** Rejecting twice is rejecting once; with nothing staged it changes
      nothing. */
  lemma {:induction false} RejectIdempotent(st: State)
    requires st.modifier.Some?
    ensures Reject(Reject(st).state) == Reject(st)
    ensures st.modifier.value.pending.None? ==> Reject(st).state == st
  {
  }

  /** Approve followed by approve: the second finds nothing staged, keeps
      the head, and still saves another version because the preview is
      still there. */
  lemma {:induction false} ApproveTwice(st: State, d1: JsonText, d2: JsonText, c1: Clock, c2: Clock)
    requires st.preview && st.modifier.Some?
    ensures var s1 := Approve(st, d1, c1).state;
      var s2 := Approve(s1, d2, c2).state;
      s2.modifier == s1.modifier && s2.designs == s1.designs && s2.counter == st.counter + 2
  {
  }

  /** An edit whose render failed stays staged and, because the preview of
      an earlier edit is still on disk, approve commits the unrendered text. */
  lemma {:induction false} ApproveAfterFailedRender(st: State, i: Interpretation, render: string -> bool,
                                 show: Num -> string, desc: JsonText, clock: Clock)
    requires st.preview && st.modifier.Some? && !i.needsClarification && CodeMode(i)
    requires !render(i.newScadCode)
    ensures Modify(st, i, render, show).response == Error(500)
    ensures var s1 := Modify(st, i, render, show).state;
      Approve(s1, desc, clock).response.Approved? &&
      Approve(s1, desc, clock).state.modifier.value.content == i.newScadCode
  {
  }

  /** The modify routes keep the invariant. */
  lemma {:induction false} ModifyInv(st: State, i: Interpretation, render: string -> bool, show: Num -> string)
    requires Inv(st)
    ensures Inv(Modify(st, i, render, show).state)
  {
  }

  lemma {:induction false} ApproveInv(st: State, desc: JsonText, clock: Clock)
    requires Inv(st)
    ensures Inv(Approve(st, desc, clock).state)
  {
    if st.preview && st.modifier.Some? {
      BackupInv(CommitPending(st), TextArg(desc, "design_approved"), clock);
    }
  }

  lemma {:induction false} RejectInv(st: State)
    requires Inv(st)
    ensures Inv(Reject(st).state)
  {
  }
}

=== FILE: design_state.dfy ===
/**
 The state the route handlers share, made explicit: the loaded
 `DesignModifier` (head file, cached content and parameters, staged pending
 edit), the designs directory, the `modified.stl` preview, the module
 globals of `backend/state_manager.py`, the history list, the two snapshot
 directories and the persisted design-state file. Rendering is an oracle
 `render: string -> bool` (does OpenSCAD produce an STL for this text?).
 */
module DesignState {
  import opened Text
  import opened ScadParams
  import opened StateManager

  /** Content staged by a full-code edit, with its parameters. */
  datatype Staged = Staged(content: string, params: Params)

  /** The loaded `DesignModifier`: the head file (a name in the designs
      directory), its cached content and parameters, and the staged edit. */
  datatype Modifier = Modifier(scadFile: string, content: string, params: Params, pending: Option<Staged>)

  /** What the clock reads when a version is saved: the `%Y%m%d_%H%M%S`
      stamp of the file names, the milliseconds of the history id, and the
      ISO time of the history entry. */
  datatype Clock = Clock(stamp: string, millis: int, iso: string)

  datatype State = State(
    modifier: Option<Modifier>,
    designs: map<string, string>,          // designs/: file name -> text
    preview: bool,                          // models/modified.stl exists
    counter: int,                           // version_counter
    active: int,                            // active_version
    projectName: Option<string>,
    history: seq<Entry>,                    // models/history.json
    scadVersions: Option<map<string, string>>, // models/versions/scad/, None when removed
    stlVersions: set<string>,               // *.stl names in models/versions/
    saved: Option<SavedState>)              // models/design_state.json

  /** A JSON text field of a request body: absent, `null`, or a string. */
  datatype JsonText = Missing | Null | Text(s: string)

  /** `data.get(key, default)` for a text field; `null` is Python's `None`. */
  function TextArg(j: JsonText, default: string): (r: Option<string>)
    ensures j.Missing? ==> r == Some(default)
    ensures j.Null? ==> r.None?
    ensures j.Text? ==> r == Some(j.s)
  {
    match j
    case Missing => Some(default)
    case Null => None
    case Text(s) => Some(s)
  }

  /** Python truthiness of a text field: present and non-empty. */
  predicate Truthy(j: JsonText) {
    j.Text? && j.s != ""
  }

  datatype Response =
    | Error(status: int)
    | ClarificationNeeded
    | Modified(modifications: Params, newParameters: Params)
    | Approved(version: int, backup: string)
    | Rejected
    | DescriptionUpdated
    | Restored(parameters: Params, version: int)
    | ParametersUpdated(parameters: Params, newVersion: Option<int>, newBackup: Option<string>)
    | Uploaded(parameters: Params, initialVersion: int, initialBackup: string)
    | Cleared
    | ProjectNamed(name: string)

  /** What a route answers and the state it leaves behind. */
  datatype Outcome = Outcome(response: Response, state: State)

  /** The state right after start-up with an empty designs directory. */
  function Initial(): (st: State)
    ensures st.modifier.None? && !st.preview && st.counter == 0 && st.history == []
  {
    State(None, map[], false, 0, 0, None, [], Some(map[]), {}, None)
  }

  /** `DesignModifier(path)`: reads the file and extracts its parameters;
      nothing is pending. */
  function NewModifier(file: string, content: string): (m: Modifier)
    ensures m.scadFile == file && m.content == content
    ensures m.params == Extract(content) && m.pending.None?
  {
    Modifier(file, content, Extract(content), None)
  }

  /** The cached parameters are those of the cached text, and the staged
      parameters those of the staged text. */
  predicate Coherent(m: Modifier) {
    m.params == Extract(m.content) &&
    (m.pending.Some? ==> m.pending.value.params == Extract(m.pending.value.content))
  }

  /** `apply_scad_modification`: stages `code` with its parameters; the
      head is not touched. */
  function ApplyScadModification(m: Modifier, code: string): (r: Modifier)
    ensures r.pending.Some? && r.pending.value.content == code
    ensures r.scadFile == m.scadFile && r.content == m.content && r.params == m.params
    ensures Coherent(m) ==> Coherent(r)
  {
    m.(pending := Some(Staged(code, Extract(code))))
  }

  /** `apply_modifications`: rewrites the head, writes it to the head file
      and re-extracts the parameters; a staged edit is left alone. */
  function ApplyModifications(st: State, mods: seq<(string, Num)>, show: Num -> string): (r: State)
    requires st.modifier.Some?
    ensures r.modifier.Some? && r.modifier.value.scadFile == st.modifier.value.scadFile
    ensures r.modifier.value.pending == st.modifier.value.pending
    ensures r.modifier.value.params == Extract(r.modifier.value.content)
    ensures r.designs == st.designs[st.modifier.value.scadFile := r.modifier.value.content]
    ensures |mods| == 0 ==> r.modifier.value.content == st.modifier.value.content
    ensures (forall k :: 0 <= k < |mods| ==> mods[k].0 !in Extract(st.modifier.value.content))
            ==> r.modifier.value.content == st.modifier.value.content
    ensures Coherent(st.modifier.value) ==> Coherent(r.modifier.value)
    ensures r.(modifier := st.modifier, designs := st.designs) == st
  {
    var m := st.modifier.value;
    var text := RewriteAll(m.content, mods, show);
    RewriteAllAbsentHelper(m.content, mods, show);
    st.(modifier := Some(m.(content := text, params := Extract(text))),
        designs := st.designs[m.scadFile := text])
  }

  lemma {:induction false} RewriteAllAbsentHelper(s: string, mods: seq<(string, Num)>, show: Num -> string)
    ensures (forall k :: 0 <= k < |mods| ==> mods[k].0 !in Extract(s)) ==> RewriteAll(s, mods, show) == s
  {
    if forall k :: 0 <= k < |mods| ==> mods[k].0 !in Extract(s) {
      RewriteAllAbsent(s, mods, show);
    }
  }

  /** The text `generate_stl` hands to OpenSCAD: the staged edit when there
      is one, else the head file on disk (`None` when that file is gone). */
  function RenderSource(st: State): (r: Option<string>)
    requires st.modifier.Some?
    ensures st.modifier.value.pending.Some? ==> r == Some(st.modifier.value.pending.value.content)
    ensures st.modifier.value.pending.None? && st.modifier.value.scadFile in st.designs
            ==> r == Some(st.designs[st.modifier.value.scadFile])
    ensures st.modifier.value.pending.None? && st.modifier.value.scadFile !in st.designs ==> r.None?
  {
    var m := st.modifier.value;
    if m.pending.Some? then Some(m.pending.value.content)
    else if m.scadFile in st.designs then Some(st.designs[m.scadFile])
    else None
  }

  /** `generate_stl` succeeds. */
  predicate Rendered(st: State, render: string -> bool)
    requires st.modifier.Some?
  {
    RenderSource(st).Some? && render(RenderSource(st).value)
  }

  /** The head file the modifier points at is present. */
  predicate HeadExists(st: State) {
    st.modifier.Some? && st.modifier.value.scadFile in st.designs
  }

  /** The globals as `save_design_state` writes them. */
  function GlobalsOf(st: State): Globals {
    StateManager.Globals(st.counter, st.active, st.projectName)
  }

  /** `save_design_state(modifier)`: writes the state file when a project
      is loaded. */
  function Save(st: State): (r: State)
    ensures st.modifier.None? ==> r == st
    ensures st.modifier.Some? ==>
              r.saved.Some? && LoadDesignState(r.saved, GlobalsOf(Initial())) == GlobalsOf(st)
    ensures r.(saved := st.saved) == st
  {
    match st.modifier
    case None => st
    case Some(m) =>
      LoadAfterSave(GlobalsOf(st), m.params, m.scadFile, GlobalsOf(Initial()));
      st.(saved := Some(SaveDesignState(GlobalsOf(st), m.params, m.scadFile)))
  }

  /** The file-name slug and snapshot names of a backup. */
  function BackupSlug(desc: Option<string>): string {
    DescSafe(CleanDescription(desc))
  }

  function StlBackupName(n: int, desc: Option<string>, clock: Clock): string {
    SnapshotName(n, clock.stamp, BackupSlug(desc), ".stl")
  }

  function ScadBackupName(n: int, desc: Option<string>, clock: Clock): string {
    SnapshotName(n, clock.stamp, BackupSlug(desc), ".scad")
  }

  /** `backup_version(stl_path, description, modifier)` at a call site
      where `stl_path` exists (all three callers render it first). */
  function Backup(st: State, desc: Option<string>, clock: Clock): (r: State)
    ensures r.counter == st.counter + 1 && r.active == r.counter
    ensures r.stlVersions == st.stlVersions + {StlBackupName(r.counter, desc, clock)}
    ensures r.scadVersions.Some?
    ensures st.scadVersions.Some? ==> forall f :: f in st.scadVersions.value ==> f in r.scadVersions.value
    ensures HeadExists(st) ==>
      r.scadVersions.value == (if st.scadVersions.Some? then st.scadVersions.value else map[])
                                [ScadBackupName(r.counter, desc, clock) := st.designs[st.modifier.value.scadFile]]
    ensures HeadExists(st) ==> |r.history| == Min(|st.history| + 1, HistoryLimit)
    ensures HeadExists(st) ==>
              r.history[|r.history| - 1] == Entry(HistoryId(r.counter, clock.millis), r.counter, clock.iso, CleanDescription(desc), st.modifier.value.params)
    ensures !HeadExists(st) ==>
              r.history == st.history && r.scadVersions.value == (if st.scadVersions.Some? then st.scadVersions.value else map[])
    ensures st.modifier.Some? ==> LoadDesignState(r.saved, GlobalsOf(Initial())) == GlobalsOf(r)
    ensures st.modifier.None? ==> r.saved == st.saved
    ensures r.modifier == st.modifier && r.designs == st.designs && r.preview == st.preview
    ensures r.projectName == st.projectName
  {
    var n := st.counter + 1;
    var clean := CleanDescription(desc);
    var scad := if st.scadVersions.Some? then st.scadVersions.value else map[];
    var st1 := st.(counter := n, active := n,
                   stlVersions := st.stlVersions + {StlBackupName(n, desc, clock)});
    var st2 :=
      if HeadExists(st) then
        var m := st.modifier.value;
        st1.(scadVersions := Some(scad[ScadBackupName(n, desc, clock) := st.designs[m.scadFile]]),
             history := AddToHistory(st.history, Entry(HistoryId(n, clock.millis), n, clock.iso, clean, m.params)))
      else st1.(scadVersions := Some(scad));
    Save(st2)
  }

  /** Some SCAD snapshot is stored for version `n`. */
  predicate SnapshotFor(scad: Option<map<string, string>>, n: int) {
    scad.Some? && exists f :: f in scad.value && StartsWith(f, SnapshotPrefix(n))
  }

  /** History versions increase along the list and lie in 1..counter. */
  predicate HistoryOrdered(h: seq<Entry>, counter: int) {
    (forall i, j :: 0 <= i < j < |h| ==> h[i].version < h[j].version) &&
    (forall i :: 0 <= i < |h| ==> 1 <= h[i].version <= counter)
  }

  /** What every reachable state satisfies. */
  predicate Inv(st: State) {
    st.counter >= 0 &&
    (st.modifier.Some? ==> Coherent(st.modifier.value)) &&
    (st.preview ==> st.modifier.Some?) &&
    |st.history| <= HistoryLimit &&
    HistoryOrdered(st.history, st.counter) &&
    (forall i :: 0 <= i < |st.history| ==> SnapshotFor(st.scadVersions, st.history[i].version))
  }

  lemma {:induction false} InitialInv()
    ensures Inv(Initial())
  {
  }

  /** A snapshot, once stored, survives a backup. */
  lemma {:induction false} BackupKeepsSnapshots(st: State, desc: Option<string>, clock: Clock, n: int)
    requires SnapshotFor(st.scadVersions, n)
    ensures SnapshotFor(Backup(st, desc, clock).scadVersions, n)
  {
    var f :| f in st.scadVersions.value && StartsWith(f, SnapshotPrefix(n));
    assert f in Backup(st, desc, clock).scadVersions.value;
  }

  /** A backup of an existing head stores a snapshot the restore lookup for
      the new version finds. */
  lemma {:induction false} BackupStoresSnapshot(st: State, desc: Option<string>, clock: Clock)
    requires HeadExists(st)
    ensures SnapshotFor(Backup(st, desc, clock).scadVersions, st.counter + 1)
  {
    var f := ScadBackupName(st.counter + 1, desc, clock);
    assert f in Backup(st, desc, clock).scadVersions.value;
  }

  /** A suffix of an ordered history with a newer version after it is ordered. */
  lemma {:induction false} SuffixAppendOrdered(h: seq<Entry>, k: nat, counter: int, e: Entry)
    requires k <= |h| && counter >= 0 && HistoryOrdered(h, counter) && e.version == counter + 1
    ensures HistoryOrdered(h[k..] + [e], counter + 1)
  {
    var r := h[k..] + [e];
    assert forall i :: 0 <= i < |r| - 1 ==> r[i] == h[k + i];
  }

  /** Appending a newer version keeps the history ordered. */
  lemma {:induction false} AddToHistoryOrdered(h: seq<Entry>, counter: int, e: Entry)
    requires counter >= 0 && HistoryOrdered(h, counter) && e.version == counter + 1
    ensures HistoryOrdered(AddToHistory(h, e), counter + 1)
  {
    var k :| 0 <= k <= |h| && AddToHistory(h, e) == h[k..] + [e];
    SuffixAppendOrdered(h, k, counter, e);
  }

  /** Every entry of `AddToHistory(h, e)` is `e` or an entry of `h`. */
  lemma {:induction false} AddToHistoryFrom(h: seq<Entry>, e: Entry)
    ensures forall i :: 0 <= i < |AddToHistory(h, e)| ==>
      AddToHistory(h, e)[i] == e || AddToHistory(h, e)[i] in h
  {
    var r := AddToHistory(h, e);
    var k :| 0 <= k <= |h| && r == h[k..] + [e];
    assert forall i :: 0 <= i < |r| - 1 ==> r[i] == h[k + i];
  }

  /** Every history version of the backed-up state has a snapshot. */
  lemma {:induction false} BackupHistorySnapshots(st: State, desc: Option<string>, clock: Clock)
    requires forall i :: 0 <= i < |st.history| ==> SnapshotFor(st.scadVersions, st.history[i].version)
    ensures var r := Backup(st, desc, clock);
      forall i :: 0 <= i < |r.history| ==> SnapshotFor(r.scadVersions, r.history[i].version)
  {
    var r := Backup(st, desc, clock);
    forall e | e in st.history
      ensures SnapshotFor(r.scadVersions, e.version)
    {
      BackupKeepsSnapshots(st, desc, clock, e.version);
    }
    if HeadExists(st) {
      BackupStoresSnapshot(st, desc, clock);
      AddToHistoryFrom(st.history, r.history[|r.history| - 1]);
    }
  }

  /** The backed-up history stays ordered and within the limit. */
  lemma {:induction false} BackupHistoryOrdered(st: State, desc: Option<string>, clock: Clock)
    requires st.counter >= 0 && HistoryOrdered(st.history, st.counter)
    ensures var r := Backup(st, desc, clock);
      HistoryOrdered(r.history, r.counter) && (|st.history| <= HistoryLimit ==> |r.history| <= HistoryLimit)
  {
    var r := Backup(st, desc, clock);
    if HeadExists(st) {
      AddToHistoryOrdered(st.history, st.counter, r.history[|r.history| - 1]);
    } else {
      assert HistoryOrdered(r.history, r.counter);
    }
  }

  /** `backup_version` keeps the invariant. */
  lemma {:induction false} BackupInv(st: State, desc: Option<string>, clock: Clock)
    requires Inv(st)
    ensures Inv(Backup(st, desc, clock))
  {
    BackupHistorySnapshots(st, desc, clock);
    BackupHistoryOrdered(st, desc, clock);
  }
}

=== FILE: engine.dfy ===
/**
 The routes as one state machine: an operation is one request to one of
 the routes, and a run is a sequence of requests served one after another
 (Flask's development server handles them in turn; the module globals are
 the state). Undo and redo are restore requests.
 */
module Engine {
  import opened Text
  import opened ScadParams
  import opened StateManager
  import opened DesignState
  import opened DesignRoutes
  import opened VersionRoutes
  import opened ProjectRoutes

  datatype Op =
    | ModifyOp(answer: Interpretation)
    | ApproveOp(description: JsonText, clock: Clock)
    | RejectOp
    | UpdateDescriptionOp(id: JsonText, newDescription: JsonText)
    | RestoreOp(version: Option<int>, listing: seq<string>)
    | UpdateParametersOp(params: seq<(string, Num)>, backupDescription: JsonText, createBackup: bool, backupClock: Clock)
    | UploadOp(file: Option<Upload>, uploadClock: Clock)
    | ClearOp
    | SetProjectNameOp(name: JsonText)

  /** A restore request comes with the listing of the snapshot directory
      as it is at that moment. */
  predicate ValidOp(st: State, op: Op) {
    op.RestoreOp? && st.scadVersions.Some? ==> IsListing(op.listing, st.scadVersions.value.Keys)
  }

  function Step(st: State, op: Op, render: string -> bool, show: Num -> string): Outcome
    requires ValidOp(st, op)
  {
    match op
    case ModifyOp(i) => Modify(st, i, render, show)
    case ApproveOp(d, c) => Approve(st, d, c)
    case RejectOp => Reject(st)
    case UpdateDescriptionOp(id, d) => UpdateDescription(st, id, d)
    case RestoreOp(v, l) => Restore(st, v, l, render)
    case UpdateParametersOp(p, d, b, c) => UpdateParameters(st, p, d, b, render, show, c)
    case UploadOp(f, c) => UploadScad(st, f, render, c)
    case ClearOp => ClearProject(st)
    case SetProjectNameOp(n) => SetProjectName(st, n)
  }

  predicate ValidRun(st: State, ops: seq<Op>, render: string -> bool, show: Num -> string)
    decreases |ops|
  {
    |ops| == 0 ||
    (ValidOp(st, ops[0]) && ValidRun(Step(st, ops[0], render, show).state, ops[1..], render, show))
  }

  /** The state after serving `ops` in order. */
  function Run(st: State, ops: seq<Op>, render: string -> bool, show: Num -> string): State
    requires ValidRun(st, ops, render, show)
    decreases |ops|
  {
    if |ops| == 0 then st
    else Run(Step(st, ops[0], render, show).state, ops[1..], render, show)
  }

  /** Every request keeps the invariant. */
  lemma {:induction false} StepInv(st: State, op: Op, render: string -> bool, show: Num -> string)
    requires Inv(st) && ValidOp(st, op)
    ensures Inv(Step(st, op, render, show).state)
  {
    match op
    case ModifyOp(i) => ModifyInv(st, i, render, show);
    case ApproveOp(d, c) => ApproveInv(st, d, c);
    case RejectOp => RejectInv(st);
    case UpdateDescriptionOp(id, d) => UpdateDescriptionInv(st, id, d);
    case RestoreOp(v, l) => RestoreInv(st, v, l, render);
    case UpdateParametersOp(p, d, b, c) => UpdateParametersInv(st, p, d, b, render, show, c);
    case UploadOp(f, c) => UploadInv(st, f, render, c);
    case ClearOp => ClearInv(st);
    case SetProjectNameOp(n) => SetProjectNameInv(st, n);
  }

  /** Every reachable state satisfies the invariant: the cached parameters
      always match their text, a preview implies a loaded project, and every
      version in the (at most 50-entry, strictly increasing) history can be
      found by the restore lookup. */
  lemma {:induction false} RunInv(st: State, ops: seq<Op>, render: string -> bool, show: Num -> string)
    requires Inv(st) && ValidRun(st, ops, render, show)
    ensures Inv(Run(st, ops, render, show))
    decreases |ops|
  {
    if |ops| > 0 {
      StepInv(st, ops[0], render, show);
      RunInv(Step(st, ops[0], render, show).state, ops[1..], render, show);
    }
  }

  /** Only a clear removes SCAD snapshots. */
  lemma {:induction false} StepKeepsSnapshot(st: State, op: Op, render: string -> bool, show: Num -> string, n: int)
    requires ValidOp(st, op) && !op.ClearOp?
    requires SnapshotFor(st.scadVersions, n)
    ensures SnapshotFor(Step(st, op, render, show).state.scadVersions, n)
  {
    var f :| f in st.scadVersions.value && StartsWith(f, SnapshotPrefix(n));
    match op
    case ApproveOp(d, c) =>
      if st.preview && st.modifier.Some? {
        BackupKeepsSnapshots(CommitPending(st), TextArg(d, "design_approved"), c, n);
      }
    case UpdateParametersOp(p, d, b, c) =>
      if |p| > 0 && st.modifier.Some? {
        var st1 := ApplyModifications(st, p, show);
        if Rendered(st1, render) && b {
          BackupKeepsSnapshots(st1, TextArg(d, "parameters_updated"), c, n);
        }
      }
    case UploadOp(u, c) =>
      assert f in Step(st, op, render, show).state.scadVersions.value;
    case _ =>
  }

  /** A saved version stays restorable through any run without a clear,
      even after the 50-entry history has dropped it. */
  lemma {:induction false} RunKeepsSnapshot(st: State, ops: seq<Op>, render: string -> bool, show: Num -> string, n: int)
    requires ValidRun(st, ops, render, show)
    requires forall k :: 0 <= k < |ops| ==> !ops[k].ClearOp?
    requires SnapshotFor(st.scadVersions, n)
    ensures SnapshotFor(Run(st, ops, render, show).scadVersions, n)
    decreases |ops|
  {
    if |ops| > 0 {
      StepKeepsSnapshot(st, ops[0], render, show, n);
      RunKeepsSnapshot(Step(st, ops[0], render, show).state, ops[1..], render, show, n);
    }
  }

  /** The version counter moves only forward, one step at a time, except
      for an upload or a clear, which reset it. */
  lemma {:induction false} StepCounter(st: State, op: Op, render: string -> bool, show: Num -> string)
    requires ValidOp(st, op) && !op.UploadOp? && !op.ClearOp?
    ensures var c := Step(st, op, render, show).state.counter;
      c == st.counter || c == st.counter + 1
  {
  }

  /** Only approve and update-parameters with a backup create versions;
      every other request leaves counter and history alone (upload and
      clear reset them). */
  lemma {:induction false} StepHistory(st: State, op: Op, render: string -> bool, show: Num -> string)
    requires ValidOp(st, op)
    requires op.ModifyOp? || op.RejectOp? || op.RestoreOp? || op.SetProjectNameOp?
    ensures Step(st, op, render, show).state.counter == st.counter
    ensures Step(st, op, render, show).state.history == st.history
  {
  }
}

=== FILE: llm_benchmark.dfy ===
/**
 The safety-restricted OpenAI interpreter of `benchmark/llm_handler_openai.py`:
 every request goes to full-code mode, a reply asking for clarification is
 returned as is, generated code gets its escapes undone and a missing
 top-level module call appended, and code that looks structurally
 different from the current design is replaced by a rejection. The HTTP
 call and `json.loads` are parameters.
 */
module BenchmarkHandler {
  import opened Text
  import opened ScadParams
  import opened LlmReply

  /** Preamble markers this handler looks for. */
  const Markers: seq<string> := ["Here is", "Here's"]

  const FallbackReasoning := "There was an error processing your request. Please try again."

  const CallComment := "\n\n// Generate the design\n"

  const OverrideUnderstood := "Structural modification detected"
  const OverrideReasoning := "Security override: Structural changes detected in restricted mode"
  const OverrideQuestion :=
    "This modification appears to add or remove structural elements. Please use unrestricted mode for this request."

  function IntAbs(x: int): nat {
    if x < 0 then -x else x
  }

  /** `_has_structural_changes`: the number of `module ` keywords differs,
      or the number of `translate(` plus `cube(` calls moved by more than
      20 % of a non-zero old count. The ratio test is written over the
      integers: `|new - old| / old > 0.2` exactly when `5 |new - old| > old`. */
  function HasStructuralChanges(before: string, after: string): bool {
    var oldModules := Count(before, "module ");
    var newModules := Count(after, "module ");
    var oldTransforms := Count(before, "translate(") + Count(before, "cube(");
    var newTransforms := Count(after, "translate(") + Count(after, "cube(");
    if oldModules != newModules then true
    else if oldTransforms > 0 then 5 * IntAbs(newTransforms - oldTransforms) > oldTransforms
    else false
  }

  /** The check in the source's own terms, with the ratio as a real
      number: a different module count, or a relative change of the
      transform count above 0.2. */
  lemma {:induction false} StructuralRatio(before: string, after: string)
    ensures var om := Count(before, "module ");
      var nm := Count(after, "module ");
      var ot := Count(before, "translate(") + Count(before, "cube(");
      var nt := Count(after, "translate(") + Count(after, "cube(");
      HasStructuralChanges(before, after) <==>
        om != nm || (ot > 0 && (IntAbs(nt - ot) as real) / (ot as real) > 0.2)
  {
    RatioTest(Count(before, "translate(") + Count(before, "cube("),
              Count(after, "translate(") + Count(after, "cube("));
  }

  /** The integer form of the transform test agrees with the real ratio. */
  lemma {:induction false} RatioTest(ot: nat, nt: nat)
    ensures (ot > 0 && 5 * IntAbs(nt - ot) > ot) <==>
            (ot > 0 && (IntAbs(nt - ot) as real) / (ot as real) > 0.2)
  {
    if ot > 0 {
      RatioAbove(IntAbs(nt - ot) as real, ot as real);
    }
  }

  lemma {:induction false} RatioAbove(d: real, o: real)
    requires o > 0.0
    ensures d / o > 0.2 <==> 5.0 * d > o
  {
    var q := d / o;
    assert d == q * o;
    assert 5.0 * d - o == (5.0 * q - 1.0) * o;
    if 5.0 * q - 1.0 > 0.0 {
      PositiveProduct(5.0 * q - 1.0, o);
    } else {
      NonPositiveProduct(5.0 * q - 1.0, o);
    }
  }

  lemma {:induction false} PositiveProduct(x: real, y: real)
    requires x > 0.0 && y > 0.0
    ensures x * y > 0.0
  {
  }

  lemma {:induction false} NonPositiveProduct(x: real, y: real)
    requires x <= 0.0 && y > 0.0
    ensures x * y <= 0.0
  {
  }

  /** Unchanged code is never structural. */
  lemma {:induction false} IdenticalNotStructural(code: string)
    ensures !HasStructuralChanges(code, code)
  {
  }

  /** When there is nothing to count in the old design beyond its modules,
      only a change of the module count is structural. */
  lemma {:induction false} NoTransformsOnlyModulesCount(before: string, after: string)
    requires Count(before, "translate(") + Count(before, "cube(") == 0
    ensures HasStructuralChanges(before, after) <==> Count(before, "module ") != Count(after, "module ")
  {
  }

  /** The pattern `module\s+(\w+)\s*\(` read declaratively: `module` at
      `i`, white space up to `b`, the name `s[b..c]`, white space up to
      `d`, and `(` at `d`. */
  predicate ModuleDecl(s: string, i: nat, b: nat, c: nat, d: nat) {
    OccursAt(s, "module", i) && i + 6 < b < c <= d < |s| &&
    (forall k :: i + 6 <= k < b ==> IsSpace(s[k])) &&
    (forall k :: b <= k < c ==> IsWord(s[k])) &&
    (forall k :: c <= k < d ==> IsSpace(s[k])) &&
    s[d] == '('
  }

  /** The pattern matches at `i` and captures `name`. */
  ghost predicate DeclaresAt(s: string, i: nat, name: string) {
    exists b: nat, c: nat, d: nat :: ModuleDecl(s, i, b, c, d) && name == s[b..c]
  }

  /** A module name: a non-empty run of word characters. */
  predicate WordName(name: string) {
    |name| > 0 && forall k :: 0 <= k < |name| ==> IsWord(name[k])
  }

  /** `module\s+(\w+)\s*\(` tried at `i`: the module name, if it matches. */
  function ModuleAt(s: string, i: nat): (r: Option<string>)
    ensures r.Some? ==> DeclaresAt(s, i, r.value) && WordName(r.value)
  {
    if OccursAt(s, "module", i) then
      var a := i + 6;
      var b := SpaceEnd(s, a);
      if b == a then None
      else
        var c := WordEnd(s, b);
        if c == b then None
        else
          var d := SpaceEnd(s, c);
          if d < |s| && s[d] == '(' then
            assert ModuleDecl(s, i, b, c, d);
            assert forall k :: 0 <= k < c - b ==> s[b..c][k] == s[b + k];
            Some(s[b..c])
          else None
    else None
  }

  /** The converse: wherever the pattern matches, `ModuleAt` finds it. The
      white-space and word runs of a match are maximal, so the name is
      unique. */
  lemma {:induction false} ModuleAtFinds(s: string, i: nat, b: nat, c: nat, d: nat)
    requires ModuleDecl(s, i, b, c, d)
    ensures ModuleAt(s, i) == Some(s[b..c])
  {
    SpaceEndOfRun(s, i + 6, b);
    WordEndOfRun(s, b, c);
    SpaceEndOfRun(s, c, d);
  }

  /** The pattern matches at no position from `i` up to, not including, `k`. */
  predicate NoModuleBetween(s: string, i: nat, k: nat) {
    forall j :: i <= j < k ==> ModuleAt(s, j).None?
  }

  /** The first position at or after `i` where the pattern matches, or
      `|s| + 1` when there is none. */
  function FirstModule(s: string, i: nat): (k: nat)
    requires i <= |s|
    ensures i <= k <= |s| + 1
    ensures NoModuleBetween(s, i, k)
    ensures k <= |s| ==> ModuleAt(s, k).Some?
    decreases |s| - i
  {
    if ModuleAt(s, i).Some? then i
    else if i == |s| then |s| + 1
    else
      var k := FirstModule(s, i + 1);
      NoModuleBefore(s, i, k);
      k
  }

  /** A position without a match extends a match-free range on its left. */
  lemma {:induction false} NoModuleBefore(s: string, i: nat, k: nat)
    requires ModuleAt(s, i).None? && NoModuleBetween(s, i + 1, k)
    ensures NoModuleBetween(s, i, k)
  {
  }

  /** `re.search`: the name captured at the first position at or after `i`
      where the pattern matches. */
  function ModuleSearch(s: string, i: nat): (r: Option<string>)
    requires i <= |s|
    ensures r.Some? ==> exists k :: i <= k <= |s| && ModuleAt(s, k) == r && NoModuleBetween(s, i, k)
    ensures r.None? ==> NoModuleBetween(s, i, |s| + 1)
  {
    var k := FirstModule(s, i);
    if k <= |s| then ModuleAt(s, k) else None
  }

  /** Appends a call of the first declared module when the code declares
      modules but does not end in a call; the stripped code is what gets
      extended. */
  function CompleteModuleCall(code: string): (r: string)
    ensures !Contains(Strip(code), "module ") ==> r == code
    ensures EndsWith(RStrip(Strip(code)), ");") ==> r == code
    ensures ModuleSearch(Strip(code), 0).None? ==> r == code
    ensures Contains(Strip(code), "module ") && !EndsWith(RStrip(Strip(code)), ");") &&
            ModuleSearch(Strip(code), 0).Some? ==>
              r == Strip(code) + CallComment + ModuleSearch(Strip(code), 0).value + "();\n"
    ensures r != code ==> StartsWith(r, Strip(code)) && EndsWith(RStrip(Strip(r)), ");")
  {
    var sc := Strip(code);
    if Contains(sc, "module ") && !EndsWith(RStrip(sc), ");") then
      match ModuleSearch(sc, 0)
      case None => code
      case Some(name) => WithCall(sc, name)
    else code
  }

  /** `scad_code + '\n\n// Generate the design\n' + module_name + '();\n'`. */
  function WithCall(sc: string, name: string): (r: string)
    requires |sc| > 0 && !IsSpace(sc[0])
    ensures r == sc + CallComment + name + "();\n"
    ensures StartsWith(r, sc) && EndsWith(RStrip(Strip(r)), ");")
  {
    var x := sc + CallComment + name + "(";
    assert x[0] == sc[0];
    AppendedCallEnds(x);
    assert (x + ");\n")[..|sc|] == sc;
    assert x + ");\n" == sc + CallComment + name + "();\n";
    x + ");\n"
  }

  /** Text that starts with a non-space character and has `);` and a
      newline appended ends, once stripped, in `);`. */
  lemma {:induction false} AppendedCallEnds(x: string)
    requires |x| > 0 && !IsSpace(x[0])
    ensures EndsWith(RStrip(Strip(x + ");\n")), ");")
  {
    var body := x + ");";
    var r := body + "\n";
    assert x + ");\n" == r;
    assert r[0] == x[0];
    assert LStrip(r) == r;
    assert r[..|r| - 1] == body;
    assert RStrip(body) == body;
    assert Strip(r) == body;
  }

  /** Completing twice is completing once: after the call is appended the
      code ends in `);` and is left alone. */
  lemma {:induction false} CompleteIdempotent(code: string)
    ensures CompleteModuleCall(CompleteModuleCall(code)) == CompleteModuleCall(code)
  {
  }

  /** `interpret_modification` (always full-code mode). `response` is the
      model's text, `None` when the HTTP call raised or did not answer
      200; `decode` is `json.loads` (with its one retry after the
      literal-newline repair), `None` when it raises (as it always does on
      empty text). `current` is the
      design text the structural check compares against. */
  function Interpret(current: string, response: Option<string>, decode: string -> Option<Reply>): (r: Reply)
    requires decode("") == None
    ensures response.None? ==> r == Fallback(FallbackReasoning)
    ensures response.Some? && JsonCandidate(response.value, Markers).None? ==> r == Fallback(FallbackReasoning)
    ensures r.needsClarification || r.newScadCode.NoCode? ||
            (r.newScadCode.CodeText? && !HasStructuralChanges(current, r.newScadCode.text))
    ensures response.Some? && JsonCandidate(response.value, Markers).Some? ==>
      var decoded := decode(JsonCandidate(response.value, Markers).value);
      && (decoded.None? ==> r == Fallback(FallbackReasoning))
      && (decoded.Some? && decoded.value.needsClarification ==>
            r == WithDefaults(decoded.value))
  {
    if response.None? then Fallback(FallbackReasoning)
    else
      var json := JsonCandidate(response.value, Markers);
      if json.None? then Fallback(FallbackReasoning)
      else
        var decoded := decode(json.value);
        if decoded.None? then Fallback(FallbackReasoning)
        else Shape(current, decoded.value)
  }

  /** Missing `mode` and `changes_summary` are filled in. */
  function WithDefaults(p: Reply): (r: Reply)
    ensures r.mode.Present? && r.changesSummary.Present?
    ensures r.(mode := p.mode, changesSummary := p.changesSummary) == p
  {
    p.(mode := Default(p.mode, "code_modification"), changesSummary := Default(p.changesSummary, []))
  }

  /** The rejection that replaces a structurally different reply: it asks
      for clarification and carries no code. */
  function Override(p: Reply): (r: Reply)
    ensures r.needsClarification && r.newScadCode.NoCode?
    ensures r.modifications.Absent? && r.mode.Absent?
    ensures p.understood.Present? ==> r.understood == p.understood
  {
    Reply(if p.understood.Present? then p.understood else Present(Some(OverrideUnderstood)),
          Absent, Absent, NoCode, Present(OverrideReasoning), true, Present(Some(OverrideQuestion)), Absent)
  }

  /** Everything after decoding: early return on clarification, code
      repair and completion, and the structural override. A code value that
      is not a string (or `null`) makes the structural check raise, which
      ends in the fallback. */
  function Shape(current: string, decoded: Reply): (r: Reply)
    ensures decoded.needsClarification ==> r == WithDefaults(decoded)
    ensures !decoded.needsClarification && decoded.newScadCode.NoCode? ==> r == WithDefaults(decoded)
    ensures !decoded.needsClarification && (decoded.newScadCode.CodeOther? || decoded.newScadCode.CodeMixed?) ==>
      r == Fallback(FallbackReasoning)
    ensures r.needsClarification || r.newScadCode.NoCode? ||
            (r.newScadCode.CodeText? && !HasStructuralChanges(current, r.newScadCode.text))
    ensures !r.needsClarification && r.newScadCode.CodeText? ==>
      r == WithDefaults(decoded).(newScadCode := r.newScadCode)
  {
    var p := WithDefaults(decoded);
    if p.needsClarification then p
    else Judge(current, p, RepairCode(p.newScadCode))
  }

  /** The code repair: a list is joined, escapes are undone, and a string
      gets its missing module call. A list the join rejects is left as it
      is, for `Judge` to turn into the fallback. */
  function RepairCode(c: Code): (r: Code)
    ensures !r.CodeParts?
    ensures c.NoCode? || c.CodeOther? || c.CodeMixed? ==> r == c
    ensures r.CodeText? ==> CompleteModuleCall(r.text) == r.text
  {
    match FixCode(c)
    case None => c
    case Some(CodeText(t)) =>
      var u := CompleteModuleCall(t);
      CompleteIdempotent(t);
      CodeText(u)
    case Some(other) => other
  }

  /** The structural check on repaired code; a value that is not a string
      makes the check raise, and a list the join rejected has already
      raised; both end in the fallback. */
  function Judge(current: string, p: Reply, code: Code): (r: Reply)
    requires !code.CodeParts?
    ensures r.needsClarification || r.newScadCode.NoCode? ||
            (r.newScadCode.CodeText? && !HasStructuralChanges(current, r.newScadCode.text))
  {
    match code
    case NoCode => p.(newScadCode := code)
    case CodeText(t) => if HasStructuralChanges(current, t) then Override(p) else p.(newScadCode := code)
    case CodeMixed => Fallback(FallbackReasoning)
    case CodeOther => Fallback(FallbackReasoning)
  }

  /** A reply whose repaired code has the same structure as the current
      design comes back with that code. */
  lemma {:induction false} SameStructureAccepted(current: string, decoded: Reply, code: string)
    requires !decoded.needsClarification && RepairCode(decoded.newScadCode) == CodeText(code)
    requires !HasStructuralChanges(current, code)
    ensures Shape(current, decoded) == WithDefaults(decoded).(newScadCode := CodeText(code))
  {
  }

  /** ... and one whose repaired code changes the structure is always
      overridden. */
  lemma {:induction false} StructuralChangeRejected(current: string, decoded: Reply, code: string)
    requires !decoded.needsClarification && RepairCode(decoded.newScadCode) == CodeText(code)
    requires HasStructuralChanges(current, code)
    ensures Shape(current, decoded) == Override(WithDefaults(decoded))
  {
  }

  /** In particular, a change in the number of modules is overridden. */
  lemma {:induction false} ModuleCountChangeRejected(current: string, decoded: Reply, code: string)
    requires !decoded.needsClarification && RepairCode(decoded.newScadCode) == CodeText(code)
    requires Count(current, "module ") != Count(code, "module ")
    ensures Shape(current, decoded) == Override(WithDefaults(decoded))
  {
    ModuleCountStructural(current, code);
    StructuralChangeRejected(current, decoded, code);
  }

  lemma {:induction false} ModuleCountStructural(before: string, after: string)
    requires Count(before, "module ") != Count(after, "module ")
    ensures HasStructuralChanges(before, after)
  {
  }
}

=== FILE: llm_groq.dfy ===
/**
 The Groq interpreter of `backend/llm_handlers/llm_handler_groq.py`:
 keyword routing between parameter mode and full-code mode, and the
 shaping of the decoded reply in each mode. The chat-completion call and
 `json.loads` are parameters.
 */
module GroqHandler {
  import opened Text
  import opened ScadParams
  import opened LlmReply

  /** Phrases that send a request to full-code mode. */
  const AddKeywords: seq<string> :=
    ["add a", "add another", "create a", "create another", "new window", "new door", "new wall", "add second", "another window"]

  /** Preamble marker this handler looks for. */
  const Markers: seq<string> := ["Here is"]

  const FallbackReasoning := "Please check your Groq API key and connection"

  /** Whether any of `keys` occurs in `s`. */
  function AnyOccurs(s: string, keys: seq<string>): (b: bool)
    ensures b <==> exists k :: 0 <= k < |keys| && Contains(s, keys[k])
    decreases |keys|
  {
    if |keys| == 0 then false
    else
      assert forall k :: 1 <= k < |keys| ==> keys[k] == keys[1..][k - 1];
      Contains(s, keys[0]) || AnyOccurs(s, keys[1..])
  }

  /** The routing decision: full-code mode exactly when the lower-cased
      request contains one of the keywords. */
  function UsesFullScad(request: string): (b: bool)
    ensures b <==> exists k :: 0 <= k < |AddKeywords| && Contains(Lower(request), AddKeywords[k])
  {
    AnyOccurs(Lower(request), AddKeywords)
  }

  /** Routing ignores letter case: requests that differ only in the case
      of ASCII letters are routed alike. */
  lemma {:induction false} RoutingIgnoresCase(a: string, b: string)
    requires |a| == |b| && forall i :: 0 <= i < |a| ==> ToLower(a[i]) == ToLower(b[i])
    ensures UsesFullScad(a) == UsesFullScad(b)
  {
    assert Lower(a) == Lower(b);
  }

  /** Defaults and code repair of full-code mode; `None` is the join
      raising on a code list that holds something other than a string. */
  function CodeModeReply(p: Reply): (r: Option<Reply>)
    ensures r.None? <==> p.newScadCode.CodeMixed?
    ensures r.Some? ==> r.value.mode.Present? && r.value.changesSummary.Present?
    ensures r.Some? && p.mode.Absent? ==> r.value.mode == Present("code_modification")
    ensures r.Some? && p.changesSummary.Absent? ==> r.value.changesSummary == Present([])
    ensures r.Some? ==> !r.value.newScadCode.CodeParts? && !r.value.newScadCode.CodeMixed?
    ensures r.Some? && r.value.newScadCode.CodeText? ==>
      NoPair(r.value.newScadCode.text, '\\', 'n') && NoPair(r.value.newScadCode.text, '\\', 't')
    ensures r.Some? ==> r.value.(mode := p.mode, changesSummary := p.changesSummary, newScadCode := p.newScadCode) == p
  {
    var code := FixCode(p.newScadCode);
    if code.None? then None
    else
      Some(p.(mode := Default(p.mode, "code_modification"),
              changesSummary := Default(p.changesSummary, []),
              newScadCode := code.value))
  }

  /** Defaults of parameter mode: only `mode` is filled in. */
  function ParameterModeReply(p: Reply): (r: Reply)
    ensures r.mode.Present?
    ensures p.mode.Absent? ==> r.mode == Present("parameter_modification")
    ensures r.(mode := p.mode) == p
  {
    p.(mode := Default(p.mode, "parameter_modification"))
  }

  /** `interpret_modification`. `response` is the model's text in the
      chosen mode, `None` when the client call raised; `decode` is
      `json.loads` (with its one retry after the literal-newline repair),
      `None` when it raises (as it always does on empty text). Every
      exception, the join's `TypeError` included, ends in the fallback. */
  function Interpret(request: string, response: Option<string>, decode: string -> Option<Reply>): (r: Reply)
    requires decode("") == None
    ensures response.None? ==> r == Fallback(FallbackReasoning)
    ensures response.Some? && JsonCandidate(response.value, Markers).None? ==> r == Fallback(FallbackReasoning)
    ensures r.mode.Present?
    ensures response.Some? && JsonCandidate(response.value, Markers).Some? ==>
      var decoded := decode(JsonCandidate(response.value, Markers).value);
      && (decoded.None? ==> r == Fallback(FallbackReasoning))
      && (decoded.Some? && UsesFullScad(request) && decoded.value.newScadCode.CodeMixed? ==>
            r == Fallback(FallbackReasoning))
      && (decoded.Some? && UsesFullScad(request) && !decoded.value.newScadCode.CodeMixed? ==>
            r.changesSummary.Present? && !r.newScadCode.CodeParts? && !r.newScadCode.CodeMixed? &&
            r.(mode := decoded.value.mode, changesSummary := decoded.value.changesSummary,
               newScadCode := decoded.value.newScadCode) == decoded.value)
      && (decoded.Some? && !UsesFullScad(request) ==> r.(mode := decoded.value.mode) == decoded.value)
  {
    if response.None? then Fallback(FallbackReasoning)
    else
      var json := JsonCandidate(response.value, Markers);
      if json.None? then Fallback(FallbackReasoning)
      else
        var decoded := decode(json.value);
        if decoded.None? then Fallback(FallbackReasoning)
        else if UsesFullScad(request) then
          var shaped := CodeModeReply(decoded.value);
          if shaped.None? then Fallback(FallbackReasoning) else shaped.value
        else ParameterModeReply(decoded.value)
  }

  /** Parameter mode never touches the code field: only full-code mode
      repairs code. */
  lemma {:induction false} ParameterModeKeepsCode(request: string, response: string, decode: string -> Option<Reply>)
    requires !UsesFullScad(request) && decode("") == None
    requires JsonCandidate(response, Markers).Some? && decode(JsonCandidate(response, Markers).value).Some?
    ensures Interpret(request, Some(response), decode).newScadCode ==
      decode(JsonCandidate(response, Markers).value).value.newScadCode
  {
  }
}

=== FILE: llm_reply.dfy ===
/**
 Reply handling shared by the LLM handlers: locating the JSON object in
 the text a model returns, and undoing the escape sequences a model
 leaves in generated OpenSCAD code. `json.loads` itself is not modelled;
 the handlers take it as a parameter.
 */
module LlmReply {
  import opened Text
  import opened ScadParams

  /** A key of a decoded JSON object: missing, or present with a value. */
  datatype Field<T> = Absent | Present(value: T)

  /** The value under `new_scad_code`: missing, a string, a list of
      strings, a list holding some element that is not a string (which
      `''.join` rejects with a `TypeError`), or any other JSON value
      (`null` included). */
  datatype Code = NoCode | CodeText(text: string) | CodeParts(parts: seq<string>) | CodeMixed | CodeOther

  /** The keys of a decoded reply that the code-generating handlers read
      or fill in; `needsClarification` is the truth value of
      `reply.get('needs_clarification')`, which is all the routes look at. */
  datatype Reply = Reply(
    understood: Field<Option<string>>,
    mode: Field<string>,
    modifications: Field<seq<(string, Num)>>,
    newScadCode: Code,
    reasoning: Field<string>,
    needsClarification: bool,
    clarificationQuestion: Field<Option<string>>,
    changesSummary: Field<seq<string>>)

  const FallbackUnderstood := "Error communicating with LLM"
  const FallbackQuestion := "Could you rephrase that request?"

  /** The safe answer of both code-generating handlers when the model
      cannot be reached or its reply cannot be parsed; only the reasoning
      text differs between them. */
  function Fallback(reasoning: string): (r: Reply)
    ensures r.needsClarification && r.modifications == Present([])
    ensures r.mode == Present("error") && r.newScadCode.NoCode?
  {
    Reply(Present(Some(FallbackUnderstood)), Present("error"), Present([]), NoCode,
          Present(reasoning), true, Present(Some(FallbackQuestion)), Absent)
  }

  /** `if key not in parsed: parsed[key] = default`. */
  function Default<T>(f: Field<T>, d: T): (r: Field<T>)
    ensures r.Present?
    ensures f.Present? ==> r == f
  {
    if f.Absent? then Present(d) else f
  }

  /** A list-valued `new_scad_code` is joined, and a string value has its
      escape sequences undone; other values are left alone. `None` is the
      join raising on a list that holds something other than a string. */
  function FixCode(c: Code): (r: Option<Code>)
    ensures r.None? <==> c.CodeMixed?
    ensures r.Some? ==> !r.value.CodeParts? && !r.value.CodeMixed?
    ensures r.Some? && r.value.CodeText? ==> NoPair(r.value.text, '\\', 'n') && NoPair(r.value.text, '\\', 't')
    ensures c.NoCode? || c.CodeOther? ==> r == Some(c)
    ensures c.CodeText? ==> r == Some(CodeText(FixEscapes(c.text)))
    ensures c.CodeParts? ==> r == Some(CodeText(FixEscapes(Join(c.parts))))
  {
    match c
    case CodeParts(ps) => Some(CodeText(FixEscapes(Join(ps))))
    case CodeText(t) => Some(CodeText(FixEscapes(t)))
    case CodeMixed => None
    case _ => Some(c)
  }

  function Min(a: int, b: int): int {
    if a < b then a else b
  }

  /** Python's `text[text.find('{'):text.rfind('}') + 1]` after the check
      that both braces occur; `None` is that check failing. The slice is
      empty when the last '}' comes before the first '{'. */
  function BraceSlice(text: string): (r: Option<string>)
    ensures r.None? <==> Find(text, '{') == -1 || RFind(text, '}') == -1
    ensures r.Some? && Find(text, '{') < RFind(text, '}') ==>
      && |r.value| >= 2 && r.value[0] == '{' && r.value[|r.value| - 1] == '}'
      && OccursAt(text, r.value, Find(text, '{'))
      && Find(text, '{') + |r.value| == RFind(text, '}') + 1
    ensures r.Some? && Find(text, '{') > RFind(text, '}') ==> r.value == ""
  {
    var start := Find(text, '{');
    var end := RFind(text, '}') + 1;
    if start == -1 || end == 0 then None
    else if start <= end then Some(text[start..end])
    else Some("")
  }

  /** `text.replace('```json', '').replace('```', '')`. */
  function StripFences(text: string): string {
    ReplaceAll(ReplaceAll(text, "```json", ""), "```", "")
  }

  /** Any of the preamble markers occurs within the first 50 characters. */
  predicate HasPreamble(text: string, markers: seq<string>) {
    exists k :: 0 <= k < |markers| && Contains(text[..Min(50, |text|)], markers[k])
  }

  /** End of the line starting at `p`: the next '\n' or the end of text. */
  function LineEnd(text: string, p: nat): (e: nat)
    requires p <= |text|
    ensures p <= e <= |text|
    ensures forall i :: p <= i < e ==> text[i] != '\n'
    ensures e < |text| ==> text[e] == '\n'
    decreases |text| - p
  {
    if p == |text| || text[p] == '\n' then p else LineEnd(text, p + 1)
  }

  /** `'\n'.join(lines[i:])` for the first line `i` (at or after the line
      starting at `p`) whose stripped text starts with '{'; the text is
      kept whole when no line does. */
  function FromBraceLine(text: string, p: nat): (r: string)
    requires p <= |text|
    ensures |r| <= |text| && r == text[|text| - |r|..]
    decreases |text| - p
  {
    var e := LineEnd(text, p);
    if StartsWith(Strip(text[p..e]), "{") then text[p..]
    else if e == |text| then text
    else FromBraceLine(text, e + 1)
  }

  /** The reply after fences, preamble lines and surrounding white space
      are removed. */
  function Cleaned(text: string, markers: seq<string>): string {
    var t := StripFences(text);
    Strip(if HasPreamble(t, markers) then FromBraceLine(t, 0) else t)
  }

  /** `_parse_json_response` up to `json.loads`: clean the reply, cut it
      after its last '}', then slice from the first '{'. `None` is the
      `ValueError("No JSON found in response")`. */
  function JsonCandidate(text: string, markers: seq<string>): Option<string>
  {
    CutAndSlice(Cleaned(text, markers))
  }

  /** Cutting after the last '}' and slicing from the first '{'. */
  function CutAndSlice(c: string): (r: Option<string>)
    ensures r.None? <==> (Find(c, '{') == -1 || RFind(c, '}') == -1 || Find(c, '{') > RFind(c, '}'))
    ensures r.Some? ==>
      && |r.value| >= 2 && r.value[0] == '{' && r.value[|r.value| - 1] == '}'
      && OccursAt(c, r.value, Find(c, '{'))
      && Find(c, '{') + |r.value| == RFind(c, '}') + 1
  {
    var last := RFind(c, '}');
    if last == -1 then BraceSlice(c)
    else
      var t := c[..last + 1];
      CutKeepsBraces(c, last);
      assert OccursAt(c, t, 0);
      BraceSlice(t)
  }

  /** The cut text ends with the last '}' and still starts its objects
      where the uncut text did. */
  lemma {:induction false} CutKeepsBraces(c: string, last: int)
    requires last == RFind(c, '}') && last != -1
    ensures RFind(c[..last + 1], '}') == last
    ensures Find(c, '{') != -1 && Find(c, '{') <= last ==> Find(c[..last + 1], '{') == Find(c, '{')
    ensures Find(c, '{') == -1 || Find(c, '{') > last ==> Find(c[..last + 1], '{') == -1
  {
    var t := c[..last + 1];
    assert forall i :: 0 <= i < |t| ==> t[i] == c[i];
  }

  /** A reply that is nothing but a JSON object without code fences is
      its own candidate, whatever preamble markers are in use. */
  lemma {:induction false} BareObjectIsCandidate(s: string, markers: seq<string>)
    requires |s| >= 2 && s[0] == '{' && s[|s| - 1] == '}'
    requires !Contains(s, "```")
    ensures JsonCandidate(s, markers) == Some(s)
  {
    BareObjectIsCleaned(s, markers);
    var r := CutAndSlice(s);
    assert RFind(s, '}') == |s| - 1;
    assert Find(s, '{') == 0;
    assert r.value == s[0..|r.value|] == s;
  }

  lemma {:induction false} BareObjectIsCleaned(s: string, markers: seq<string>)
    requires |s| >= 2 && s[0] == '{' && s[|s| - 1] == '}'
    requires !Contains(s, "```")
    ensures Cleaned(s, markers) == s
  {
    NoFences(s);
    assert StripFences(s) == s;
    if HasPreamble(s, markers) {
      FirstLineIsBrace(s);
    }
    StripUntouched(s);
  }

  lemma {:induction false} FirstLineIsBrace(s: string)
    requires |s| > 0 && s[0] == '{'
    ensures FromBraceLine(s, 0) == s
  {
    var e := LineEnd(s, 0);
    assert e > 0;
    var line := s[0..e];
    assert line[0] == '{';
    StripKeepsFirst(line);
    var st := Strip(line);
    assert st[..1] == "{";
    assert s[0..] == s;
  }

  lemma {:induction false} NoFences(s: string)
    requires !Contains(s, "```")
    ensures ReplaceAll(ReplaceAll(s, "```json", ""), "```", "") == s
  {
    JsonFenceIsFence(s);
    ReplaceAbsent(s, "```json", "");
    ReplaceAbsent(s, "```", "");
  }

  /** Every "```json" fence starts with a plain "```" fence. */
  lemma {:induction false} JsonFenceIsFence(s: string)
    ensures Contains(s, "```json") ==> Contains(s, "```")
  {
    if Contains(s, "```json") {
      var i :| 0 <= i <= |s| - 7 && OccursAt(s, "```json", i);
      assert s[i..i + 3] == s[i..i + 7][..3] == "```";
      assert OccursAt(s, "```", i);
    }
  }

  /** Stripping a text whose first character is not white space leaves
      that character first. */
  lemma {:induction false} StripKeepsFirst(s: string)
    requires |s| > 0 && !IsSpace(s[0])
    ensures |Strip(s)| > 0 && Strip(s)[0] == s[0]
  {
    assert LStrip(s) == s;
    var r := RStrip(s);
    assert |r| > 0;
  }

  lemma {:induction false} StripUntouched(s: string)
    requires |s| > 0 && !IsSpace(s[0]) && !IsSpace(s[|s| - 1])
    ensures Strip(s) == s
  {
    assert LStrip(s) == s;
    assert RStrip(s) == s;
  }

  /** No character `a` of `s` is immediately followed by `b`. */
  predicate NoPair(s: string, a: char, b: char) {
    forall i :: 0 <= i < |s| - 1 ==> !(s[i] == a && s[i + 1] == b)
  }

  /** The first character of a replacement result is either the
      replacement or the first character of the input. */
  lemma {:induction false} ReplaceHead(s: string, a: char, b: char, c: char)
    requires |s| > 0
    ensures |ReplaceAll(s, [a, b], [c])| > 0
    ensures ReplaceAll(s, [a, b], [c])[0] == c || ReplaceAll(s, [a, b], [c])[0] == s[0]
  {
  }

  /** Replacing the pair `a b` by a single `c` (different from `a`) leaves
      no `a x` pair behind, for `x == b` and for any `x` other than `c`
      that the input did not already pair with `a`. */
  lemma {:induction false} ReplacePairRemoves(s: string, a: char, b: char, c: char, x: char)
    requires c != a && x != c
    requires x == b || NoPair(s, a, x)
    ensures NoPair(ReplaceAll(s, [a, b], [c]), a, x)
  {
    var r := ReplaceAll(s, [a, b], [c]);
    if |s| >= 2 {
      if s[..2] == [a, b] {
        ReplacePairRemoves(s[2..], a, b, c, x);
        var t := ReplaceAll(s[2..], [a, b], [c]);
        assert r == [c] + t;
        forall i | 0 <= i < |r| - 1
          ensures !(r[i] == a && r[i + 1] == x)
        {
          if i > 0 {
            assert r[i] == t[i - 1] && r[i + 1] == t[i];
          }
        }
      } else {
        ReplacePairRemoves(s[1..], a, b, c, x);
        var t := ReplaceAll(s[1..], [a, b], [c]);
        assert r == [s[0]] + t;
        ReplaceHead(s[1..], a, b, c);
        assert s[..2] == [s[0], s[1]];
        forall i | 0 <= i < |r| - 1
          ensures !(r[i] == a && r[i + 1] == x)
        {
          if i > 0 {
            assert r[i] == t[i - 1] && r[i + 1] == t[i];
          }
        }
      }
    }
  }

  /** `code.replace('\\n', '\n').replace('\\t', '\t')`: the two-character
      escapes backslash-n and backslash-t become a newline and a tab. */
  function FixEscapes(code: string): (r: string)
    ensures NoPair(r, '\\', 'n') && NoPair(r, '\\', 't')
  {
    var once := ReplaceAll(code, "\\n", "\n");
    ReplacePairRemoves(code, '\\', 'n', '\n', 'n');
    ReplacePairRemoves(once, '\\', 't', '\t', 't');
    ReplacePairRemoves(once, '\\', 't', '\t', 'n');
    ReplaceAll(once, "\\t", "\t")
  }

  /** Code without a backslash comes through unchanged. */
  lemma {:induction false} FixEscapesPlain(code: string)
    requires forall i :: 0 <= i < |code| ==> code[i] != '\\'
    ensures FixEscapes(code) == code
  {
    forall p: string | p == "\\n" || p == "\\t"
      ensures !Contains(code, p)
    {
      forall i | 0 <= i <= |code| - |p|
        ensures !OccursAt(code, p, i)
      {
        assert code[i] != p[0];
      }
    }
    ReplaceAbsent(code, "\\n", "\n");
    ReplaceAbsent(code, "\\t", "\t");
  }

  /** What `FixEscapes` undoes: a model writing its code into JSON with
      each newline as backslash-n and each tab as backslash-t. */
  function Escape(s: string): (r: string)
    ensures |r| >= |s|
  {
    if |s| == 0 then ""
    else (if s[0] == '\n' then "\\n" else if s[0] == '\t' then "\\t" else [s[0]]) + Escape(s[1..])
  }

  /** `Escape` with only the tabs escaped: the text between the two
      replacements of `FixEscapes`. */
  function EscapeTabs(s: string): (r: string)
    ensures |r| >= |s|
  {
    if |s| == 0 then ""
    else (if s[0] == '\t' then "\\t" else [s[0]]) + EscapeTabs(s[1..])
  }

  /** A character that cannot start the pattern is copied by `replace`. */
  lemma {:induction false} ReplaceSkipsHead(c: char, y: string, p: string, q: string)
    requires |p| > 0 && c != p[0]
    ensures ReplaceAll([c] + y, p, q) == [c] + ReplaceAll(y, p, q)
  {
    var x := [c] + y;
    assert x[1..] == y;
    if |x| >= |p| {
      assert x[..|p|][0] == c;
    }
  }

  /** Replacing backslash-n in escaped code restores the newlines. */
  lemma {:induction false} UnescapeNewlines(s: string)
    requires forall i :: 0 <= i < |s| ==> s[i] != '\\'
    ensures ReplaceAll(Escape(s), "\\n", "\n") == EscapeTabs(s)
  {
    if |s| > 0 {
      var rest := Escape(s[1..]);
      UnescapeNewlines(s[1..]);
      if s[0] == '\n' {
        var x := "\\n" + rest;
        assert x[..2] == "\\n" && x[2..] == rest;
      } else if s[0] == '\t' {
        var x := "\\t" + rest;
        assert x[..2] != "\\n" && x[1..] == ['t'] + rest;
        assert ReplaceAll(x, "\\n", "\n") == ['\\'] + ReplaceAll(['t'] + rest, "\\n", "\n");
        ReplaceSkipsHead('t', rest, "\\n", "\n");
        assert "\\t" + EscapeTabs(s[1..]) == ['\\'] + (['t'] + EscapeTabs(s[1..]));
      } else {
        ReplaceSkipsHead(s[0], rest, "\\n", "\n");
      }
    }
  }

  /** Replacing backslash-t in tab-escaped code restores the tabs. */
  lemma {:induction false} UnescapeTabs(s: string)
    requires forall i :: 0 <= i < |s| ==> s[i] != '\\'
    ensures ReplaceAll(EscapeTabs(s), "\\t", "\t") == s
  {
    if |s| > 0 {
      var rest := EscapeTabs(s[1..]);
      UnescapeTabs(s[1..]);
      if s[0] == '\t' {
        var x := "\\t" + rest;
        assert x[..2] == "\\t" && x[2..] == rest;
      } else {
        ReplaceSkipsHead(s[0], rest, "\\t", "\t");
      }
      assert s == [s[0]] + s[1..];
    }
  }

  /** The round trip: undoing the escapes of backslash-free code gives the
      code back. */
  lemma {:induction false} FixEscapesRoundTrip(s: string)
    requires forall i :: 0 <= i < |s| ==> s[i] != '\\'
    ensures FixEscapes(Escape(s)) == s
  {
    UnescapeNewlines(s);
    UnescapeTabs(s);
  }

  /** `''.join(parts)`. */
  function Join(parts: seq<string>): (r: string)
    ensures |parts| == 1 ==> r == parts[0]
    ensures forall k :: 0 <= k < |parts| ==> |parts[k]| <= |r|
  {
    if |parts| == 0 then "" else parts[0] + Join(parts[1..])
  }

  /** Joining with the empty separator distributes over concatenation of
      the lists; in particular one more part appends exactly that part. */
  lemma {:induction false} JoinAppend(ps: seq<string>, qs: seq<string>)
    ensures Join(ps + qs) == Join(ps) + Join(qs)
  {
    if |ps| > 0 {
      JoinAppend(ps[1..], qs);
      assert (ps + qs)[1..] == ps[1..] + qs;
    } else {
      assert ps + qs == qs;
    }
  }

  lemma {:induction false} JoinSnoc(ps: seq<string>, p: string)
    ensures Join(ps + [p]) == Join(ps) + p
  {
    JoinAppend(ps, [p]);
    assert [p][1..] == [];
  }
}

=== FILE: llm_restricted.dfy ===
/**
 The restricted (Ollama) interpreter of `backend/llm_handlers/llm_handler_restricted.py`:
 which parameters it tells the model about, how it cuts the JSON object out
 of the reply, the fields it fills in, and the filter that drops every
 proposed change larger than 20 % of the current value. The model call and
 `json.loads` are parameters.
 */
module RestrictedHandler {
  import opened Text
  import opened ScadParams
  import opened LlmReply

  /** A proposed value: a JSON number, a JSON boolean (a Python `bool`,
      which arithmetic treats as the integer 0 or 1), or any other JSON
      value. */
  datatype Proposed = Number(n: Num) | Boolean(b: bool) | NotNumber

  /** The number Python's arithmetic sees in a proposal that has one. */
  function AsNum(p: Proposed): (r: Num)
    requires !p.NotNumber?
    ensures p.Number? ==> r == p.n
    ensures p.Boolean? ==> r == Int(if p.b then 1 else 0)
  {
    match p
    case Number(n) => n
    case Boolean(b) => if b then Int(1) else Int(0)
  }

  /** The keys of the decoded reply that the handler reads or fills in;
      `Present(None)` is JSON `null`. */
  datatype Parsed = Parsed(
    understood: Field<Option<string>>,
    modifications: Field<Option<seq<(string, Proposed)>>>,
    reasoning: Field<Option<string>>,
    needsClarification: Field<bool>,
    clarificationQuestion: Field<Option<string>>,
    rejected: Field<bool>,
    rejectionReason: Field<Option<string>>)

  /** The handler either returns a reply or lets an exception escape
      (a `KeyError` or `TypeError` that no `except` clause of the handler
      catches; the calling route answers it with a 500). */
  datatype Answer = Returned(reply: Parsed) | Raised

  const FallbackReasoning := "Please check that Ollama is running"

  /** The safe answer used whenever the model cannot be reached or its
      reply is not JSON. */
  function Fallback(): (r: Parsed)
    ensures r.needsClarification == Present(true)
    ensures r.modifications == Present(Some([]))
    ensures r.rejected == Present(false) && r.rejectionReason == Present(None)
  {
    Parsed(Present(Some(FallbackUnderstood)), Present(Some([])), Present(Some(FallbackReasoning)),
           Present(true), Present(Some(FallbackQuestion)), Present(false), Present(None))
  }

  /** The parameters shown to the model: the caller's, or, when the caller
      has none (`None` or an empty dict) but the design text is non-empty,
      those found by the same `name = number;` extraction the design
      modifier uses. */
  function EffectiveParams(current: Option<Params>, content: Option<string>): (r: Option<Params>)
    ensures (current.None? || current.value == map[]) && content.Some? && content.value != "" ==>
      r.Some? && forall name :: name in r.value <==> Named(Statements(content.value, 0), name)
    ensures r.Some? && r != current ==> content.Some? && r.value == Extract(content.value)
  {
    if (current.None? || current.value == map[]) && content.Some? && content.value != "" then
      ExtractKeys(content.value);
      Some(Extract(content.value))
    else current
  }

  function Abs(x: real): real {
    if x < 0.0 then -x else x
  }

  /** The ±20 % rule: the change is at most a fifth of the current value. */
  predicate Within(cur: Num, proposed: Num) {
    Abs(NumValue(proposed) - NumValue(cur)) <= Abs(NumValue(cur) * 0.2)
  }

  /** A proposed change the filter keeps: a number or boolean, for a known
      parameter, within 20 % of its current value. */
  predicate Acceptable(p: (string, Proposed), params: Params) {
    !p.1.NotNumber? && p.0 in params && Within(params[p.0], AsNum(p.1))
  }

  predicate Admissible(ms: seq<(string, Proposed)>, params: Option<Params>) {
    forall i :: 0 <= i < |ms| ==> params.Some? && Acceptable(ms[i], params.value)
  }

  /** The loop over the proposed modifications. `None` is the exception
      it can raise: `param in None` when there are no parameters at all,
      or arithmetic on a non-number proposed for a known parameter. */
  function Validate(ms: seq<(string, Proposed)>, params: Option<Params>): (r: Option<seq<(string, Proposed)>>)
    ensures r.Some? ==> |r.value| <= |ms|
    decreases |ms|
  {
    if |ms| == 0 then Some([])
    else if params.None? then None
    else
      var rest := Validate(ms[1..], params);
      if ms[0].0 !in params.value then rest
      else if ms[0].1.NotNumber? then None
      else if rest.None? then None
      else if Within(params.value[ms[0].0], AsNum(ms[0].1)) then Some([ms[0]] + rest.value)
      else rest
  }

  /** `a` is `b` with some elements dropped, order kept. */
  predicate Subsequence<T(==)>(a: seq<T>, b: seq<T>)
    decreases |b|
  {
    |a| == 0 || (|b| > 0 && ((a[0] == b[0] && Subsequence(a[1..], b[1..])) || Subsequence(a, b[1..])))
  }

  /** The filter raises exactly when there is something to check and
      either no parameters or a non-number for a known parameter; otherwise
      it keeps, in order, exactly the acceptable proposals. */
  lemma {:induction false} ValidateSpec(ms: seq<(string, Proposed)>, params: Option<Params>)
    ensures Validate(ms, params).None? <==>
      |ms| > 0 && (params.None? || exists i :: 0 <= i < |ms| && ms[i].0 in params.value && ms[i].1.NotNumber?)
    ensures Validate(ms, params).Some? ==> Subsequence(Validate(ms, params).value, ms)
    ensures Validate(ms, params).Some? ==> Admissible(Validate(ms, params).value, params)
    ensures Validate(ms, params).Some? ==> forall i :: 0 <= i < |ms| && Acceptable(ms[i], params.value) ==>
      ms[i] in Validate(ms, params).value
    decreases |ms|
  {
    if |ms| > 0 && params.Some? {
      ValidateSpec(ms[1..], params);
      var r := Validate(ms, params);
      var rest := Validate(ms[1..], params);
      if r.None? && rest.Some? {
        assert ms[0].0 in params.value && ms[0].1.NotNumber?;
      }
      if r.Some? {
        forall i | 0 <= i < |ms| && Acceptable(ms[i], params.value)
          ensures ms[i] in r.value
        {
          if i > 0 {
            assert ms[1..][i - 1] == ms[i];
          }
        }
        if |r.value| > 0 && r.value[0] == ms[0] {
          assert r.value[1..] == rest.value;
        }
      }
      if rest.None? {
        var i :| 0 <= i < |ms[1..]| && ms[1..][i].0 in params.value && ms[1..][i].1.NotNumber?;
        assert ms[i + 1] == ms[1..][i];
      }
    }
  }

  /** A value equal to the current one is always within bounds. */
  lemma {:induction false} UnchangedValueKept(ms: seq<(string, Proposed)>, params: Params, i: int)
    requires 0 <= i < |ms| && ms[i].0 in params && ms[i].1 == Number(params[ms[i].0])
    requires Validate(ms, Some(params)).Some?
    ensures ms[i] in Validate(ms, Some(params)).value
  {
    ValidateSpec(ms, Some(params));
  }

  /** The filter judges a JSON boolean exactly as the integer 0 or 1,
      and keeps the boolean itself. */
  lemma {:induction false} BooleanAsInteger(ms: seq<(string, Proposed)>, params: Params, i: int)
    requires 0 <= i < |ms| && ms[i].1.Boolean? && ms[i].0 in params
    requires Validate(ms, Some(params)).Some?
    ensures ms[i] in Validate(ms, Some(params)).value <==>
      Within(params[ms[i].0], Int(if ms[i].1.b then 1 else 0))
  {
    ValidateSpec(ms, Some(params));
    var r := Validate(ms, Some(params)).value;
    if ms[i] in r {
      var j :| 0 <= j < |r| && r[j] == ms[i];
      assert Acceptable(r[j], params);
    }
  }

  /** The filter leaves an already admissible list untouched ... */
  lemma {:induction false} ValidateAdmissible(ms: seq<(string, Proposed)>, params: Option<Params>)
    requires Admissible(ms, params)
    ensures Validate(ms, params) == Some(ms)
    decreases |ms|
  {
    if |ms| > 0 {
      assert Admissible(ms[1..], params) by {
        forall i | 0 <= i < |ms[1..]| ensures params.Some? && Acceptable(ms[1..][i], params.value) {
          assert ms[1..][i] == ms[i + 1];
        }
      }
      ValidateAdmissible(ms[1..], params);
      assert [ms[0]] + ms[1..] == ms;
    }
  }

  /** ... and so filtering twice is filtering once. */
  lemma {:induction false} ValidateIdempotent(ms: seq<(string, Proposed)>, params: Option<Params>)
    requires Validate(ms, params).Some?
    ensures Validate(Validate(ms, params).value, params) == Validate(ms, params)
  {
    ValidateSpec(ms, params);
    ValidateAdmissible(Validate(ms, params).value, params);
  }

  /** Missing `rejected` / `rejection_reason` keys are added as False / None. */
  function WithDefaults(p: Parsed): (r: Parsed)
    ensures r.rejected.Present? && r.rejectionReason.Present?
    ensures p.rejected.Present? ==> r.rejected == p.rejected
    ensures p.rejectionReason.Present? ==> r.rejectionReason == p.rejectionReason
    ensures p.rejected.Absent? ==> r.rejected == Present(false)
    ensures p.rejectionReason.Absent? ==> r.rejectionReason == Present(None)
    ensures r.(rejected := p.rejected, rejectionReason := p.rejectionReason) == p
  {
    p.(rejected := if p.rejected.Absent? then Present(false) else p.rejected,
       rejectionReason := if p.rejectionReason.Absent? then Present(None) else p.rejectionReason)
  }

  /** `interpret_modification`. `response` is the text the model returned,
      `None` when the HTTP call failed or did not answer 200; `decode` is
      `json.loads`, `None` for a `JSONDecodeError`, which it always raises
      on empty text. */
  function Interpret(current: Option<Params>, content: Option<string>, response: Option<string>,
                     decode: string -> Option<Parsed>): (a: Answer)
    requires decode("") == None
    ensures response.None? ==> a == Returned(Fallback())
    ensures response.Some? && BraceSlice(response.value).None? ==> a == Returned(Fallback())
    ensures response.Some? && BraceSlice(response.value).Some? && decode(BraceSlice(response.value).value).None? ==>
      a == Returned(Fallback())
    ensures response.Some? && BraceSlice(response.value) == Some("") ==> a == Returned(Fallback())
    ensures a.Returned? ==> a.reply.rejected.Present? && a.reply.rejectionReason.Present?
    ensures a.Returned? && a.reply.modifications.Present? && a.reply.modifications.value.Some? ==>
      Admissible(a.reply.modifications.value.value, EffectiveParams(current, content))
    ensures response.Some? && BraceSlice(response.value).Some? && decode(BraceSlice(response.value).value).Some? ==>
      var p := decode(BraceSlice(response.value).value).value;
      && (a.Raised? <==> (p.modifications.Absent? ||
                          (p.modifications.value.Some? && Validate(p.modifications.value.value, EffectiveParams(current, content)).None?)))
      && (a.Returned? ==> a.reply.(modifications := p.modifications) == WithDefaults(p))
      // the returned modifications are the proposals that survive the filter
      && (p.modifications.Present? && p.modifications.value.Some? && |p.modifications.value.value| > 0 &&
          Validate(p.modifications.value.value, EffectiveParams(current, content)).Some? ==>
            a == Returned(WithDefaults(p).(modifications :=
                   Present(Some(Validate(p.modifications.value.value, EffectiveParams(current, content)).value)))))
      // `null` and an empty object are returned as they came
      && (p.modifications == Present(None) || p.modifications == Present(Some([])) ==> a == Returned(WithDefaults(p)))
  {
    if response.None? then Returned(Fallback())
    else
      var json := BraceSlice(response.value);
      if json.None? then Returned(Fallback())
      else
        var decoded := decode(json.value);
        if decoded.None? then Returned(Fallback())
        else
          var p := WithDefaults(decoded.value);
          var params := EffectiveParams(current, content);
          match p.modifications
          case Absent => Raised
          case Present(None) => Returned(p)
          case Present(Some(ms)) =>
            if |ms| == 0 then Returned(p)
            else
              var v := Validate(ms, params);
              ValidateSpec(ms, params);
              if v.None? then Raised
              else Returned(p.(modifications := Present(Some(v.value))))
  }

  /** What the caller receives of a non-empty proposal list: the
      proposals, in order, with exactly the inadmissible ones dropped; a
      value equal to the current one is among them. */
  lemma {:induction false} InterpretFilters(current: Option<Params>, content: Option<string>, response: string,
                                            decode: string -> Option<Parsed>)
    requires decode("") == None
    requires BraceSlice(response).Some? && decode(BraceSlice(response).value).Some?
    requires decode(BraceSlice(response).value).value.modifications.Present?
    requires decode(BraceSlice(response).value).value.modifications.value.Some?
    requires |decode(BraceSlice(response).value).value.modifications.value.value| > 0
    requires Interpret(current, content, Some(response), decode).Returned?
    ensures var ms := decode(BraceSlice(response).value).value.modifications.value.value;
      var kept := Interpret(current, content, Some(response), decode).reply.modifications;
      && EffectiveParams(current, content).Some?
      && kept.Present? && kept.value.Some?
      && Subsequence(kept.value.value, ms)
      && var params := EffectiveParams(current, content).value;
      && (forall i :: 0 <= i < |ms| && Acceptable(ms[i], params) ==> ms[i] in kept.value.value)
      && (forall i :: 0 <= i < |ms| && ms[i].0 in params && ms[i].1 == Number(params[ms[i].0]) ==>
            ms[i] in kept.value.value)
  {
    var ms := decode(BraceSlice(response).value).value.modifications.value.value;
    var params := EffectiveParams(current, content);
    ValidateSpec(ms, params);
  }

  /** An empty `modifications` object reaches the caller unfiltered, even
      when there are no parameters to check against. */
  lemma {:induction false} EmptyModificationsPassThrough(current: Option<Params>, content: Option<string>, response: string,
                                      decode: string -> Option<Parsed>)
    requires decode("") == None
    requires BraceSlice(response).Some? && decode(BraceSlice(response).value).Some?
    requires decode(BraceSlice(response).value).value.modifications == Present(Some([]))
    ensures Interpret(current, content, Some(response), decode) ==
      Returned(WithDefaults(decode(BraceSlice(response).value).value))
  {
  }

  /** A reply whose last '}' comes before its first '{' passes the brace
      check but slices to empty text, which `json.loads` rejects: the
      handler falls back. */
  lemma {:induction false} ReversedBracesFallBack(current: Option<Params>, content: Option<string>, response: string,
                                                  decode: string -> Option<Parsed>)
    requires decode("") == None
    requires RFind(response, '}') != -1 && Find(response, '{') > RFind(response, '}')
    ensures Interpret(current, content, Some(response), decode) == Returned(Fallback())
  {
    assert BraceSlice(response) == Some("");
  }
}

=== FILE: project_routes.dfy ===
/**
 `backend/routes/project_routes.py`: importing a SCAD file (which resets
 the version history), clearing the project, and naming it.
 */
module ProjectRoutes {
  import opened Text
  import opened ScadParams
  import opened StateManager
  import opened DesignState

  /** The uploaded file part: its name and text. */
  datatype Upload = Upload(name: string, content: string)

  /** `os.path.splitext(name)[0]` (POSIX): the text before the last '.',
      unless that '.' belongs to the final path component's leading dots. */
  function SplitExtBase(name: string): (r: string)
    ensures StartsWith(name, r)
    ensures r != name ==> |r| < |name| && name[|r|] == '.'
    ensures r != name ==> forall i :: |r| < i < |name| ==> name[i] != '.' && name[i] != '/'
  {
    var sep := RFind(name, '/');
    var dot := RFind(name, '.');
    if dot > sep && exists i :: sep + 1 <= i < dot && name[i] != '.' then name[..dot] else name
  }

  /** Appending text with no '/' leaves the last '/' where it was. */
  lemma {:induction false} RFindAppend(b: string, t: string, c: char)
    requires forall i :: 0 <= i < |t| ==> t[i] != c
    ensures RFind(b + t, c) == RFind(b, c)
  {
    var r, r0 := RFind(b + t, c), RFind(b, c);
    if r0 >= 0 {
      assert (b + t)[r0] == c;
    }
    if r >= 0 {
      assert r < |b| && b[r] == c;
    }
  }

  /** An uploaded `<b>.scad` names its first version after `b`, whenever
      the last path component of `b` has a character other than '.'. */
  lemma {:induction false} SplitExtOfScad(b: string)
    requires exists i :: RFind(b, '/') < i < |b| && b[i] != '.'
    ensures SplitExtBase(b + ".scad") == b
  {
    var name := b + ".scad";
    RFindAppend(b, ".scad", '/');
    assert name[|b|] == '.' && forall i :: |b| < i < |name| ==> name[i] != '.';
    assert RFind(name, '.') == |b|;
    var k :| RFind(b, '/') < k < |b| && b[k] != '.';
    assert name[k] != '.';
    assert name[..|b|] == b;
  }

  /** The designs directory without its `.scad` files. */
  function WithoutScad(designs: map<string, string>): (r: map<string, string>)
    ensures forall f :: f in r <==> f in designs && !EndsWith(f, ".scad")
    ensures forall f :: f in r ==> r[f] == designs[f]
  {
    map f | f in designs && !EndsWith(f, ".scad") :: designs[f]
  }

  /** The description of the first version of an imported file. */
  function OriginalDescription(name: string): Option<string> {
    Some("Original design: " + SplitExtBase(name))
  }

  /** `upload_scad`. */
  function UploadScad(st: State, file: Option<Upload>, render: string -> bool, clock: Clock): (r: Outcome)
    ensures file.None? ==> r == Outcome(Error(400), st)
    ensures file.Some? && (file.value.name == "" || !EndsWith(file.value.name, ".scad"))
            ==> r == Outcome(Error(400), st)
    // an accepted file replaces every .scad file and resets the versions,
    // whether or not it renders
    ensures !r.response.Error? || (r.response.status == 500) ==>
              file.Some? && EndsWith(file.value.name, ".scad") &&
              r.state.designs == WithoutScad(st.designs)[file.value.name := file.value.content]
    ensures r.response.Error? && r.response.status == 500 ==>
              r.state.counter == 0 && r.state.history == [] && r.state.stlVersions == {} &&
              r.state.modifier == st.modifier && r.state.scadVersions == st.scadVersions
    // a rendered file becomes the project and its version 1
    ensures r.response.Uploaded? ==>
              var name := file.value.name;
              r.response.initialVersion == 1 && r.state.counter == 1 && r.state.active == 1 &&
              r.state.modifier == Some(NewModifier(name, file.value.content)) &&
              r.response.parameters == Extract(file.value.content) &&
              r.state.history == [Entry(HistoryId(1, clock.millis), 1, clock.iso,
                                        CleanDescription(OriginalDescription(name)), Extract(file.value.content))] &&
              r.state.stlVersions == {StlBackupName(1, OriginalDescription(name), clock)} &&
              r.response.initialBackup == StlBackupName(1, OriginalDescription(name), clock)
    // the SCAD snapshots of earlier projects are not removed
    ensures st.scadVersions.Some? ==>
              r.state.scadVersions.Some? && forall f :: f in st.scadVersions.value ==> f in r.state.scadVersions.value
    ensures r.state.preview == st.preview && r.state.projectName == st.projectName
  {
    match file
    case None => Outcome(Error(400), st)
    case Some(u) =>
      if u.name == "" || !EndsWith(u.name, ".scad") then Outcome(Error(400), st)
      else
        var st1 := st.(designs := WithoutScad(st.designs)[u.name := u.content],
                       counter := 0, history := [], stlVersions := {});
        if !render(u.content) then Outcome(Error(500), st1)
        else
          var desc := OriginalDescription(u.name);
          var st2 := Backup(st1.(modifier := Some(NewModifier(u.name, u.content))), desc, clock);
          Outcome(Uploaded(Extract(u.content), 1, StlBackupName(1, desc, clock)), st2)
  }

  /** After importing a new file, the SCAD snapshot of version 1 of an
      earlier project is still stored beside the new one: the lookup for
      version 1 finds both, and a restore takes whichever is listed first. */
  lemma {:induction false} UploadKeepsOldSnapshots(st: State, file: Option<Upload>, render: string -> bool, clock: Clock, earlier: string)
    requires st.scadVersions.Some? && earlier in st.scadVersions.value && StartsWith(earlier, SnapshotPrefix(1))
    requires UploadScad(st, file, render, clock).response.Uploaded?
    ensures var s := UploadScad(st, file, render, clock).state.scadVersions.value;
      earlier in s && ScadBackupName(1, OriginalDescription(file.value.name), clock) in s
  {
  }

  lemma {:induction false} UploadInv(st: State, file: Option<Upload>, render: string -> bool, clock: Clock)
    requires Inv(st)
    ensures Inv(UploadScad(st, file, render, clock).state)
  {
    if file.Some? && file.value.name != "" && EndsWith(file.value.name, ".scad") && render(file.value.content) {
      var u := file.value;
      var st1 := st.(designs := WithoutScad(st.designs)[u.name := u.content],
                     counter := 0, history := [], stlVersions := {});
      BackupInv(st1.(modifier := Some(NewModifier(u.name, u.content))), OriginalDescription(u.name), clock);
    }
  }

  /** `clear_project`. */
  function ClearProject(st: State): (r: Outcome)
    ensures r.response == Cleared
    ensures r.state.counter == 0 && r.state.projectName.None? && r.state.modifier.None?
    ensures r.state.history == [] && r.state.saved.None? && !r.state.preview
    ensures r.state.stlVersions == {} && r.state.scadVersions.None?
    // the designs directory and the active version are left alone
    ensures r.state.designs == st.designs && r.state.active == st.active
  {
    Outcome(Cleared, st.(counter := 0, projectName := None, history := [], saved := None,
                         stlVersions := {}, scadVersions := None, preview := false, modifier := None))
  }

  lemma {:induction false} ClearInv(st: State)
    ensures Inv(ClearProject(st).state)
  {
  }

  /** After a clear nothing can be restored until a version is saved again. */
  lemma {:induction false} RestoreAfterClear(st: State, n: int)
    ensures !SnapshotFor(ClearProject(st).state.scadVersions, n)
  {
  }

  /** `set_project_name`: a missing name counts as "", `null` is an error,
      and the name is stored trimmed. */
  function SetProjectName(st: State, name: JsonText): (r: Outcome)
    ensures name.Missing? ==> r == Outcome(Error(400), st)
    ensures name.Null? ==> r == Outcome(Error(500), st)
    ensures name.Text? && Strip(name.s) == "" ==> r == Outcome(Error(400), st)
    ensures r.response.ProjectNamed? ==>
              name.Text? && r.response.name == Strip(name.s) && |r.response.name| > 0 &&
              r.state.projectName == Some(r.response.name)
    ensures r.response.ProjectNamed? && st.modifier.Some? ==>
              LoadDesignState(r.state.saved, GlobalsOf(Initial())).projectName == Some(r.response.name)
    ensures r.state.(projectName := st.projectName, saved := st.saved) == st
  {
    match name
    case Missing => Outcome(Error(400), st)
    case Null => Outcome(Error(500), st)
    case Text(s) =>
      var t := Strip(s);
      if t == "" then Outcome(Error(400), st)
      else Outcome(ProjectNamed(t), Save(st.(projectName := Some(t))))
  }

  /** The stored name is already trimmed, so setting it again stores the same name. */
  lemma {:induction false} SetProjectNameStable(st: State, s: string)
    requires SetProjectName(st, Text(s)).response.ProjectNamed?
    ensures var r := SetProjectName(st, Text(s));
      SetProjectName(r.state, Text(r.response.name)).state.projectName == r.state.projectName
  {
  }

  lemma {:induction false} SetProjectNameInv(st: State, name: JsonText)
    requires Inv(st)
    ensures Inv(SetProjectName(st, name).state)
  {
  }
}

=== FILE: scad_params.dfy ===
/**
 The `name = number;` parameter convention of `backend/design_modifier.py`.

 The extractor is `re.findall(r'(\w+)\s*=\s*(\d+(?:\.\d+)?)\s*;', text)`
 folded into a dict, the rewriter is one `re.sub` per modified parameter.
 Both are modelled as explicit left-to-right scans: `MatchAt` decides
 whether the pattern matches at one position (the pattern has a single
 successful backtracking path, so the scan below is deterministic), and
 `Statements` is `findall`'s resumption rule (continue after a match, else
 at the next character).
 */
module ScadParams {
  import opened Text

  /** A JSON / Python number: `int` or `float` (floats as exact reals). */
  datatype Num = Int(i: int) | Float(r: real)

  /** Python compares `int` and `float` by value: `5 == 5.0`. */
  function NumValue(n: Num): real {
    match n
    case Int(i) => i as real
    case Float(r) => r
  }

  type Params = map<string, Num>

  /** One `name = literal;` statement found by the scan: the name, the
      numeric literal, and where the statement, its literal and its end sit. */
  datatype Stmt = Stmt(name: string, lit: string, value: Num, start: nat, litStart: nat, litEnd: nat, end: nat)

  /** End of the run of characters satisfying a class, starting at `i`. */
  function WordEnd(s: string, i: nat): (j: nat)
    requires i <= |s|
    ensures i <= j <= |s|
    ensures forall k :: i <= k < j ==> IsWord(s[k])
    ensures j < |s| ==> !IsWord(s[j])
    decreases |s| - i
  {
    if i < |s| && IsWord(s[i]) then WordEnd(s, i + 1) else i
  }

  function SpaceEnd(s: string, i: nat): (j: nat)
    requires i <= |s|
    ensures i <= j <= |s|
    ensures forall k :: i <= k < j ==> IsSpace(s[k])
    ensures j < |s| ==> !IsSpace(s[j])
    decreases |s| - i
  {
    if i < |s| && IsSpace(s[i]) then SpaceEnd(s, i + 1) else i
  }

  function DigitEnd(s: string, i: nat): (j: nat)
    requires i <= |s|
    ensures i <= j <= |s|
    ensures forall k :: i <= k < j ==> IsDigit(s[k])
    ensures j < |s| ==> !IsDigit(s[j])
    decreases |s| - i
  {
    if i < |s| && IsDigit(s[i]) then DigitEnd(s, i + 1) else i
  }

  /** Positions of the numeric literal and of the statement end. */
  datatype Tail = Tail(litStart: nat, litEnd: nat, end: nat)

  /** Where the reading of `\s*=\s*(\d+(?:\.\d+)?)\s*;` stands: before the
      '=', after it, inside the integer digits of the literal (which start
      at `ls`), just past its '.' (at `dot`), inside its fraction digits,
      or after the literal (which ends at `le`). */
  datatype Phase = BeforeEq | AfterEq | IntPart(ls: nat) | Dot(ls: nat, dot: nat)
                 | FracPart(ls: nat, dot: nat) | AfterLit(ls: nat, le: nat)

  /** Leaving a digit run for the text after the literal does not consume a character. */
  function Rank(ph: Phase): nat {
    if ph.AfterLit? then 0 else 1
  }

  /** What one character does to the reading: it moves on to position
      `at` in phase `next`, or the reading stops with its outcome. */
  datatype Step = Continue(at: nat, next: Phase) | Stop(outcome: Option<Tail>)

  /** The character `c` at position `k`, read in phase `ph`. Every
      character decides the next phase, so no backtracking is needed: `\d+`
      is greedy and the character that ends each run cannot continue it. */
  function Next(c: char, k: nat, ph: Phase): (st: Step)
    ensures st.Continue? ==> st.at == k + 1 || (st.at == k && Rank(st.next) < Rank(ph))
  {
    match ph
    case BeforeEq =>
      if IsSpace(c) then Continue(k + 1, ph)
      else if c == '=' then Continue(k + 1, AfterEq)
      else Stop(None)
    case AfterEq =>
      if IsSpace(c) then Continue(k + 1, ph)
      else if IsDigit(c) then Continue(k + 1, IntPart(k))
      else Stop(None)
    case IntPart(ls) =>
      if IsDigit(c) then Continue(k + 1, ph)
      else if c == '.' then Continue(k + 1, Dot(ls, k))
      else Continue(k, AfterLit(ls, k))
    case Dot(ls, dot) =>
      if IsDigit(c) then Continue(k + 1, FracPart(ls, dot)) else Stop(None)
    case FracPart(ls, dot) =>
      if IsDigit(c) then Continue(k + 1, ph)
      else Continue(k, AfterLit(ls, k))
    case AfterLit(ls, le) =>
      if IsSpace(c) then Continue(k + 1, ph)
      else if c == ';' then Stop(Some(Tail(ls, le, k + 1)))
      else Stop(None)
  }

  /** The part of the pattern after the name, read from position `k` in
      phase `ph`; the end of the text stops it without a match. */
  function TailFrom(s: string, k: nat, ph: Phase): Option<Tail>
    requires k <= |s|
    decreases |s| - k, Rank(ph)
  {
    if k == |s| then None
    else
      match Next(s[k], k, ph)
      case Continue(k', ph') => TailFrom(s, k', ph')
      case Stop(o) => o
  }

  /** What has been read of the tail begun at `k0` when the reading stands
      at `k` in phase `ph`. */
  predicate PhaseRead(s: string, k0: nat, k: nat, ph: Phase)
    requires k <= |s|
  {
    match ph
    case BeforeEq => k0 <= k
    case AfterEq => k0 < k
    case IntPart(ls) => k0 < ls < k && forall j :: ls <= j < k ==> IsDigit(s[j])
    case Dot(ls, dot) =>
      k0 < ls < dot && dot + 1 == k && s[dot] == '.' && forall j :: ls <= j < dot ==> IsDigit(s[j])
    case FracPart(ls, dot) =>
      k0 < ls < dot && dot + 1 < k && s[dot] == '.' &&
      (forall j :: ls <= j < dot ==> IsDigit(s[j])) && forall j :: dot < j < k ==> IsDigit(s[j])
    case AfterLit(ls, le) => k0 < ls < le <= k && IsLiteral(s[ls..le])
  }

  /** A tail that is found lies after `k0` and ends in `;` after a
      well-formed literal. */
  predicate Found(s: string, k0: nat, t: Option<Tail>) {
    t.Some? ==>
      k0 < t.value.litStart < t.value.litEnd < t.value.end <= |s| &&
      s[t.value.end - 1] == ';' && IsLiteral(s[t.value.litStart..t.value.litEnd])
  }

  /** One character keeps the record of what has been read accurate. */
  lemma {:induction false} NextRead(s: string, k0: nat, k: nat, ph: Phase)
    requires k < |s| && PhaseRead(s, k0, k, ph)
    ensures match Next(s[k], k, ph)
      case Continue(k', ph') => k' <= |s| && PhaseRead(s, k0, k', ph')
      case Stop(o) => Found(s, k0, o)
  {
    var c := s[k];
    match ph
    case IntPart(ls) =>
      if !IsDigit(c) && c != '.' {
        LiteralRun(s, ls, k, k);
      }
    case FracPart(ls, dot) =>
      if !IsDigit(c) {
        LiteralRun(s, ls, dot, k);
      }
    case _ =>
  }

  lemma {:induction false} TailFromFound(s: string, k0: nat, k: nat, ph: Phase)
    requires k <= |s| && PhaseRead(s, k0, k, ph)
    ensures Found(s, k0, TailFrom(s, k, ph))
    decreases |s| - k, Rank(ph)
  {
    if k < |s| {
      NextRead(s, k0, k, ph);
      match Next(s[k], k, ph)
      case Continue(k', ph') => TailFromFound(s, k0, k', ph');
      case Stop(o) =>
    }
  }

  /** The part of the pattern after the name, tried at `k`:
      `\s*=\s*(\d+(?:\.\d+)?)\s*;`. */
  function AssignTail(s: string, k: nat): (t: Option<Tail>)
    requires k <= |s|
    ensures t.Some? ==> k < t.value.litStart < t.value.litEnd < t.value.end <= |s|
    ensures t.Some? ==> s[t.value.end - 1] == ';'
    ensures t.Some? ==> IsLiteral(s[t.value.litStart..t.value.litEnd])
  {
    TailFromFound(s, k, k, BeforeEq);
    TailFrom(s, k, BeforeEq)
  }

  /** A digit run, optionally followed by '.' and a second digit run, is a literal. */
  lemma {:induction false} LiteralRun(s: string, b: nat, d: nat, le: nat)
    requires b < d <= le <= |s|
    requires forall k :: b <= k < d ==> IsDigit(s[k])
    requires d < |s| ==> !IsDigit(s[d])
    requires le == d || (d + 1 < le && s[d] == '.' && forall k :: d + 1 <= k < le ==> IsDigit(s[k]))
    requires le < |s| ==> !IsDigit(s[le])
    ensures IsLiteral(s[b..le])
  {
    var t := s[b..le];
    DigitEndOfRun(t, 0, d - b);
    if le > d {
      DigitEndOfRun(t, d - b + 1, le - b);
    }
  }

  lemma {:induction false} DigitEndOfRun(t: string, i: nat, j: nat)
    requires i <= j <= |t|
    requires forall k :: i <= k < j ==> IsDigit(t[k])
    requires j < |t| ==> !IsDigit(t[j])
    ensures DigitEnd(t, i) == j
    decreases j - i
  {
    if i < j {
      DigitEndOfRun(t, i + 1, j);
    }
  }

  lemma {:induction false} WordEndOfRun(t: string, i: nat, j: nat)
    requires i <= j <= |t|
    requires forall k :: i <= k < j ==> IsWord(t[k])
    requires j < |t| ==> !IsWord(t[j])
    ensures WordEnd(t, i) == j
    decreases j - i
  {
    if i < j {
      WordEndOfRun(t, i + 1, j);
    }
  }

  lemma {:induction false} SpaceEndOfRun(t: string, i: nat, j: nat)
    requires i <= j <= |t|
    requires forall k :: i <= k < j ==> IsSpace(t[k])
    requires j < |t| ==> !IsSpace(t[j])
    ensures SpaceEnd(t, i) == j
    decreases j - i
  {
    if i < j {
      SpaceEndOfRun(t, i + 1, j);
    }
  }

  /** Does the extraction pattern match at position `i`? `\w+` is greedy and
      nothing after it can start with a word character, so only the whole
      word run starting at `i` can be the name. */
  function MatchAt(s: string, i: nat): (m: Option<Stmt>)
    requires i < |s|
    ensures m.Some? ==> m.value.start == i < m.value.litStart < m.value.litEnd < m.value.end <= |s|
    ensures m.Some? ==> m.value.name == s[i..WordEnd(s, i)] && |m.value.name| > 0
    ensures m.Some? ==> m.value.lit == s[m.value.litStart..m.value.litEnd]
    ensures m.Some? ==> IsLiteral(m.value.lit) && m.value.value == ParseLit(m.value.lit)
  {
    if IsWord(s[i]) then
      var w := WordEnd(s, i);
      match AssignTail(s, w)
      case None => None
      case Some(t) =>
        var lit := s[t.litStart..t.litEnd];
        Some(Stmt(s[i..w], lit, ParseLit(lit), i, t.litStart, t.litEnd, t.end))
    else None
  }

  /** `re.findall` from position `i`: the statements in order. */
  function Statements(s: string, i: nat): (ms: seq<Stmt>)
    requires i <= |s|
    ensures forall k :: 0 <= k < |ms| ==> i <= ms[k].start < ms[k].end <= |s|
    decreases |s| - i
  {
    if i == |s| then []
    else match MatchAt(s, i)
      case None => Statements(s, i + 1)
      case Some(m) => [m] + Statements(s, m.end)
  }

  /** A literal is `\d+(\.\d+)?`. */
  predicate IsLiteral(t: string) {
    |t| > 0 && IsDigit(t[0]) &&
    var d := DigitEnd(t, 0);
    d == |t| || (d + 1 < |t| && t[d] == '.' && DigitEnd(t, d + 1) == |t|)
  }

  function Pow10(k: nat): (p: nat)
    ensures p >= 1
  {
    if k == 0 then 1 else 10 * Pow10(k - 1)
  }

  /** Reads the digits of `t[k..]` left to right: `whole` holds the digits
      before the point and, once a point was read (`dot`), `frac` holds the
      `n` digits read after it. */
  function ParseFrom(t: string, k: nat, whole: int, dot: bool, frac: int, n: nat): Num
    requires k <= |t|
    decreases |t| - k
  {
    if k == |t| then
      if dot then Float(whole as real + frac as real / Pow10(n) as real) else Int(whole)
    else if t[k] == '.' then ParseFrom(t, k + 1, whole, true, frac, n)
    else if dot then ParseFrom(t, k + 1, whole, dot, frac * 10 + (t[k] as int - '0' as int), n + 1)
    else ParseFrom(t, k + 1, whole * 10 + (t[k] as int - '0' as int), dot, frac, n)
  }

  /** `float(lit) if '.' in lit else int(lit)`. */
  function ParseLit(t: string): Num
    requires IsLiteral(t)
  {
    ParseFrom(t, 0, 0, false, 0, 0)
  }

  /** Reading the rest of a digit string, with the digits before `k`
      already accumulated, gives the value of the whole string. */
  lemma {:induction false} ParseDigitsFrom(t: string, k: nat)
    requires k <= |t| && forall i :: 0 <= i < |t| ==> IsDigit(t[i])
    ensures ParseFrom(t, k, DigitsValue(t[..k]), false, 0, 0) == Int(DigitsValue(t))
    decreases |t| - k
  {
    if k == |t| {
      assert t[..k] == t;
    } else {
      assert t[..k + 1][..k] == t[..k];
      assert DigitsValue(t[..k + 1]) == DigitsValue(t[..k]) * 10 + DigitValue(t[k]);
      ParseDigitsFrom(t, k + 1);
    }
  }

  /** Python's `str(n)` of a non-negative integer is a literal the pattern
      matches, and `int()` of it gives `n` back. */
  lemma {:induction false} ParseNatText(n: nat)
    ensures IsLiteral(NatText(n)) && ParseLit(NatText(n)) == Int(n)
  {
    var t := NatText(n);
    assert DigitEnd(t, 0) == |t|;
    assert t[..0] == [];
    ParseDigitsFrom(t, 0);
    NatTextValue(n);
  }

  /** The dict built by `for key, value in matches: params[key] = ...`:
      a later statement overwrites an earlier one. */
  function Collect(ms: seq<Stmt>): Params {
    if |ms| == 0 then map[]
    else Collect(ms[..|ms| - 1])[ms[|ms| - 1].name := ms[|ms| - 1].value]
  }

  /** `extract_parameters()` / `_extract_parameters_from_content(content)`. */
  function Extract(s: string): Params {
    Collect(Statements(s, 0))
  }

  predicate Named(ms: seq<Stmt>, name: string) {
    exists k :: 0 <= k < |ms| && ms[k].name == name
  }

  /** `j` is the index of the last statement called `name`. */
  predicate IsLastNamed(ms: seq<Stmt>, name: string, j: int) {
    0 <= j < |ms| && ms[j].name == name && forall k :: j < k < |ms| ==> ms[k].name != name
  }

  /** The keys of the collected dict are exactly the names of the statements. */
  lemma {:induction false} CollectKeys(ms: seq<Stmt>)
    ensures forall name :: name in Collect(ms) <==> Named(ms, name)
  {
    if |ms| > 0 {
      var init := ms[..|ms| - 1];
      CollectKeys(init);
      forall name
        ensures name in Collect(ms) <==> Named(ms, name)
      {
        if Named(init, name) {
          var k :| 0 <= k < |init| && init[k].name == name;
          assert ms[k].name == name;
        }
        if Named(ms, name) && name != ms[|ms| - 1].name {
          var k :| 0 <= k < |ms| && ms[k].name == name;
          assert init[k].name == name;
        }
      }
    }
  }

  /** Each value of the collected dict comes from the last statement with that name. */
  lemma {:induction false} CollectLastWins(ms: seq<Stmt>, name: string, j: int)
    requires IsLastNamed(ms, name, j)
    ensures name in Collect(ms) && Collect(ms)[name] == ms[j].value
  {
    if j < |ms| - 1 {
      CollectLastWins(ms[..|ms| - 1], name, j);
    }
  }

  /** Every statement the scan finds carries a well-formed literal and
      the number it denotes. */
  lemma {:induction false} StatementsLiterals(s: string, i: nat)
    requires i <= |s|
    ensures forall k :: 0 <= k < |Statements(s, i)| ==>
      IsLiteral(Statements(s, i)[k].lit) && Statements(s, i)[k].value == ParseLit(Statements(s, i)[k].lit)
    decreases |s| - i
  {
    if i < |s| {
      StatementsStep(s, i);
      var mo := MatchAt(s, i);
      if mo.None? {
        StatementsLiterals(s, i + 1);
      } else {
        StatementsLiterals(s, mo.value.end);
      }
    }
  }

  /** Extraction maps each name to the literal of its LAST statement. */
  lemma {:induction false} ExtractLastWins(s: string, name: string, j: int)
    requires IsLastNamed(Statements(s, 0), name, j)
    ensures name in Extract(s)
    ensures IsLiteral(Statements(s, 0)[j].lit)
    ensures Extract(s)[name] == ParseLit(Statements(s, 0)[j].lit)
  {
    CollectLastWins(Statements(s, 0), name, j);
    StatementsLiterals(s, 0);
  }

  lemma {:induction false} ExtractKeys(s: string)
    ensures forall name :: name in Extract(s) <==> Named(Statements(s, 0), name)
  {
    CollectKeys(Statements(s, 0));
  }

  /** The reading ends in an `int` exactly when no point was read before
      `k` and none comes after it. */
  lemma {:induction false} ParseFromKind(t: string, k: nat, whole: int, dot: bool, frac: int, n: nat)
    requires k <= |t|
    ensures ParseFrom(t, k, whole, dot, frac, n).Int? <==> !dot && forall j :: k <= j < |t| ==> t[j] != '.'
    decreases |t| - k
  {
    if k < |t| {
      if t[k] == '.' {
        ParseFromKind(t, k + 1, whole, true, frac, n);
      } else if dot {
        ParseFromKind(t, k + 1, whole, dot, frac * 10 + (t[k] as int - '0' as int), n + 1);
      } else {
        ParseFromKind(t, k + 1, whole * 10 + (t[k] as int - '0' as int), dot, frac, n);
      }
    }
  }

  /** A literal without '.' becomes an `int`, one with '.' a `float`. */
  lemma {:induction false} ParseLitKind(t: string)
    requires IsLiteral(t)
    ensures ParseLit(t).Int? <==> !Contains(t, ".")
  {
    ParseFromKind(t, 0, 0, false, 0, 0);
    if exists j :: 0 <= j < |t| && t[j] == '.' {
      var j :| 0 <= j < |t| && t[j] == '.';
      assert OccursAt(t, ".", j);
    } else {
      forall i | 0 <= i <= |t| - 1
        ensures !OccursAt(t, ".", i)
      {
        assert t[i..i + 1][0] == t[i];
      }
    }
  }

  /** Extraction is total: a document in which the pattern matches nowhere
      yields the empty map. */
  lemma {:induction false} NoStatementNoParams(s: string, i: nat)
    requires i <= |s|
    requires forall k :: i <= k < |s| ==> MatchAt(s, k).None?
    ensures Statements(s, i) == []
    decreases |s| - i
  {
    if i < |s| {
      NoStatementNoParams(s, i + 1);
    }
  }

  lemma {:induction false} EmptyExtraction(s: string)
    requires forall k :: 0 <= k < |s| ==> MatchAt(s, k).None?
    ensures Extract(s) == map[]
  {
    NoStatementNoParams(s, 0);
  }

  /** One step of `findall`. */
  lemma {:induction false} StatementsStep(s: string, i: nat)
    requires i < |s|
    ensures MatchAt(s, i).None? ==> Statements(s, i) == Statements(s, i + 1)
    ensures MatchAt(s, i).Some? ==>
      Statements(s, i) == [MatchAt(s, i).value] + Statements(s, MatchAt(s, i).value.end)
  {
  }

  /** The statements of a scan lie in order, each after the previous one. */
  predicate Chained(s: string, ms: seq<Stmt>, i: nat)
    decreases |ms|
  {
    |ms| == 0 ||
    (i <= ms[0].start <= ms[0].litStart <= ms[0].end <= |s| && Chained(s, ms[1..], ms[0].end))
  }

  lemma {:induction false} StatementsChained(s: string, i: nat)
    requires i <= |s|
    ensures Chained(s, Statements(s, i), i)
    decreases |s| - i
  {
    if i < |s| {
      StatementsStep(s, i);
      var mo := MatchAt(s, i);
      if mo.None? {
        StatementsChained(s, i + 1);
        ChainedWeaken(s, Statements(s, i + 1), i, i + 1);
      } else {
        StatementsChained(s, mo.value.end);
        assert ([mo.value] + Statements(s, mo.value.end))[1..] == Statements(s, mo.value.end);
      }
    }
  }

  lemma {:induction false} ChainedWeaken(s: string, ms: seq<Stmt>, i: nat, j: nat)
    requires i <= j && Chained(s, ms, j)
    ensures Chained(s, ms, i)
  {
  }

  /** The rewrite of one parameter, as intended: every statement the
      extractor reports under `name` gets its literal and terminator replaced
      by `text;` (the `re.sub` replacement `\g<1>{new_value};`, which keeps
      the name, the spaces and the '=' and drops the spaces before ';');
      everything else is copied. */
  function Rewrite(s: string, name: string, text: string): string {
    StatementsChained(s, 0);
    Splice(s, Statements(s, 0), name, text, 0)
  }

  /** Copies `s` from `i`, replacing the statements of `ms` called `name`. */
  function Splice(s: string, ms: seq<Stmt>, name: string, text: string, i: nat): string
    requires i <= |s| && Chained(s, ms, i)
    decreases |ms|
  {
    if |ms| == 0 then s[i..]
    else
      var m := ms[0];
      s[i..m.start]
      + (if m.name == name then s[m.start..m.litStart] + text + ";" else s[m.start..m.end])
      + Splice(s, ms[1..], name, text, m.end)
  }

  lemma {:induction false} SpliceAbsent(s: string, ms: seq<Stmt>, name: string, text: string, i: nat)
    requires i <= |s| && Chained(s, ms, i)
    requires !Named(ms, name)
    ensures Splice(s, ms, name, text, i) == s[i..]
    decreases |ms|
  {
    if |ms| > 0 {
      var m := ms[0];
      assert !Named(ms[1..], name);
      SpliceAbsent(s, ms[1..], name, text, m.end);
      assert s[i..] == s[i..m.start] + s[m.start..m.end] + s[m.end..];
    }
  }

  /** A parameter the document does not define leaves the document as it
      is: no other statement is touched. */
  lemma {:induction false} RewriteAbsentName(s: string, name: string, text: string)
    requires name !in Extract(s)
    ensures Rewrite(s, name, text) == s
  {
    ExtractKeys(s);
    StatementsChained(s, 0);
    SpliceAbsent(s, Statements(s, 0), name, text, 0);
  }

  /** `apply_modifications`: one rewrite per modification, in the order of
      the modifications dict; `show` is Python's `str()` of the new value. */
  function RewriteAll(s: string, mods: seq<(string, Num)>, show: Num -> string): string
    decreases |mods|
  {
    if |mods| == 0 then s
    else RewriteAll(Rewrite(s, mods[0].0, show(mods[0].1)), mods[1..], show)
  }

  /** Modifications that name no parameter of the document change nothing;
      in particular an empty modifications dict changes nothing. */
  lemma {:induction false} RewriteAllAbsent(s: string, mods: seq<(string, Num)>, show: Num -> string)
    requires forall k :: 0 <= k < |mods| ==> mods[k].0 !in Extract(s)
    ensures RewriteAll(s, mods, show) == s
  {
    if |mods| > 0 {
      RewriteAbsentName(s, mods[0].0, show(mods[0].1));
      RewriteAllAbsent(s, mods[1..], show);
    }
  }

  // ---------------------------------------------------------------------
  // The rewrite as written in the source: the parameter name is pasted
  // into the pattern with nothing in front of it, so it also matches the
  // tail of a longer name (`width` inside `inner_width`).

  function RewriteAsWritten(s: string, name: string, text: string): string {
    RewriteAsWrittenFrom(s, name, text, 0)
  }

  function RewriteAsWrittenFrom(s: string, name: string, text: string, i: nat): string
    requires i <= |s|
    decreases |s| - i
  {
    if i == |s| then []
    else
      var t := if OccursAt(s, name, i) then AssignTail(s, i + |name|) else None;
      match t
      case None => [s[i]] + RewriteAsWrittenFrom(s, name, text, i + 1)
      case Some(tl) => s[i..tl.litStart] + text + ";" + RewriteAsWrittenFrom(s, name, text, tl.end)
  }

  /** The only statement of `aw=5;` is `aw`. */
  lemma {:induction false} SuffixExampleStatements()
    ensures Statements("aw=5;", 0) == [Stmt("aw", "5", Int(5), 0, 3, 4, 5)]
  {
    var s := "aw=5;";
    assert WordEnd(s, 0) == 2;
    assert SpaceEnd(s, 2) == 2;
    assert SpaceEnd(s, 3) == 3;
    assert DigitEnd(s, 3) == 4;
    assert SpaceEnd(s, 4) == 4;
    assert AssignTail(s, 2) == Some(Tail(3, 4, 5));
    assert s[0..2] == "aw" && s[3..4] == "5";
    assert DigitEnd("5", 0) == 1;
    assert ParseLit("5") == Int(5);
    assert MatchAt(s, 0) == Some(Stmt("aw", "5", Int(5), 0, 3, 4, 5));
  }

  lemma {:induction false} SuffixExampleAsWritten()
    ensures RewriteAsWritten("aw=5;", "w", "7") == "aw=7;"
  {
    var s := "aw=5;";
    assert s[0..1] == "a";
    assert !OccursAt(s, "w", 0);
    assert OccursAt(s, "w", 1);
    assert SpaceEnd(s, 2) == 2;
    assert SpaceEnd(s, 3) == 3;
    assert DigitEnd(s, 3) == 4;
    assert SpaceEnd(s, 4) == 4;
    assert AssignTail(s, 2) == Some(Tail(3, 4, 5));
    assert s[1..3] == "w=";
    assert RewriteAsWrittenFrom(s, "w", "7", 5) == [];
    assert RewriteAsWrittenFrom(s, "w", "7", 1) == "w=7;";
  }

  /** Counterexample: `aw=5;` has no parameter `w`, yet the as-written
      rewrite of `w` to 7 changes `aw`; the intended rewrite leaves the
      document alone. */
  lemma {:induction false} SuffixNameCounterexample()
    ensures Extract("aw=5;") == map["aw" := Int(5)]
    ensures "w" !in Extract("aw=5;")
    ensures RewriteAsWritten("aw=5;", "w", "7") == "aw=7;"
    ensures Rewrite("aw=5;", "w", "7") == "aw=5;"
  {
    SuffixExampleStatements();
    SuffixExampleAsWritten();
    var m := Stmt("aw", "5", Int(5), 0, 3, 4, 5);
    assert Collect([m]) == Collect([])[m.name := m.value];
    RewriteAbsentName("aw=5;", "w", "7");
  }
}

=== FILE: scad_rewrite.dfy ===
/**
 What the parameter rewrite of `backend/design_modifier.py` does to the
 extracted parameters: the rewritten document extracts the same names, and
 the rewritten parameter now has the value of the new literal.

 The proof compares the scan of the original text with the scan of the
 rewritten one. `MatchAt` reads the text forwards only, one character at a
 time, and never further than `MatchReach`; two texts that agree on that
 window give the same answer there. A position in front of a statement
 never reads as far as the statement's literal, so replacing the literal
 changes nothing before it.
 */
module ScadRewrite {
  import opened Text
  import opened ScadParams

  // ---------------------------------------------------------------------
  // Two texts that agree on a window.

  /** `u` from `p` and `v` from `q` hold the same `n` characters. Stated
      one character at a time, so that the solver only looks inside when a
      proof asks for a particular position (`AgreeAt`). */
  predicate Agree(u: string, p: nat, v: string, q: nat, n: nat)
    decreases n
  {
    p + n <= |u| && q + n <= |v| && (n == 0 || (u[p] == v[q] && Agree(u, p + 1, v, q + 1, n - 1)))
  }

  /** The window runs to the end of both texts: `u[p..] == v[q..]`. */
  predicate Tight(u: string, p: nat, v: string, q: nat, n: nat) {
    p + n == |u| && q + n == |v|
  }

  lemma {:induction false} AgreeAt(u: string, p: nat, v: string, q: nat, n: nat, i: nat)
    requires Agree(u, p, v, q, n) && p <= i < p + n
    ensures u[i] == v[i - p + q]
    decreases n
  {
    if i > p {
      AgreeAt(u, p + 1, v, q + 1, n - 1, i);
    }
  }

  lemma {:induction false} AgreeShift(u: string, p: nat, v: string, q: nat, n: nat, k: nat)
    requires Agree(u, p, v, q, n) && k <= n
    ensures Agree(u, p + k, v, q + k, n - k)
    ensures Tight(u, p, v, q, n) ==> Tight(u, p + k, v, q + k, n - k)
    decreases k
  {
    if k > 0 {
      AgreeShift(u, p + 1, v, q + 1, n - 1, k - 1);
    }
  }

  /** Agreement on a window gives agreement on any later part of it. */
  lemma {:induction false} AgreeFrom(u: string, p: nat, v: string, q: nat, n: nat, p': nat, q': nat, n': nat)
    requires Agree(u, p, v, q, n) && p <= p' && q' + p == p' + q && p' + n' == p + n
    ensures Agree(u, p', v, q', n')
    ensures Tight(u, p, v, q, n) ==> Tight(u, p', v, q', n')
  {
    AgreeShift(u, p, v, q, n, p' - p);
  }

  /** Pointwise equality gives agreement. */
  lemma {:induction false} AgreeOf(u: string, p: nat, v: string, q: nat, n: nat)
    requires p + n <= |u| && q + n <= |v|
    requires forall i :: p <= i < p + n ==> u[i] == v[i - p + q]
    ensures Agree(u, p, v, q, n)
    decreases n
  {
    if n > 0 {
      AgreeOf(u, p + 1, v, q + 1, n - 1);
    }
  }

  lemma {:induction false} AgreeSlice(u: string, p: nat, v: string, q: nat, n: nat, i: nat, j: nat, i': nat, j': nat)
    requires Agree(u, p, v, q, n) && p <= i <= j <= p + n
    requires i' + p == i + q && j' + p == j + q
    ensures u[i..j] == v[i'..j']
  {
    forall t | 0 <= t < j - i
      ensures u[i..j][t] == v[i'..j'][t]
    {
      AgreeAt(u, p, v, q, n, i + t);
    }
  }

  // ---------------------------------------------------------------------
  // The same reading at two places.

  /** The name run ends at the same offset in both texts when the window
      covers the run and the character that stops it. */
  lemma {:induction false} WordEndAgree(u: string, p: nat, v: string, q: nat, n: nat)
    requires p <= |u| && Agree(u, p, v, q, n)
    requires WordEnd(u, p) < p + n || Tight(u, p, v, q, n)
    ensures WordEnd(v, q) == WordEnd(u, p) - p + q
  {
    var j := WordEnd(u, p);
    forall k | q <= k < j - p + q
      ensures IsWord(v[k])
    {
      AgreeAt(u, p, v, q, n, k - q + p);
    }
    if j < p + n {
      AgreeAt(u, p, v, q, n, j);
    }
    WordEndOfRun(v, q, j - p + q);
  }

  /** `ph'` is `ph` with the positions it carries moved from `p` to `q`. */
  predicate PhaseMoved(ph: Phase, ph': Phase, p: nat, q: nat) {
    match ph
    case BeforeEq => ph' == BeforeEq
    case AfterEq => ph' == AfterEq
    case IntPart(ls) => ph'.IntPart? && ph'.ls + p == ls + q
    case Dot(ls, dot) => ph'.Dot? && ph'.ls + p == ls + q && ph'.dot + p == dot + q
    case FracPart(ls, dot) => ph'.FracPart? && ph'.ls + p == ls + q && ph'.dot + p == dot + q
    case AfterLit(ls, le) => ph'.AfterLit? && ph'.ls + p == ls + q && ph'.le + p == le + q
  }

  predicate TailMoved(o: Option<Tail>, o': Option<Tail>, p: nat, q: nat) {
    o.Some? == o'.Some? &&
    (o.Some? && o'.Some? ==>
      o'.value.litStart + p == o.value.litStart + q &&
      o'.value.litEnd + p == o.value.litEnd + q &&
      o'.value.end + p == o.value.end + q)
  }

  predicate StepMoved(st: Step, st': Step, p: nat, q: nat) {
    match st
    case Continue(k, ph) => st'.Continue? && st'.at + p == k + q && PhaseMoved(ph, st'.next, p, q)
    case Stop(o) => st'.Stop? && TailMoved(o, st'.outcome, p, q)
  }

  /** A character read at `p` and the same character read at `q` in the
      moved phase do the same thing, moved. */
  lemma {:induction false} NextMoved(c: char, p: nat, q: nat, ph: Phase, ph': Phase)
    requires PhaseMoved(ph, ph', p, q)
    ensures StepMoved(Next(c, p, ph), Next(c, q, ph'), p, q)
  {
  }

  /** One past the last character `TailFrom(s, k, ph)` looks at; `|s| + 1`
      when it runs into the end of the text. */
  function TailReach(s: string, k: nat, ph: Phase): (r: nat)
    requires k <= |s|
    ensures r > k
    decreases |s| - k, Rank(ph)
  {
    if k == |s| then |s| + 1
    else
      match Next(s[k], k, ph)
      case Continue(k', ph') => TailReach(s, k', ph')
      case Stop(_) => k + 1
  }

  /** One past the last character `MatchAt(s, i)` looks at. */
  function MatchReach(s: string, i: nat): (r: nat)
    requires i < |s|
    ensures r > i
  {
    if IsWord(s[i]) then TailReach(s, WordEnd(s, i), BeforeEq) else i + 1
  }

  /** A successful reading reads exactly up to the end of its statement. */
  lemma {:induction false} TailReachOfSome(s: string, k: nat, ph: Phase)
    requires k <= |s| && TailFrom(s, k, ph).Some?
    ensures TailReach(s, k, ph) == TailFrom(s, k, ph).value.end
    decreases |s| - k, Rank(ph)
  {
    match Next(s[k], k, ph)
    case Continue(k', ph') => TailReachOfSome(s, k', ph');
    case Stop(_) =>
  }

  /** Texts that agree on everything the reading looks at give the same
      outcome, moved by the offset between the two positions. */
  lemma {:induction false} TailFromAgree(u: string, p: nat, v: string, q: nat, n: nat, ph: Phase, ph': Phase)
    requires p <= |u| && Agree(u, p, v, q, n) && PhaseMoved(ph, ph', p, q)
    requires TailReach(u, p, ph) <= p + n || Tight(u, p, v, q, n)
    ensures TailMoved(TailFrom(u, p, ph), TailFrom(v, q, ph'), p, q)
    decreases |u| - p, Rank(ph)
  {
    if p < |u| {
      NextMoved(u[p], p, q, ph, ph');
      var st' := Next(v[q], q, ph');
      match Next(u[p], p, ph)
      case Continue(k, nx) =>
        if k == p + 1 {
          TailFromAgree(u, p + 1, v, q + 1, n - 1, nx, st'.next);
        } else {
          TailFromAgree(u, p, v, q, n, nx, st'.next);
        }
      case Stop(_) =>
    }
  }

  /** A statement found at `p` in `u` and one found at `q` in `v` are the
      same statement, moved. */
  predicate StmtMoved(o: Option<Stmt>, o': Option<Stmt>, p: nat, q: nat) {
    o.Some? == o'.Some? &&
    (o.Some? && o'.Some? ==>
      var m, m' := o.value, o'.value;
      m'.name == m.name && m'.lit == m.lit && m'.value == m.value &&
      m'.start + p == m.start + q && m'.litStart + p == m.litStart + q &&
      m'.litEnd + p == m.litEnd + q && m'.end + p == m.end + q)
  }

  /** A match is a name followed by a tail the reading finds. */
  lemma {:induction false} MatchAtTail(s: string, i: nat)
    requires i < |s|
    ensures MatchAt(s, i).Some? <==> IsWord(s[i]) && TailFrom(s, WordEnd(s, i), BeforeEq).Some?
    ensures MatchAt(s, i).Some? ==> var m := MatchAt(s, i).value;
      TailFrom(s, WordEnd(s, i), BeforeEq) == Some(Tail(m.litStart, m.litEnd, m.end))
  {
  }

  /** Texts that agree on everything `MatchAt` reads give the same match,
      moved by the offset between the two positions. */
  lemma {:induction false} MatchAtAgree(u: string, p: nat, v: string, q: nat, n: nat)
    requires p < |u| && Agree(u, p, v, q, n)
    requires MatchReach(u, p) <= p + n || Tight(u, p, v, q, n)
    ensures q < |v| && StmtMoved(MatchAt(u, p), MatchAt(v, q), p, q)
  {
    AgreeAt(u, p, v, q, n, p);
    MatchAtTail(u, p);
    MatchAtTail(v, q);
    if IsWord(u[p]) {
      var w := WordEnd(u, p);
      WordEndAgree(u, p, v, q, n);
      AgreeShift(u, p, v, q, n, w - p);
      TailFromAgree(u, w, v, w - p + q, n - (w - p), BeforeEq, BeforeEq);
      if MatchAt(u, p).Some? {
        var m := MatchAt(u, p).value;
        TailReachOfSome(u, w, BeforeEq);
        var m' := MatchAt(v, q).value;
        AgreeSlice(u, p, v, q, n, p, w, q, w - p + q);
        AgreeSlice(u, p, v, q, n, m.litStart, m.litEnd, m'.litStart, m'.litEnd);
      }
    }
  }

  // ---------------------------------------------------------------------
  // Scans.

  /** Two statement lists with the same names and values in the same order. */
  predicate SamePairs(a: seq<Stmt>, b: seq<Stmt>) {
    |a| == |b| && forall k :: 0 <= k < |a| ==> a[k].name == b[k].name && a[k].value == b[k].value
  }

  lemma {:induction false} SamePairsCons(a: seq<Stmt>, b: seq<Stmt>, x: Stmt, y: Stmt)
    requires SamePairs(a, b) && x.name == y.name && x.value == y.value
    ensures SamePairs([x] + a, [y] + b)
  {
  }

  /** `u` from `p` on and `v` from `q` on are the same text. */
  predicate SameSuffix(u: string, p: nat, v: string, q: nat) {
    p <= |u| && q <= |v| && |u| - p == |v| - q && Agree(u, p, v, q, |u| - p)
  }

  /** One step of scanning two equal suffixes: the same match, and equal
      suffixes again after it. */
  lemma {:induction false} SuffixStep(u: string, p: nat, v: string, q: nat)
    requires p < |u| && SameSuffix(u, p, v, q)
    ensures q < |v| && StmtMoved(MatchAt(u, p), MatchAt(v, q), p, q)
    ensures MatchAt(u, p).None? ==> SameSuffix(u, p + 1, v, q + 1)
    ensures MatchAt(u, p).Some? ==>
      SameSuffix(u, MatchAt(u, p).value.end, v, MatchAt(v, q).value.end)
  {
    var n := |u| - p;
    MatchAtAgree(u, p, v, q, n);
    if MatchAt(u, p).None? {
      AgreeFrom(u, p, v, q, n, p + 1, q + 1, n - 1);
    } else {
      AgreeFrom(u, p, v, q, n, MatchAt(u, p).value.end, MatchAt(v, q).value.end, |u| - MatchAt(u, p).value.end);
    }
  }

  /** Equal suffixes scan alike. */
  lemma {:induction false} StatementsSuffix(u: string, p: nat, v: string, q: nat)
    requires SameSuffix(u, p, v, q)
    ensures SamePairs(Statements(u, p), Statements(v, q))
    decreases |u| - p
  {
    if p < |u| {
      SuffixStep(u, p, v, q);
      StatementsStep(u, p);
      StatementsStep(v, q);
      if MatchAt(u, p).None? {
        StatementsSuffix(u, p + 1, v, q + 1);
      } else {
        var m, m' := MatchAt(u, p).value, MatchAt(v, q).value;
        StatementsSuffix(u, m.end, v, m'.end);
        SamePairsCons(Statements(u, m.end), Statements(v, m'.end), m, m');
      }
    }
  }

  /** Nothing matches at the positions from `a` up to `b`. */
  predicate NoMatch(s: string, a: nat, b: nat) {
    b <= |s| && forall k :: a <= k < b ==> MatchAt(s, k).None?
  }

  /** The first statement of a scan: nothing matches before it, it
      matches where it starts, and the scan resumes at its end. */
  lemma {:induction false} FirstStatement(s: string, i: nat)
    requires i <= |s| && |Statements(s, i)| > 0
    ensures var m := Statements(s, i)[0];
      i <= m.start < |s| && MatchAt(s, m.start) == Some(m) &&
      Statements(s, i)[1..] == Statements(s, m.end) && NoMatch(s, i, m.start)
    decreases |s| - i
  {
    StatementsStep(s, i);
    if MatchAt(s, i).None? {
      FirstStatement(s, i + 1);
      NoMatchBefore(s, i, Statements(s, i + 1)[0].start);
    } else {
      var m := MatchAt(s, i).value;
      assert Statements(s, i)[0] == m && Statements(s, i)[1..] == Statements(s, m.end);
    }
  }

  /** A position without a match extends a match-free stretch on its left. */
  lemma {:induction false} NoMatchBefore(s: string, i: nat, k: nat)
    requires i < |s| && MatchAt(s, i).None? && NoMatch(s, i + 1, k)
    ensures NoMatch(s, i, k)
  {
  }

  /** A stretch where nothing matches is skipped. */
  lemma {:induction false} SkipGap(v: string, a: nat, b: nat)
    requires a <= b && NoMatch(v, a, b)
    ensures Statements(v, a) == Statements(v, b)
    decreases b - a
  {
    if a < b {
      StatementsStep(v, a);
      SkipGap(v, a + 1, b);
    }
  }

  // ---------------------------------------------------------------------
  // The layout of a statement.

  /** Characters that leave the phase as it is are passed over. */
  lemma {:induction false} SkipRun(s: string, j: nat, e: nat, ph: Phase)
    requires j <= e <= |s|
    requires forall i :: j <= i < e ==> Next(s[i], i, ph) == Continue(i + 1, ph)
    ensures TailFrom(s, j, ph) == TailFrom(s, e, ph)
    ensures TailReach(s, j, ph) == TailReach(s, e, ph)
    decreases e - j
  {
    if j < e {
      SkipRun(s, j + 1, e, ph);
    }
  }

  /** Once the literal has started, a found literal starts there. */
  lemma {:induction false} KeepsStart(s: string, k: nat, ls: nat, ph: Phase)
    requires k <= |s|
    requires ph == IntPart(ls) || ph.Dot? || ph.FracPart? || ph.AfterLit?
    requires !ph.IntPart? ==> ph.ls == ls
    ensures TailFrom(s, k, ph).Some? ==> TailFrom(s, k, ph).value.litStart == ls
    decreases |s| - k, Rank(ph)
  {
    if k < |s| {
      match Next(s[k], k, ph)
      case Continue(k', ph') => KeepsStart(s, k', ls, ph');
      case Stop(_) =>
    }
  }

  /** A statement is its name (the word run at its start), white space,
      `=`, white space, and the reading of the literal. */
  predicate Layout(u: string, st: nat, ne: nat, eq: nat, ls: nat) {
    st < ne <= eq < ls <= |u| &&
    (forall i :: st <= i < ne ==> IsWord(u[i])) &&
    (forall i :: ne <= i < eq ==> IsSpace(u[i])) &&
    u[eq] == '=' &&
    forall i :: eq < i < ls ==> IsSpace(u[i])
  }

  /** A tail that is found begins with white space and `=`. */
  lemma {:induction false} TailShapeEq(s: string, k: nat, t: Tail)
    requires k <= |s| && TailFrom(s, k, BeforeEq) == Some(t)
    ensures var a := SpaceEnd(s, k);
      a < |s| && s[a] == '=' && TailFrom(s, a + 1, AfterEq) == Some(t)
  {
    SkipRun(s, k, SpaceEnd(s, k), BeforeEq);
  }

  /** After the `=`, white space up to the first digit of the literal. */
  lemma {:induction false} TailShapeLit(s: string, k: nat, t: Tail)
    requires k <= |s| && TailFrom(s, k, AfterEq) == Some(t)
    ensures SpaceEnd(s, k) == t.litStart
  {
    var b := SpaceEnd(s, k);
    SkipRun(s, k, b, AfterEq);
    assert b < |s| && IsDigit(s[b]);
    KeepsStart(s, b + 1, b, IntPart(b));
  }

  /** A name followed by a tail the reading finds has the layout of a
      statement. */
  lemma {:induction false} LayoutOfTail(u: string, st: nat, t: Tail)
    requires st < |u| && IsWord(u[st]) && TailFrom(u, WordEnd(u, st), BeforeEq) == Some(t)
    ensures var ne := WordEnd(u, st);
      Layout(u, st, ne, SpaceEnd(u, ne), t.litStart) && ne < |u| && !IsWord(u[ne])
  {
    var ne := WordEnd(u, st);
    TailShapeEq(u, ne, t);
    TailShapeLit(u, SpaceEnd(u, ne) + 1, t);
  }

  lemma {:induction false} StmtShape(u: string, m: Stmt)
    requires m.start < |u| && MatchAt(u, m.start) == Some(m)
    ensures var ne := WordEnd(u, m.start); var eq := SpaceEnd(u, ne);
      Layout(u, m.start, ne, eq, m.litStart) && ne < |u| && !IsWord(u[ne]) &&
      TailFrom(u, ne, BeforeEq) == Some(Tail(m.litStart, m.litEnd, m.end))
  {
    MatchAtTail(u, m.start);
    LayoutOfTail(u, m.start, Tail(m.litStart, m.litEnd, m.end));
  }

  /** After the literal, white space up to an `=`: the reading stops at
      the `=`. */
  lemma {:induction false} LitAfterReach(u: string, j: nat, eq: nat, ls: nat, le: nat)
    requires j <= eq < |u| && u[eq] == '='
    requires forall i :: j <= i < eq ==> IsSpace(u[i])
    ensures TailReach(u, j, AfterLit(ls, le)) == eq + 1
  {
    SkipRun(u, j, eq, AfterLit(ls, le));
  }

  /** A reading inside a statement's name stops at its `=` at the latest:
      only digits let it go on, and what follows the name cannot end a
      literal. */
  lemma {:induction false} NameReach(u: string, j: nat, ph: Phase, st: nat, ne: nat, eq: nat, ls: nat)
    requires Layout(u, st, ne, eq, ls) && st <= j <= ne
    requires j == ne ==> ph.IntPart? || ph.FracPart?
    ensures TailReach(u, j, ph) <= eq + 1
    decreases ne - j, Rank(ph)
  {
    var c := u[j];
    if j < ne {
      match Next(c, j, ph)
      case Continue(k', ph') => NameReach(u, k', ph', st, ne, eq, ls);
      case Stop(_) =>
    } else {
      LitAfterReach(u, ne, eq, ph.ls, ne);
    }
  }

  /** A reading begun in front of a statement stops at its `=` at the latest. */
  lemma {:induction false} GapTail(u: string, j: nat, ph: Phase, st: nat, ne: nat, eq: nat, ls: nat)
    requires Layout(u, st, ne, eq, ls) && j <= st
    ensures TailReach(u, j, ph) <= eq + 1
    decreases st - j, Rank(ph)
  {
    if j < st {
      match Next(u[j], j, ph)
      case Continue(k', ph') => GapTail(u, k', ph', st, ne, eq, ls);
      case Stop(_) =>
    } else {
      NameReach(u, j, ph, st, ne, eq, ls);
    }
  }

  /** An attempt in front of a statement that fails reads no further than
      the statement's literal. */
  lemma {:induction false} GapReach(u: string, k: nat, m: Stmt)
    requires m.start < |u| && MatchAt(u, m.start) == Some(m)
    requires k < m.start && MatchAt(u, k).None?
    ensures MatchReach(u, k) <= m.litStart
  {
    StmtShape(u, m);
    if IsWord(u[k]) {
      var w := WordEnd(u, k);
      if w >= m.start {
        WordEndOfRun(u, m.start, w);
        assert false;
      }
      var ne := WordEnd(u, m.start);
      GapTail(u, w, BeforeEq, m.start, ne, SpaceEnd(u, ne), m.litStart);
    }
  }

  /** A well-formed literal followed by `;` is read as the literal. */
  lemma {:induction false} LiteralTail(s: string, l: nat, text: string)
    requires IsLiteral(text) && l + |text| < |s|
    requires forall t :: 0 <= t < |text| ==> s[l + t] == text[t]
    requires s[l + |text|] == ';'
    ensures TailFrom(s, l, AfterEq) == Some(Tail(l, l + |text|, l + |text| + 1))
  {
    var d := DigitEnd(text, 0);
    assert s[l + 0] == text[0];
    forall i | l + 1 <= i < l + d
      ensures Next(s[i], i, IntPart(l)) == Continue(i + 1, IntPart(l))
    {
      assert s[l + (i - l)] == text[i - l];
    }
    SkipRun(s, l + 1, l + d, IntPart(l));
    if d < |text| {
      assert s[l + d] == text[d];
      assert s[l + (d + 1)] == text[d + 1];
      var e := l + |text|;
      forall i | l + d + 2 <= i < e
        ensures Next(s[i], i, FracPart(l, l + d)) == Continue(i + 1, FracPart(l, l + d))
      {
        assert s[l + (i - l)] == text[i - l];
      }
      SkipRun(s, l + d + 2, e, FracPart(l, l + d));
    }
  }

  /** The layout of a statement carries over to a text that agrees with
      it up to the literal. */
  lemma {:induction false} LayoutAgree(u: string, st: nat, ne: nat, eq: nat, ls: nat, v: string, q: nat)
    requires Layout(u, st, ne, eq, ls) && !IsWord(u[ne])
    requires Agree(u, st, v, q, ls - st)
    ensures Layout(v, q, ne - st + q, eq - st + q, ls - st + q)
  {
    var n := ls - st;
    forall i | q <= i < ls - st + q
      ensures v[i] == u[i - q + st]
    {
      AgreeAt(u, st, v, q, n, i - q + st);
    }
  }

  /** A layout followed by a literal and `;` is read as that literal. */
  lemma {:induction false} LayoutTail(v: string, st: nat, ne: nat, eq: nat, ls: nat, text: string)
    requires Layout(v, st, ne, eq, ls) && IsLiteral(text) && ls + |text| < |v|
    requires forall t :: 0 <= t < |text| ==> v[ls + t] == text[t]
    requires v[ls + |text|] == ';'
    ensures TailFrom(v, ne, BeforeEq) == Some(Tail(ls, ls + |text|, ls + |text| + 1))
  {
    SkipRun(v, ne, eq, BeforeEq);
    SkipRun(v, eq + 1, ls, AfterEq);
    LiteralTail(v, ls, text);
  }

  /** A name followed by a tail the reading finds is a match. */
  lemma {:induction false} MatchOfTail(s: string, i: nat, t: Tail)
    requires i < |s| && IsWord(s[i]) && TailFrom(s, WordEnd(s, i), BeforeEq) == Some(t)
    ensures MatchAt(s, i).Some?
    ensures var m := MatchAt(s, i).value;
      m.name == s[i..WordEnd(s, i)] && m.lit == s[t.litStart..t.litEnd] &&
      m.start == i && m.litStart == t.litStart && m.litEnd == t.litEnd && m.end == t.end
  {
    MatchAtTail(s, i);
  }

  /** A layout followed by a literal and `;` is a match of that literal. */
  lemma {:induction false} LayoutMatch(v: string, q: nat, ne: nat, eq: nat, ls: nat, text: string)
    requires Layout(v, q, ne, eq, ls) && IsLiteral(text) && ls + |text| < |v|
    requires forall t :: 0 <= t < |text| ==> v[ls + t] == text[t]
    requires v[ls + |text|] == ';'
    ensures MatchAt(v, q) == Some(Stmt(v[q..ne], text, ParseLit(text), q, ls, ls + |text|, ls + |text| + 1))
  {
    WordEndOfRun(v, q, ne);
    LayoutTail(v, q, ne, eq, ls, text);
    MatchOfTail(v, q, Tail(ls, ls + |text|, ls + |text| + 1));
    assert v[ls..ls + |text|] == text;
  }

  /** A statement whose literal and terminator became `text;` still
      matches, with the new literal and its value: the text agrees with
      the statement's layout `u[st..ls]` from `q` on, and holds `text;`
      after it. */
  lemma {:induction false} MatchRewritten(u: string, st: nat, ne: nat, eq: nat, ls: nat, v: string, q: nat, text: string)
    requires Layout(u, st, ne, eq, ls) && !IsWord(u[ne]) && IsLiteral(text)
    requires Agree(u, st, v, q, ls - st)
    requires q + (ls - st) + |text| < |v|
    requires forall t :: 0 <= t < |text| ==> v[q + (ls - st) + t] == text[t]
    requires v[q + (ls - st) + |text|] == ';'
    ensures q < |v|
    ensures var ls' := q + (ls - st);
      MatchAt(v, q) == Some(Stmt(u[st..ne], text, ParseLit(text), q, ls', ls' + |text|, ls' + |text| + 1))
  {
    var ne' := ne - st + q;
    LayoutAgree(u, st, ne, eq, ls, v, q);
    LayoutMatch(v, q, ne', eq - st + q, q + (ls - st), text);
    AgreeSlice(u, st, v, q, ls - st, st, ne, q, ne');
  }

  // ---------------------------------------------------------------------
  // The rewrite.

  /** `r` ends, from `e` on, with `rest`: told character by character. */
  predicate Follows(r: string, e: nat, rest: string) {
    e + |rest| == |r| && Agree(r, e, rest, 0, |rest|)
  }

  /** What a renamed statement leaves in the rewritten part `r`: the old
      text from `i` up to the literal at `ls`, then `text` and its `;`. */
  predicate RenamedPart(s: string, i: nat, ls: nat, text: string, r: string) {
    i <= ls <= |s| && Agree(s, i, r, 0, ls - i) && ls - i + |text| < |r| &&
    (forall t :: 0 <= t < |text| ==> r[ls - i + t] == text[t]) &&
    r[ls - i + |text|] == ';'
  }

  /** A text that ends with `y` follows it there. */
  lemma {:induction false} RestAgree(a: string, y: string, r: string)
    requires r == a + y
    ensures Follows(r, |a|, y)
  {
    forall t | |a| <= t < |a| + |y|
      ensures r[t] == y[t - |a| + 0]
    {
    }
    AgreeOf(r, |a|, y, 0, |y|);
  }

  /** A text that starts with `s[i..kept]` agrees with `s` there. */
  lemma {:induction false} PrefixAgree(s: string, i: nat, kept: nat, y: string, r: string)
    requires i <= kept <= |s| && r == s[i..kept] + y
    ensures Agree(s, i, r, 0, kept - i) && Follows(r, kept - i, y)
  {
    forall t | i <= t < i + (kept - i)
      ensures s[t] == r[t - i + 0]
    {
      assert r[t - i] == s[i..kept][t - i];
    }
    AgreeOf(s, i, r, 0, kept - i);
    RestAgree(s[i..kept], y, r);
  }

  /** The rewritten part of a renamed statement reads as the old text up to
      the literal, then the new literal, then `;`, then the rest. */
  lemma {:induction false} RenamedText(s: string, i: nat, ls: nat, text: string, rest: string, r: string)
    requires i <= ls <= |s| && r == s[i..ls] + (text + ";") + rest
    ensures RenamedPart(s, i, ls, text, r) && Follows(r, ls - i + |text| + 1, rest)
  {
    RestAgree(s[i..ls] + (text + ";"), rest, r);
    assert r == s[i..ls] + ((text + ";") + rest);
    PrefixAgree(s, i, ls, (text + ";") + rest, r);
    forall t | 0 <= t < |text|
      ensures r[ls - i + t] == text[t]
    {
      assert r[ls - i + t] == (text + ";")[t];
    }
    assert r[ls - i + |text|] == (text + ";")[|text|];
  }

  /** Nothing matches in the rewritten text in front of the first statement. */
  lemma {:induction false} GapPoint(s: string, i: nat, m: Stmt, r: string, kept: nat, t: nat)
    requires m.start < |s| && MatchAt(s, m.start) == Some(m) && m.litStart <= kept
    requires i <= kept && Agree(s, i, r, 0, kept - i) && i + t < m.start && MatchAt(s, i + t).None?
    ensures t < |r| && MatchAt(r, t).None?
  {
    GapReach(s, i + t, m);
    AgreeFrom(s, i, r, 0, kept - i, i + t, t, kept - (i + t));
    NoMatchMoved(s, i + t, r, t, kept - (i + t));
  }

  /** A position where nothing matches, whose attempt reads only agreeing
      characters, has no match in the other text either. */
  lemma {:induction false} NoMatchMoved(u: string, p: nat, v: string, q: nat, n: nat)
    requires p < |u| && Agree(u, p, v, q, n) && MatchReach(u, p) <= p + n && MatchAt(u, p).None?
    ensures q < |v| && MatchAt(v, q).None?
  {
    MatchAtAgree(u, p, v, q, n);
  }

  /** The statement at the head of a renamed part, stated over the layout of
      the old statement: the same name, now with `text`. */
  lemma {:induction false} LayoutRenamed(s: string, i: nat, st: nat, ne: nat, eq: nat, ls: nat, text: string, r: string)
    requires Layout(s, st, ne, eq, ls) && !IsWord(s[ne]) && IsLiteral(text) && i <= st
    requires RenamedPart(s, i, ls, text, r)
    ensures var g := st - i; var ls' := g + (ls - st);
      g < |r| && MatchAt(r, g) == Some(Stmt(s[st..ne], text, ParseLit(text), g, ls', ls' + |text|, ls' + |text| + 1))
  {
    AgreeFrom(s, i, r, 0, ls - i, st, st - i, ls - st);
    MatchRewritten(s, st, ne, eq, ls, r, st - i, text);
  }

  /** The statement at the head of the rewritten part, when it is renamed:
      it now carries `text`. */
  lemma {:induction false} HeadRenamed(s: string, i: nat, m: Stmt, text: string, r: string)
    requires i <= m.start < |s| && MatchAt(s, m.start) == Some(m) && IsLiteral(text)
    requires RenamedPart(s, i, m.litStart, text, r)
    ensures var g := m.start - i;
      g < |r| && MatchAt(r, g).Some? && MatchAt(r, g).value.name == m.name &&
      MatchAt(r, g).value.value == ParseLit(text) && MatchAt(r, g).value.end == m.litStart - i + |text| + 1
  {
    StmtShape(s, m);
    var ne := WordEnd(s, m.start);
    LayoutRenamed(s, i, m.start, ne, SpaceEnd(s, ne), m.litStart, text, r);
  }

  /** The statement at the head of the rewritten part, when it is kept:
      the same statement, moved. */
  lemma {:induction false} HeadKept(s: string, i: nat, m: Stmt, r: string)
    requires i <= m.start < |s| && MatchAt(s, m.start) == Some(m)
    requires Agree(s, i, r, 0, m.end - i)
    ensures var g := m.start - i;
      g < |r| && MatchAt(r, g).Some? && MatchAt(r, g).value.name == m.name &&
      MatchAt(r, g).value.value == m.value && MatchAt(r, g).value.end == m.end - i
  {
    var g := m.start - i;
    AgreeFrom(s, i, r, 0, m.end - i, m.start, g, m.end - m.start);
    MatchAtTail(s, m.start);
    TailReachOfSome(s, WordEnd(s, m.start), BeforeEq);
    MatchAtAgree(s, m.start, r, g, m.end - m.start);
  }

  /** Nothing matches in the rewritten text in front of the first statement. */
  lemma {:induction false} HeadGap(s: string, i: nat, m: Stmt, r: string, kept: nat)
    requires i <= m.start < |s| && MatchAt(s, m.start) == Some(m) && m.litStart <= kept
    requires NoMatch(s, i, m.start)
    requires i <= kept && Agree(s, i, r, 0, kept - i)
    ensures NoMatch(r, 0, m.start - i)
  {
    forall t | 0 <= t < m.start - i
      ensures t < |r| && MatchAt(r, t).None?
    {
      GapPoint(s, i, m, r, kept, t);
    }
  }

  /** The spliced text, one statement at a time: the old text up to the
      first statement's literal (renamed) or its end (kept), the new literal
      and `;` when renamed, then the splice of the rest. */
  lemma {:induction false} SpliceHead(s: string, ms: seq<Stmt>, name: string, text: string, i: nat)
    requires i <= |s| && Chained(s, ms, i) && |ms| > 0
    ensures var m := ms[0]; i <= m.start <= m.litStart <= m.end <= |s| && Chained(s, ms[1..], m.end)
    ensures var m, r := ms[0], Splice(s, ms, name, text, i); var rest := Splice(s, ms[1..], name, text, m.end);
      m.name == name ==> RenamedPart(s, i, m.litStart, text, r) && Follows(r, m.litStart - i + |text| + 1, rest)
    ensures var m, r := ms[0], Splice(s, ms, name, text, i); var rest := Splice(s, ms[1..], name, text, m.end);
      m.name != name ==> Agree(s, i, r, 0, m.end - i) && Follows(r, m.end - i, rest)
  {
    var m, r := ms[0], Splice(s, ms, name, text, i);
    var rest := Splice(s, ms[1..], name, text, m.end);
    if m.name == name {
      assert s[i..m.start] + s[m.start..m.litStart] == s[i..m.litStart];
      assert r == s[i..m.litStart] + (text + ";") + rest;
      RenamedText(s, i, m.litStart, text, rest, r);
    } else {
      assert s[i..m.start] + s[m.start..m.end] == s[i..m.end];
      PrefixAgree(s, i, m.end, rest, r);
    }
  }

  /** The renamed statement at the head of the rewritten part: nothing
      matches before it, and it carries `text`. */
  lemma {:induction false} HeadMatchRenamed(s: string, i: nat, m: Stmt, text: string, r: string)
    requires i <= m.start < |s| && MatchAt(s, m.start) == Some(m) && IsLiteral(text)
    requires NoMatch(s, i, m.start)
    requires RenamedPart(s, i, m.litStart, text, r)
    ensures NoMatch(r, 0, m.start - i)
    ensures var g := m.start - i;
      g < |r| && MatchAt(r, g).Some? && MatchAt(r, g).value.name == m.name &&
      MatchAt(r, g).value.value == ParseLit(text) && MatchAt(r, g).value.end == m.litStart - i + |text| + 1
  {
    HeadGap(s, i, m, r, m.litStart);
    HeadRenamed(s, i, m, text, r);
  }

  /** The kept statement at the head of the rewritten part: nothing matches
      before it, and it is the old statement. */
  lemma {:induction false} HeadMatchKept(s: string, i: nat, m: Stmt, r: string)
    requires i <= m.start < |s| && MatchAt(s, m.start) == Some(m)
    requires NoMatch(s, i, m.start)
    requires Agree(s, i, r, 0, m.end - i)
    ensures NoMatch(r, 0, m.start - i)
    ensures var g := m.start - i;
      g < |r| && MatchAt(r, g).Some? && MatchAt(r, g).value.name == m.name &&
      MatchAt(r, g).value.value == m.value && MatchAt(r, g).value.end == m.end - i
  {
    HeadGap(s, i, m, r, m.end);
    HeadKept(s, i, m, r);
  }

  /** A scan that meets nothing before a statement at `g` takes that
      statement first and resumes at its end. */
  lemma {:induction false} ScanFromHead(r: string, g: nat)
    requires g < |r| && MatchAt(r, g).Some?
    requires NoMatch(r, 0, g)
    ensures Statements(r, 0) == [MatchAt(r, g).value] + Statements(r, MatchAt(r, g).value.end)
  {
    SkipGap(r, 0, g);
    StatementsStep(r, g);
  }

  /** A text that ends with `rest` scans there as `rest` does. */
  lemma {:induction false} ScanRest(r: string, e: nat, rest: string)
    requires Follows(r, e, rest)
    ensures SamePairs(Statements(r, e), Statements(rest, 0))
  {
    StatementsSuffix(r, e, rest, 0);
  }

  /** `rs` holds the statements of `ms` in order, with the value of every
      statement called `name` replaced by `val`. */
  predicate Updated(rs: seq<Stmt>, ms: seq<Stmt>, name: string, val: Num) {
    |rs| == |ms| &&
    forall k :: 0 <= k < |ms| ==>
      rs[k].name == ms[k].name && rs[k].value == (if ms[k].name == name then val else ms[k].value)
  }

  lemma {:induction false} UpdatedCons(h: Stmt, a: seq<Stmt>, b: seq<Stmt>, ms: seq<Stmt>, name: string, val: Num)
    requires |ms| > 0 && SamePairs(a, b) && Updated(b, ms[1..], name, val)
    requires h.name == ms[0].name && h.value == if ms[0].name == name then val else ms[0].value
    ensures Updated([h] + a, ms, name, val)
  {
    forall k | 1 <= k < |ms|
      ensures ([h] + a)[k].name == ms[k].name
    {
      assert ms[k] == ms[1..][k - 1];
    }
  }

  /** Without statements the splice changes nothing, and its scan finds none. */
  lemma {:induction false} SpliceEmpty(s: string, name: string, text: string, i: nat)
    requires i <= |s| && Statements(s, i) == []
    ensures Statements(Splice(s, [], name, text, i), 0) == []
  {
    var r := Splice(s, [], name, text, i);
    assert r == s[i..|s|] + [];
    PrefixAgree(s, i, |s|, [], r);
    StatementsSuffix(s, i, r, 0);
  }

  /** One statement of the splice: if the text after the first statement
      scans as the rest of the statements, updated, so does the whole. */
  lemma {:induction false} ConsFromHead(r: string, g: nat, rest: string, ms: seq<Stmt>, name: string, val: Num)
    requires g < |r| && MatchAt(r, g).Some? && |ms| > 0
    requires NoMatch(r, 0, g)
    requires Follows(r, MatchAt(r, g).value.end, rest)
    requires MatchAt(r, g).value.name == ms[0].name
    requires MatchAt(r, g).value.value == if ms[0].name == name then val else ms[0].value
    requires Updated(Statements(rest, 0), ms[1..], name, val)
    ensures Updated(Statements(r, 0), ms, name, val)
  {
    var h := MatchAt(r, g).value;
    ScanFromHead(r, g);
    ScanRest(r, h.end, rest);
    UpdatedCons(h, Statements(r, h.end), Statements(rest, 0), ms, name, val);
  }

  /** One statement of the splice: a text `r` laid out as `SpliceHead`
      describes, followed by a text `rest` that scans as the remaining
      statements updated, scans as all of them updated. */
  lemma {:induction false} SpliceCons(s: string, ms: seq<Stmt>, name: string, text: string, i: nat, r: string, rest: string)
    requires IsLiteral(text) && |ms| > 0
    requires var m := ms[0]; i <= m.start < |s| && MatchAt(s, m.start) == Some(m) && NoMatch(s, i, m.start)
    requires var m := ms[0];
      m.name == name ==> RenamedPart(s, i, m.litStart, text, r) && Follows(r, m.litStart - i + |text| + 1, rest)
    requires var m := ms[0];
      m.name != name ==> i <= m.end && Agree(s, i, r, 0, m.end - i) && Follows(r, m.end - i, rest)
    requires Updated(Statements(rest, 0), ms[1..], name, ParseLit(text))
    ensures Updated(Statements(r, 0), ms, name, ParseLit(text))
  {
    var m := ms[0];
    if m.name == name {
      HeadMatchRenamed(s, i, m, text, r);
    } else {
      HeadMatchKept(s, i, m, r);
    }
    ConsFromHead(r, m.start - i, rest, ms, name, ParseLit(text));
  }

  /** Scanning the spliced text finds the original statements, in order,
      with the new literal's value wherever the name is `name`. */
  lemma {:induction false} SpliceScan(s: string, name: string, text: string, i: nat)
    requires i <= |s| && IsLiteral(text)
    requires Chained(s, Statements(s, i), i)
    ensures Updated(Statements(Splice(s, Statements(s, i), name, text, i), 0), Statements(s, i), name, ParseLit(text))
    decreases |s| - i
  {
    var ms := Statements(s, i);
    if |ms| == 0 {
      SpliceEmpty(s, name, text, i);
    } else {
      FirstStatement(s, i);
      SpliceHead(s, ms, name, text, i);
      SpliceScan(s, name, text, ms[0].end);
      SpliceCons(s, ms, name, text, i, Splice(s, ms, name, text, i), Splice(s, ms[1..], name, text, ms[0].end));
    }
  }

  /** The dict of an updated statement list is the original dict with the
      one key replaced, when the key is there at all. */
  lemma {:induction false} CollectUpdated(rs: seq<Stmt>, ms: seq<Stmt>, name: string, val: Num)
    requires Updated(rs, ms, name, val)
    ensures Collect(rs) == if name in Collect(ms) then Collect(ms)[name := val] else Collect(ms)
    decreases |ms|
  {
    if |ms| > 0 {
      var n := |ms| - 1;
      assert Updated(rs[..n], ms[..n], name, val);
      CollectUpdated(rs[..n], ms[..n], name, val);
    }
  }

  /** The round trip of one rewrite: the rewritten document extracts the
      same names as before, and the rewritten parameter has the value of
      the new literal. A name that is not a parameter changes nothing. */
  lemma {:induction false} RewriteExtract(s: string, name: string, text: string)
    requires IsLiteral(text)
    ensures Extract(Rewrite(s, name, text)) ==
      if name in Extract(s) then Extract(s)[name := ParseLit(text)] else Extract(s)
  {
    StatementsChained(s, 0);
    SpliceScan(s, name, text, 0);
    CollectUpdated(Statements(Rewrite(s, name, text), 0), Statements(s, 0), name, ParseLit(text));
  }

  /** The modifications applied to a parameter dict: each one whose name
      is a parameter replaces that parameter's value, in order. */
  function UpdateAll(p: Params, mods: seq<(string, Num)>, show: Num -> string): (r: Params)
    requires forall k :: 0 <= k < |mods| ==> IsLiteral(show(mods[k].1))
    ensures r.Keys == p.Keys
    decreases |mods|
  {
    if |mods| == 0 then p
    else
      var name := mods[0].0;
      UpdateAll(if name in p then p[name := ParseLit(show(mods[0].1))] else p, mods[1..], show)
  }

  /** The names of `mods` are pairwise distinct, as the keys of a dict are. */
  predicate DistinctNames(mods: seq<(string, Num)>) {
    forall a, b :: 0 <= a < b < |mods| ==> mods[a].0 != mods[b].0
  }

  /** A parameter that no modification names keeps its value. */
  lemma {:induction false} UpdateAllUnnamed(p: Params, mods: seq<(string, Num)>, show: Num -> string, key: string)
    requires forall k :: 0 <= k < |mods| ==> IsLiteral(show(mods[k].1))
    requires key in p && forall k :: 0 <= k < |mods| ==> mods[k].0 != key
    ensures key in UpdateAll(p, mods, show) && UpdateAll(p, mods, show)[key] == p[key]
    decreases |mods|
  {
    if |mods| > 0 {
      var name := mods[0].0;
      var p' := if name in p then p[name := ParseLit(show(mods[0].1))] else p;
      UpdateAllUnnamed(p', mods[1..], show, key);
    }
  }

  /** With distinct names, a modified parameter ends with the value of its
      modification's literal. */
  lemma {:induction false} UpdateAllNamed(p: Params, mods: seq<(string, Num)>, show: Num -> string, j: nat)
    requires forall k :: 0 <= k < |mods| ==> IsLiteral(show(mods[k].1))
    requires DistinctNames(mods) && j < |mods| && mods[j].0 in p
    ensures mods[j].0 in UpdateAll(p, mods, show)
    ensures UpdateAll(p, mods, show)[mods[j].0] == ParseLit(show(mods[j].1))
    decreases |mods|
  {
    var name := mods[0].0;
    var p' := if name in p then p[name := ParseLit(show(mods[0].1))] else p;
    if j == 0 {
      UpdateAllUnnamed(p', mods[1..], show, name);
    } else {
      assert mods[1..][j - 1] == mods[j];
      UpdateAllNamed(p', mods[1..], show, j - 1);
    }
  }

  /** The round trip of `apply_modifications`: extracting after all the
      rewrites gives the old parameters with the modified values, as long
      as `str()` of each new value is a decimal literal. */
  lemma {:induction false} RewriteAllExtract(s: string, mods: seq<(string, Num)>, show: Num -> string)
    requires forall k :: 0 <= k < |mods| ==> IsLiteral(show(mods[k].1))
    ensures Extract(RewriteAll(s, mods, show)) == UpdateAll(Extract(s), mods, show)
    decreases |mods|
  {
    if |mods| > 0 {
      RewriteExtract(s, mods[0].0, show(mods[0].1));
      RewriteAllExtract(Rewrite(s, mods[0].0, show(mods[0].1)), mods[1..], show);
    }
  }

  /** `apply_modifications` with a dict of modifications, read back by
      `extract_parameters`: the same names; a modified parameter has the
      value of its new literal, and every other parameter keeps its value. */
  lemma {:induction false} RewriteAllValues(s: string, mods: seq<(string, Num)>, show: Num -> string)
    requires forall k :: 0 <= k < |mods| ==> IsLiteral(show(mods[k].1))
    requires DistinctNames(mods)
    ensures Extract(RewriteAll(s, mods, show)).Keys == Extract(s).Keys
    ensures forall j :: 0 <= j < |mods| && mods[j].0 in Extract(s) ==>
      Extract(RewriteAll(s, mods, show))[mods[j].0] == ParseLit(show(mods[j].1))
    ensures forall key :: key in Extract(s) && (forall k :: 0 <= k < |mods| ==> mods[k].0 != key) ==>
      Extract(RewriteAll(s, mods, show))[key] == Extract(s)[key]
  {
    RewriteAllExtract(s, mods, show);
    forall j | 0 <= j < |mods| && mods[j].0 in Extract(s)
      ensures Extract(RewriteAll(s, mods, show))[mods[j].0] == ParseLit(show(mods[j].1))
    {
      UpdateAllNamed(Extract(s), mods, show, j);
    }
    forall key | key in Extract(s) && (forall k :: 0 <= k < |mods| ==> mods[k].0 != key)
      ensures Extract(RewriteAll(s, mods, show))[key] == Extract(s)[key]
    {
      UpdateAllUnnamed(Extract(s), mods, show, key);
    }
  }

  /** For non-negative integer values shown as Python's `str()` shows them,
      the rewritten design gives back exactly the requested values. */
  lemma {:induction false} RewriteAllNatValues(s: string, mods: seq<(string, Num)>, show: Num -> string)
    requires forall k :: 0 <= k < |mods| ==>
      mods[k].1.Int? && mods[k].1.i >= 0 && show(mods[k].1) == NatText(mods[k].1.i)
    requires DistinctNames(mods)
    ensures Extract(RewriteAll(s, mods, show)).Keys == Extract(s).Keys
    ensures forall j :: 0 <= j < |mods| && mods[j].0 in Extract(s) ==>
      Extract(RewriteAll(s, mods, show))[mods[j].0] == mods[j].1
  {
    forall k | 0 <= k < |mods|
      ensures IsLiteral(show(mods[k].1)) && ParseLit(show(mods[k].1)) == mods[k].1
    {
      ParseNatText(mods[k].1.i);
    }
    RewriteAllValues(s, mods, show);
  }
}

=== FILE: state_manager.dfy ===
/**
 The pure helpers of `backend/state_manager.py`: description cleaning, the
 snapshot file-name scheme with its zero-padded version prefix, the capped
 history list, and the defaults of the persisted design state.
 */
module StateManager {
  import opened Text
  import opened ScadParams

  /** Verbose openings an LLM tends to put in front of a description, in
      the order they are tried. */
  const VerbosePrefixes: seq<string> := [
    "The operator wants to ",
    "The user wants to ",
    "The request is to ",
    "Operator requested to ",
    "User requested to "
  ]

  /** A cleaned description is cut to this many characters... */
  const DescriptionLimit: nat := 60
  /** ...keeping this many and appending "...". */
  const DescriptionKeep: nat := 57
  /** The file-name slug of a description is at most this long. */
  const SlugLimit: nat := 30
  /** The history keeps this many most recent entries. */
  const HistoryLimit: nat := 50

  function Min(a: int, b: int): int {
    if a <= b then a else b
  }

  /** Index of the first verbose prefix, from `k` on, that `s` starts with;
      `|VerbosePrefixes|` when there is none. */
  function FirstPrefix(s: string, k: nat): (j: nat)
    requires k <= |VerbosePrefixes|
    ensures k <= j <= |VerbosePrefixes|
    ensures j < |VerbosePrefixes| ==> StartsWith(s, VerbosePrefixes[j])
    ensures forall i :: k <= i < j ==> !StartsWith(s, VerbosePrefixes[i])
    decreases |VerbosePrefixes| - k
  {
    if k == |VerbosePrefixes| || StartsWith(s, VerbosePrefixes[k]) then k
    else FirstPrefix(s, k + 1)
  }

  /** The prefix loop with its `break`: at most one prefix is removed, the
      first one in list order that matches. */
  function StripVerbosePrefix(s: string): (r: string)
    ensures (forall i :: 0 <= i < |VerbosePrefixes| ==> !StartsWith(s, VerbosePrefixes[i])) ==> r == s
    ensures forall j :: 0 <= j < |VerbosePrefixes| && StartsWith(s, VerbosePrefixes[j])
              && (forall i :: 0 <= i < j ==> !StartsWith(s, VerbosePrefixes[i]))
              ==> r == s[|VerbosePrefixes[j]|..]
  {
    var j := FirstPrefix(s, 0);
    if j == |VerbosePrefixes| then s else s[|VerbosePrefixes[j]|..]
  }

  /** `clean_description`: `None` and "" become "Modified"; otherwise the
      first matching verbose prefix is removed, the first character is
      upper-cased, and a text longer than 60 characters is cut to its first
      57 characters followed by "...". */
  function CleanDescription(desc: Option<string>): (r: string)
    ensures desc.None? || desc.value == "" ==> r == "Modified"
    ensures |r| <= DescriptionLimit
    ensures desc.Some? && desc.value != "" ==>
      var c := StripVerbosePrefix(desc.value);
      (|c| <= DescriptionLimit ==> |r| == |c|) &&
      (|c| > DescriptionLimit ==> |r| == DescriptionLimit && r[DescriptionKeep..] == "...") &&
      (|c| > 0 ==> r[0] == ToUpper(c[0])) &&
      (forall i :: 1 <= i < |r| && i < |c| && (|c| <= DescriptionLimit || i < DescriptionKeep) ==> r[i] == c[i])
  {
    if desc.None? || desc.value == "" then "Modified"
    else
      var c := StripVerbosePrefix(desc.value);
      var u := if |c| > 0 then [ToUpper(c[0])] + c[1..] else c;
      if |u| > DescriptionLimit then u[..DescriptionKeep] + "..." else u
  }

  /** A short description that has no verbose prefix and does not start
      with a lower-case letter is already clean. */
  lemma {:induction false} CleanDescriptionFixedPoint(d: string)
    requires 0 < |d| <= DescriptionLimit
    requires forall i :: 0 <= i < |VerbosePrefixes| ==> !StartsWith(d, VerbosePrefixes[i])
    requires !('a' <= d[0] <= 'z')
    ensures CleanDescription(Some(d)) == d
  {
    var r := CleanDescription(Some(d));
    assert |r| == |d|;
    assert forall i :: 0 <= i < |d| ==> r[i] == d[i];
  }

  /** The file-name slug of a cleaned description: spaces and '/' become
      '_', and at most 30 characters are kept. */
  function DescSafe(clean: string): (r: string)
    ensures |r| == Min(|clean|, SlugLimit)
    ensures forall i :: 0 <= i < |r| ==>
      r[i] == (if clean[i] == ' ' || clean[i] == '/' then '_' else clean[i])
    ensures forall i :: 0 <= i < |r| ==> r[i] != ' ' && r[i] != '/'
  {
    var t1 := ReplaceAll(clean, " ", "_");
    var t2 := ReplaceAll(t1, "/", "_");
    ReplaceCharSpec(clean, ' ', '_');
    ReplaceCharSpec(t1, '/', '_');
    if |t2| > SlugLimit then t2[..SlugLimit] else t2
  }

  /** Python's `f"{n:04d}"`: at least four characters, zero-padded after
      the sign of a negative number. */
  function Pad4(n: int): (r: string)
    ensures |r| >= 4
    ensures forall i :: 0 <= i < |r| ==> r[i] == '-' || IsDigit(r[i])
    ensures n >= 0 <==> IsDigit(r[0])
    ensures n >= 0 ==> (forall i :: 0 <= i < |r| ==> IsDigit(r[i])) && DigitsValue(r) == n
    ensures n < 0 ==> r[0] == '-' && (forall i :: 1 <= i < |r| ==> IsDigit(r[i])) && DigitsValue(r[1..]) == -n
  {
    if n >= 0 then
      var z := PadNat(n, 4);
      assert IsDigit(z[0]);
      z
    else
      var z := PadNat(-n, 3);
      SignedDigits(z);
      assert ("-" + z)[1..] == z;
      "-" + z
  }

  /** A minus sign followed by digits: its first character is not a
      digit and every character is a sign or a digit. */
  lemma {:induction false} SignedDigits(z: string)
    requires forall i :: 0 <= i < |z| ==> IsDigit(z[i])
    ensures !IsDigit(("-" + z)[0])
    ensures forall i :: 0 <= i < |"-" + z| ==> ("-" + z)[i] == '-' || IsDigit(("-" + z)[i])
  {
    forall i | 0 <= i < |"-" + z| ensures ("-" + z)[i] == '-' || IsDigit(("-" + z)[i]) {
      if i > 0 {
        assert ("-" + z)[i] == z[i - 1];
      }
    }
  }

  /** Different version numbers never share a padded text. */
  lemma {:induction false} Pad4Injective(m: int, n: int)
    requires Pad4(m) == Pad4(n)
    ensures m == n
  {
    if m >= 0 && n >= 0 {
      assert PadNat(m, 4) == PadNat(n, 4);
    } else if m < 0 && n < 0 {
      var a, b := PadNat(-m, 3), PadNat(-n, 3);
      assert Pad4(m) == "-" + a && Pad4(n) == "-" + b;
      assert a == Pad4(m)[1..] && b == Pad4(n)[1..];
    }
  }

  /** The prefix every snapshot of version `n` starts with, and which the
      restore lookup searches for: "v" + 4-digit padded n + "_". */
  function SnapshotPrefix(n: int): string {
    "v" + Pad4(n) + "_"
  }

  /** `v{n:04d}_{timestamp}_{desc_safe}` followed by the extension. */
  function SnapshotName(n: int, stamp: string, slug: string, ext: string): (r: string)
    ensures StartsWith(r, SnapshotPrefix(n))
  {
    SnapshotPrefix(n) + (stamp + "_" + slug + ext)
  }

  /** Two texts without '_', each between "v" and '_': one such prefix
      starts the other only when they are equal. */
  lemma {:induction false} SeparatedPrefix(a: string, b: string, x: string)
    requires forall i :: 0 <= i < |a| ==> a[i] != '_'
    requires forall i :: 0 <= i < |b| ==> b[i] != '_'
    requires StartsWith(("v" + a + "_") + x, "v" + b + "_")
    ensures a == b
  {
    var p := "v" + b + "_";
    var u := ("v" + a + "_") + x;
    var y := u[|p|..];
    assert u == p + y;
    FirstUnderscore(a, x);
    FirstUnderscore(b, y);
    assert a == u[1..|a| + 1];
    assert b == u[1..|b| + 1];
  }

  /** The first '_' of `"v" + a + "_" + x` is the separator when `a` has none. */
  lemma {:induction false} FirstUnderscore(a: string, x: string)
    requires forall i :: 0 <= i < |a| ==> a[i] != '_'
    ensures Find(("v" + a + "_") + x, '_') == |a| + 1
  {
    var u := ("v" + a + "_") + x;
    assert u[|a| + 1] == '_';
    assert forall i :: 0 <= i < |a| + 1 ==> u[i] != '_';
  }

  lemma {:induction false} Pad4NoUnderscore(n: int)
    ensures forall i :: 0 <= i < |Pad4(n)| ==> Pad4(n)[i] != '_'
  {
  }

  /** The restore lookup for `n` matches the snapshot of version `m`
      exactly when `m == n`, whatever the timestamp and slug. */
  lemma {:induction false} SnapshotPrefixMatches(m: int, n: int, stamp: string, slug: string, ext: string)
    ensures StartsWith(SnapshotName(m, stamp, slug, ext), SnapshotPrefix(n)) <==> m == n
  {
    if StartsWith(SnapshotName(m, stamp, slug, ext), SnapshotPrefix(n)) {
      Pad4NoUnderscore(m);
      Pad4NoUnderscore(n);
      SeparatedPrefix(Pad4(m), Pad4(n), stamp + "_" + slug + ext);
      Pad4Injective(m, n);
    }
  }

  /** One saved version in the history list. */
  datatype Entry = Entry(id: string, version: int, timestamp: string, description: string, parameters: Params)

  /** `f"v{version_num}_{millis}"`. */
  function HistoryId(n: int, millis: int): string {
    "v" + IntText(n) + "_" + IntText(millis)
  }

  /** `add_to_history`'s list update: append, then keep the last 50. */
  function AddToHistory(h: seq<Entry>, e: Entry): (r: seq<Entry>)
    ensures |r| == Min(|h| + 1, HistoryLimit)
    ensures exists k :: 0 <= k <= |h| && r == h[k..] + [e]
  {
    var all := h + [e];
    if |all| > HistoryLimit then
      assert all[|all| - HistoryLimit..] == h[|all| - HistoryLimit..] + [e];
      all[|all| - HistoryLimit..]
    else
      assert all == h[0..] + [e];
      all
  }

  /** The new entry is last and the earlier entries keep their order; a
      full history loses exactly its oldest entry. */
  lemma {:induction false} AddToHistoryOrder(h: seq<Entry>, e: Entry)
    ensures |h| < HistoryLimit ==> AddToHistory(h, e) == h + [e]
    ensures |h| == HistoryLimit ==> AddToHistory(h, e) == h[1..] + [e]
  {
    var r := AddToHistory(h, e);
    var k :| 0 <= k <= |h| && r == h[k..] + [e];
    assert |r| == |h| - k + 1;
  }

  /** The fields of `design_state.json`; a field missing from the file is
      `None`. */
  datatype SavedState = SavedState(
    version: Option<int>,
    activeVersion: Option<int>,
    parameters: Params,
    scadFile: string,
    projectName: Option<string>)

  /** The module globals `version_counter`, `active_version`, `project_name`. */
  datatype Globals = Globals(counter: int, active: int, projectName: Option<string>)

  /** `save_design_state`'s record (the timestamp field is left out). */
  function SaveDesignState(g: Globals, params: Params, scadFile: string): (f: SavedState)
    ensures f.version.Some? && f.activeVersion.Some?
  {
    SavedState(Some(g.counter), Some(g.active), params, scadFile, g.projectName)
  }

  /** `load_design_state`: without a file the globals stay; with one, a
      missing version is 0, a missing active version is the version, and a
      missing project name is `None`. */
  function LoadDesignState(file: Option<SavedState>, g: Globals): (r: Globals)
    ensures file.None? ==> r == g
    ensures file.Some? ==>
      r.counter == (if file.value.version.Some? then file.value.version.value else 0) &&
      r.active == (if file.value.activeVersion.Some? then file.value.activeVersion.value else r.counter) &&
      r.projectName == file.value.projectName
  {
    match file
    case None => g
    case Some(f) =>
      var v := match f.version case Some(x) => x case None => 0;
      var a := match f.activeVersion case Some(x) => x case None => v;
      Globals(v, a, f.projectName)
  }

  /** Loading what was saved gives back the saved globals, whatever the
      globals were before the load. */
  lemma {:induction false} LoadAfterSave(g: Globals, params: Params, scadFile: string, before: Globals)
    ensures LoadDesignState(Some(SaveDesignState(g, params, scadFile)), before) == g
  {
  }
}

=== FILE: text.dfy ===
/**
 Text primitives shared by the model: the Python string operations the
 source relies on (`startswith`, `endswith`, `in`, `find`, `rfind`, `count`,
 `replace`, `strip`, ASCII case mapping) and decimal rendering of integers,
 written over `string` = `seq<char>`.
 */
module Text {

  datatype Option<T> = None | Some(value: T)

  /** Python's `str.isspace()` set, which is also what `\s` matches in a
      `str` pattern of the `re` module. */
  predicate IsSpace(c: char) {
    var k := c as int;
    (9 <= k <= 13) || (28 <= k <= 32) || k == 0x85 || k == 0xA0 || k == 0x1680
    || (0x2000 <= k <= 0x200A) || k == 0x2028 || k == 0x2029 || k == 0x202F
    || k == 0x205F || k == 0x3000
  }

  /** `\d`, restricted to ASCII digits. */
  predicate IsDigit(c: char) {
    '0' <= c <= '9'
  }

  /** `\w`, restricted to ASCII letters, digits and underscore. */
  predicate IsWord(c: char) {
    ('a' <= c <= 'z') || ('A' <= c <= 'Z') || IsDigit(c) || c == '_'
  }

  function DigitValue(c: char): (d: nat)
    requires IsDigit(c)
    ensures d < 10
  {
    (c as int - '0' as int) as nat
  }

  function DigitChar(d: nat): (c: char)
    requires d < 10
    ensures IsDigit(c) && DigitValue(c) == d
  {
    ('0' as int + d) as char
  }

  function ToUpper(c: char): (u: char)
    ensures 'a' <= c <= 'z' ==> 'A' <= u <= 'Z'
    ensures !('a' <= c <= 'z') ==> u == c
  {
    if 'a' <= c <= 'z' then (c as int - 32) as char else c
  }

  function ToLower(c: char): (l: char)
    ensures 'A' <= c <= 'Z' ==> 'a' <= l <= 'z'
    ensures !('A' <= c <= 'Z') ==> l == c
  {
    if 'A' <= c <= 'Z' then (c as int + 32) as char else c
  }

  /** `s.lower()` on the ASCII range. */
  function Lower(s: string): (r: string)
    ensures |r| == |s|
    ensures forall i :: 0 <= i < |s| ==> r[i] == ToLower(s[i])
  {
    if |s| == 0 then [] else [ToLower(s[0])] + Lower(s[1..])
  }

  predicate StartsWith(s: string, p: string) {
    |p| <= |s| && s[..|p|] == p
  }

  predicate EndsWith(s: string, p: string) {
    |p| <= |s| && s[|s| - |p|..] == p
  }

  /** `p` occurs in `s` starting at index `i`. */
  predicate OccursAt(s: string, p: string, i: int) {
    0 <= i && i + |p| <= |s| && s[i..i + |p|] == p
  }

  /** Python's `p in s`. */
  predicate Contains(s: string, p: string) {
    exists i | 0 <= i <= |s| - |p| :: OccursAt(s, p, i)
  }

  /** Python's `s.find(p, from)`: the first occurrence at or after `from`, or -1. */
  function FindFrom(s: string, p: string, from: nat): (r: int)
    requires from <= |s|
    ensures r == -1 || (from <= r && OccursAt(s, p, r))
    ensures r == -1 ==> forall i :: from <= i ==> !OccursAt(s, p, i)
    ensures r != -1 ==> forall i :: from <= i < r ==> !OccursAt(s, p, i)
    decreases |s| - from
  {
    if OccursAt(s, p, from) then from
    else if from == |s| then -1
    else FindFrom(s, p, from + 1)
  }

  /** Python's `s.find(c)` for a single character. */
  function Find(s: string, c: char): (r: int)
    ensures -1 <= r < |s|
    ensures r >= 0 ==> s[r] == c && forall i :: 0 <= i < r ==> s[i] != c
    ensures r == -1 <==> forall i :: 0 <= i < |s| ==> s[i] != c
  {
    if |s| == 0 then -1
    else if s[0] == c then 0
    else var k := Find(s[1..], c); if k == -1 then -1 else k + 1
  }

  /** Python's `s.rfind(c)` for a single character. */
  function RFind(s: string, c: char): (r: int)
    ensures -1 <= r < |s|
    ensures r >= 0 ==> s[r] == c && forall i :: r < i < |s| ==> s[i] != c
    ensures r == -1 <==> forall i :: 0 <= i < |s| ==> s[i] != c
  {
    if |s| == 0 then -1
    else if s[|s| - 1] == c then |s| - 1
    else RFind(s[..|s| - 1], c)
  }

  /** Past a prefix where `p` does not start, `p` occurs in `s` exactly
      when it occurs in the rest. */
  lemma {:induction false} ContainsPastMiss(s: string, p: string)
    requires |p| <= |s| && s[..|p|] != p && |s| > 0
    ensures Contains(s, p) <==> Contains(s[1..], p)
  {
    if Contains(s, p) {
      var i :| 0 <= i <= |s| - |p| && OccursAt(s, p, i);
      assert i > 0;
      assert s[1..][i - 1..i - 1 + |p|] == s[i..i + |p|];
      assert OccursAt(s[1..], p, i - 1);
    }
    if Contains(s[1..], p) {
      var i :| 0 <= i <= |s[1..]| - |p| && OccursAt(s[1..], p, i);
      assert s[1..][i..i + |p|] == s[i + 1..i + 1 + |p|];
      assert OccursAt(s, p, i + 1);
    }
  }

  /** Python's `s.count(p)` for a non-empty `p`: non-overlapping occurrences,
      scanned left to right. */
  function Count(s: string, p: string): nat
    requires |p| > 0
  {
    if |s| < |p| then 0
    else if s[..|p|] == p then 1 + Count(s[|p|..], p)
    else Count(s[1..], p)
  }

  /** `count` finds nothing exactly when `p in s` is false. */
  lemma {:induction false} CountZero(s: string, p: string)
    requires |p| > 0
    ensures Count(s, p) == 0 <==> !Contains(s, p)
    decreases |s|
  {
    if |s| >= |p| {
      if s[..|p|] == p {
        assert OccursAt(s, p, 0);
      } else {
        ContainsPastMiss(s, p);
        CountZero(s[1..], p);
      }
    }
  }

  lemma OneMore(c: int, d: int)
    ensures (1 + c) * d == d + c * d
  {
  }

  /** Python's `s.replace(p, q)` for a non-empty `p`: every non-overlapping
      occurrence, scanned left to right, is replaced. */
  function ReplaceAll(s: string, p: string, q: string): string
    requires |p| > 0
  {
    if |s| < |p| then s
    else if s[..|p|] == p then q + ReplaceAll(s[|p|..], p, q)
    else [s[0]] + ReplaceAll(s[1..], p, q)
  }

  /** Replacing a pattern that does not occur changes nothing. */
  lemma {:induction false} ReplaceAbsent(s: string, p: string, q: string)
    requires |p| > 0
    requires !Contains(s, p)
    ensures ReplaceAll(s, p, q) == s
    decreases |s|
  {
    if |s| >= |p| {
      assert !OccursAt(s, p, 0);
      ContainsPastMiss(s, p);
      ReplaceAbsent(s[1..], p, q);
    }
  }

  /** Each replaced occurrence, as `count` counts them, changes the length
      by `|q| - |p|`. */
  lemma {:induction false} ReplaceAllLength(s: string, p: string, q: string)
    requires |p| > 0
    ensures |ReplaceAll(s, p, q)| == |s| + Count(s, p) * (|q| - |p|)
    decreases |s|
  {
    if |s| >= |p| {
      if s[..|p|] == p {
        var t, c := ReplaceAll(s[|p|..], p, q), Count(s[|p|..], p);
        assert ReplaceAll(s, p, q) == q + t && Count(s, p) == 1 + c;
        ReplaceAllLength(s[|p|..], p, q);
        OneMore(c, |q| - |p|);
      } else {
        assert ReplaceAll(s, p, q) == [s[0]] + ReplaceAll(s[1..], p, q);
        assert Count(s, p) == Count(s[1..], p);
        ReplaceAllLength(s[1..], p, q);
      }
    }
  }

  /** Python's `s.lstrip()`. */
  function LStrip(s: string): (r: string)
    ensures |r| <= |s| && r == s[|s| - |r|..]
    ensures |r| > 0 ==> !IsSpace(r[0])
    ensures forall i :: 0 <= i < |s| - |r| ==> IsSpace(s[i])
  {
    if |s| > 0 && IsSpace(s[0]) then LStrip(s[1..]) else s
  }

  /** Python's `s.rstrip()`. */
  function RStrip(s: string): (r: string)
    ensures |r| <= |s| && r == s[..|r|]
    ensures |r| > 0 ==> !IsSpace(r[|r| - 1])
    ensures forall i :: |r| <= i < |s| ==> IsSpace(s[i])
  {
    if |s| > 0 && IsSpace(s[|s| - 1]) then RStrip(s[..|s| - 1]) else s
  }

  /** Python's `s.strip()`: the text between the leading and the trailing
      white space. */
  function Strip(s: string): (r: string)
    ensures |r| > 0 ==> !IsSpace(r[0]) && !IsSpace(r[|r| - 1])
    ensures Contains(s, r)
  {
    var l := LStrip(s);
    var r := RStrip(l);
    assert r == s[|s| - |l|..][..|r|] == s[|s| - |l|..|s| - |l| + |r|];
    assert OccursAt(s, r, |s| - |l|);
    r
  }

  /** Decimal digits of a natural number, most significant first, without
      leading zeros (Python's `str(n)` for `n >= 0`). */
  function NatText(n: nat): (r: string)
    ensures |r| > 0
    ensures forall i :: 0 <= i < |r| ==> IsDigit(r[i])
    decreases n
  {
    if n < 10 then [DigitChar(n)] else NatText(n / 10) + [DigitChar(n % 10)]
  }

  /** Python's `str(n)` for any integer. */
  function IntText(n: int): string {
    if n < 0 then "-" + NatText(-n) else NatText(n)
  }

  /** The number a string of decimal digits denotes. */
  function DigitsValue(s: string): nat
    requires forall i :: 0 <= i < |s| ==> IsDigit(s[i])
  {
    if |s| == 0 then 0 else DigitsValue(s[..|s| - 1]) * 10 + DigitValue(s[|s| - 1])
  }

  function Zeros(k: nat): (r: string)
    ensures |r| == k
    ensures forall i :: 0 <= i < k ==> r[i] == '0'
  {
    if k == 0 then [] else "0" + Zeros(k - 1)
  }

  /** Left-pads a digit string with zeros to at least `width` characters,
      as Python's `{n:0<width>d}` does for a non-negative `n`. */
  function ZeroPad(s: string, width: nat): (r: string)
    ensures |r| == if |s| >= width then |s| else width
    ensures EndsWith(r, s)
  {
    if |s| >= width then s else Zeros(width - |s|) + s
  }

  lemma {:induction false} NatTextValue(n: nat)
    ensures DigitsValue(NatText(n)) == n
    decreases n
  {
    if n >= 10 {
      NatTextValue(n / 10);
      var t := NatText(n);
      assert t[..|t| - 1] == NatText(n / 10);
    }
  }

  /** Leading zeros do not change the value of a digit string. */
  lemma {:induction false} LeadingZerosValue(k: nat, s: string)
    requires forall i :: 0 <= i < |s| ==> IsDigit(s[i])
    ensures forall i :: 0 <= i < |Zeros(k) + s| ==> IsDigit((Zeros(k) + s)[i])
    ensures DigitsValue(Zeros(k) + s) == DigitsValue(s)
    decreases |s|
  {
    var z := Zeros(k);
    if |s| == 0 {
      assert z + s == z;
      ZerosValue(k);
    } else {
      var t := z + s;
      assert t[..|t| - 1] == z + s[..|s| - 1];
      LeadingZerosValue(k, s[..|s| - 1]);
    }
  }

  lemma {:induction false} ZerosValue(k: nat)
    ensures forall i :: 0 <= i < |Zeros(k)| ==> IsDigit(Zeros(k)[i])
    ensures DigitsValue(Zeros(k)) == 0
    decreases k
  {
    if k > 0 {
      var z := Zeros(k);
      var y := z[..|z| - 1];
      assert y == Zeros(k - 1) by {
        assert forall i :: 0 <= i < k - 1 ==> y[i] == '0';
      }
      ZerosValue(k - 1);
    }
  }

  /** The decimal text of `n`, zero-padded to at least `width` digits. */
  function PadNat(n: nat, width: nat): (r: string)
    ensures |r| >= width && |r| > 0
    ensures forall i :: 0 <= i < |r| ==> IsDigit(r[i])
    ensures DigitsValue(r) == n
  {
    PaddedValue(n, width);
    ZeroPad(NatText(n), width)
  }

  lemma {:induction false} PaddedValue(n: nat, width: nat)
    ensures forall i :: 0 <= i < |ZeroPad(NatText(n), width)| ==> IsDigit(ZeroPad(NatText(n), width)[i])
    ensures DigitsValue(ZeroPad(NatText(n), width)) == n
  {
    var t := NatText(n);
    NatTextValue(n);
    if |t| < width {
      LeadingZerosValue(width - |t|, t);
    }
  }

  /** Replacing a single character by a single character keeps the length
      and maps every position independently. */
  lemma {:induction false} ReplaceCharSpec(s: string, a: char, b: char)
    ensures |ReplaceAll(s, [a], [b])| == |s|
    ensures forall i :: 0 <= i < |s| ==>
      ReplaceAll(s, [a], [b])[i] == (if s[i] == a then b else s[i])
  {
    if |s| > 0 {
      ReplaceCharSpec(s[1..], a, b);
      assert s[..1] == [s[0]];
    }
  }

  /** After replacing `a` by a different character, `a` no longer occurs. */
  lemma {:induction false} ReplaceCharRemoves(s: string, a: char, b: char)
    requires a != b
    ensures forall i :: 0 <= i < |ReplaceAll(s, [a], [b])| ==> ReplaceAll(s, [a], [b])[i] != a
  {
    ReplaceCharSpec(s, a, b);
  }
}

=== FILE: version_routes.dfy ===
/**
 `backend/routes/version_routes.py`: renaming a history entry, restoring a
 saved version (undo and redo are restores), and updating parameters from
 a client-supplied dict.
 */
module VersionRoutes {
  import opened Text
  import opened ScadParams
  import opened StateManager
  import opened DesignState

  /** Index of the first entry whose id is `id`, or `|h|`. */
  function FirstWithId(h: seq<Entry>, id: string): (k: nat)
    ensures k <= |h|
    ensures k < |h| ==> h[k].id == id
    ensures forall i :: 0 <= i < k ==> h[i].id != id
  {
    if |h| == 0 then 0
    else if h[0].id == id then 0
    else 1 + FirstWithId(h[1..], id)
  }

  /** `update_version_description`. */
  function UpdateDescription(st: State, id: JsonText, desc: JsonText): (r: Outcome)
    ensures !Truthy(id) || !Truthy(desc) ==> r == Outcome(Error(400), st)
    ensures Truthy(id) && Truthy(desc) && (forall i :: 0 <= i < |st.history| ==> st.history[i].id != id.s)
            ==> r == Outcome(Error(404), st)
    ensures r.response == DescriptionUpdated ==>
              Truthy(desc) && |r.state.history| == |st.history| &&
              exists k :: 0 <= k < |st.history| && st.history[k].id == id.s &&
                (forall i :: 0 <= i < k ==> st.history[i].id != id.s) &&
                r.state.history[k] == st.history[k].(description := desc.s) &&
                (forall i :: 0 <= i < |st.history| && i != k ==> r.state.history[i] == st.history[i])
    ensures r.response == DescriptionUpdated || r.state == st
    ensures r.state.(history := st.history) == st
  {
    if !Truthy(id) || !Truthy(desc) then Outcome(Error(400), st)
    else
      var k := FirstWithId(st.history, id.s);
      if k == |st.history| then Outcome(Error(404), st)
      else
        Outcome(DescriptionUpdated, st.(history := st.history[k := st.history[k].(description := desc.s)]))
  }

  /** A renamed history keeps its ids and versions, hence the invariant. */
  lemma {:induction false} UpdateDescriptionInv(st: State, id: JsonText, desc: JsonText)
    requires Inv(st)
    ensures Inv(UpdateDescription(st, id, desc).state)
  {
    var r := UpdateDescription(st, id, desc);
    assert forall i :: 0 <= i < |st.history| ==> r.state.history[i].version == st.history[i].version;
  }

  /** `os.listdir` of the SCAD snapshot directory in some order: every
      snapshot name, and nothing else. */
  predicate IsListing(listing: seq<string>, names: set<string>) {
    (forall f :: f in listing ==> f in names) && (forall f :: f in names ==> f in listing)
  }

  /** The listed names that start with `p`, in listing order. */
  function Matching(listing: seq<string>, p: string): (r: seq<string>)
    ensures forall f :: f in r <==> f in listing && StartsWith(f, p)
  {
    if |listing| == 0 then []
    else (if StartsWith(listing[0], p) then [listing[0]] else []) + Matching(listing[1..], p)
  }

  /** A backed-up STL of version `n` exists. */
  predicate HasStlSnapshot(st: State, n: int) {
    exists f :: f in st.stlVersions && StartsWith(f, SnapshotPrefix(n)) && EndsWith(f, ".stl")
  }

  /** `restore_version` once the snapshot text `content` of version `n` is
      found and a project is loaded: the text becomes the head file and the
      head, nothing is staged, and `n` becomes the active version. */
  function Reinstate(st: State, n: int, content: string): (r: State)
    requires st.modifier.Some?
    ensures r.modifier == Some(NewModifier(st.modifier.value.scadFile, content))
    ensures r.designs == st.designs[st.modifier.value.scadFile := content]
    ensures r.active == n
    ensures r.(modifier := st.modifier, designs := st.designs, active := st.active) == st
  {
    var m := st.modifier.value;
    st.(modifier := Some(NewModifier(m.scadFile, content)),
        designs := st.designs[m.scadFile := content],
        active := n)
  }

  /** The text of the first listed snapshot of version `n`, if any. */
  function SnapshotText(scad: map<string, string>, listing: seq<string>, n: int): (r: Option<string>)
    requires IsListing(listing, scad.Keys)
    ensures r.Some? <==> SnapshotFor(Some(scad), n)
    ensures r.Some? ==> exists f :: f in scad && StartsWith(f, SnapshotPrefix(n)) && scad[f] == r.value
  {
    var found := Matching(listing, SnapshotPrefix(n));
    if |found| == 0 then
      assert forall f :: f in scad ==> !StartsWith(f, SnapshotPrefix(n));
      None
    else
      assert found[0] in found;
      Some(scad[found[0]])
  }

  /** `restore_version`. `listing` is the directory listing of the SCAD
      snapshots; `render` decides only when no STL snapshot of `n` exists. */
  function Restore(st: State, version: Option<int>, listing: seq<string>, render: string -> bool): (r: Outcome)
    requires st.scadVersions.Some? ==> IsListing(listing, st.scadVersions.value.Keys)
    ensures version.None? || version.value == 0 ==> r == Outcome(Error(400), st)
    ensures version.Some? && version.value != 0 && st.scadVersions.None? ==> r == Outcome(Error(500), st)
    ensures version.Some? && version.value != 0 && !SnapshotFor(st.scadVersions, version.value)
            ==> r.state == st && r.response.Error?
    ensures version.Some? && version.value != 0 && st.scadVersions.Some? && !SnapshotFor(st.scadVersions, version.value)
            ==> r == Outcome(Error(404), st)
    ensures version.Some? && version.value != 0 && SnapshotFor(st.scadVersions, version.value) && st.modifier.None?
            ==> r == Outcome(Error(500), st)
    ensures r.response.Restored? ==>
              version.Some? && r.response.version == version.value && st.modifier.Some? &&
              r.state.modifier.Some? && r.state.modifier.value.pending.None? &&
              r.response.parameters == r.state.modifier.value.params &&
              Coherent(r.state.modifier.value) &&
              r.state.active == version.value &&
              exists f :: f in st.scadVersions.value && StartsWith(f, SnapshotPrefix(version.value)) &&
                          st.scadVersions.value[f] == r.state.modifier.value.content
    // a restore never creates a version or touches the history, the
    // snapshots, the preview or the project name; only the head moves
    ensures r.state.(modifier := st.modifier, designs := st.designs, active := st.active, saved := st.saved) == st
    ensures r.state.modifier.Some? == st.modifier.Some?
    ensures st.modifier.Some? ==>
              r.state.modifier.value.scadFile == st.modifier.value.scadFile &&
              (r.state.designs == st.designs ||
               r.state.designs == st.designs[st.modifier.value.scadFile := r.state.modifier.value.content])
  {
    if version.None? || version.value == 0 then Outcome(Error(400), st)
    else if st.scadVersions.None? then Outcome(Error(500), st)
    else
      var n := version.value;
      match SnapshotText(st.scadVersions.value, listing, n)
      case None => Outcome(Error(404), st)
      case Some(content) =>
        if st.modifier.None? then Outcome(Error(500), st)
        else
          var st1 := Reinstate(st, n, content);
          if !HasStlSnapshot(st, n) && !render(content) then Outcome(Error(500), st1)
          else Outcome(Restored(st1.modifier.value.params, n), Save(st1))
  }

  /** The conditions under which a restore of `n` succeeds. */
  predicate Restorable(st: State, n: int, listing: seq<string>, render: string -> bool)
    requires st.scadVersions.Some? ==> IsListing(listing, st.scadVersions.value.Keys)
  {
    n != 0 && st.scadVersions.Some? && st.modifier.Some? &&
    var t := SnapshotText(st.scadVersions.value, listing, n);
    t.Some? && (HasStlSnapshot(st, n) || render(t.value))
  }

  /** A restore succeeds exactly when it is possible, and then reinstates
      the first listed snapshot and saves the design state. */
  lemma {:induction false} RestoreSucceeds(st: State, n: int, listing: seq<string>, render: string -> bool)
    requires st.scadVersions.Some? ==> IsListing(listing, st.scadVersions.value.Keys)
    ensures Restore(st, Some(n), listing, render).response.Restored? <==> Restorable(st, n, listing, render)
    ensures Restorable(st, n, listing, render) ==>
              var t := SnapshotText(st.scadVersions.value, listing, n).value;
              Restore(st, Some(n), listing, render).state == Save(Reinstate(st, n, t))
  {
  }

  /** Restoring keeps the invariant: the head is coherent by construction
      and versions, history and snapshots are untouched. */
  lemma {:induction false} RestoreInv(st: State, version: Option<int>, listing: seq<string>, render: string -> bool)
    requires Inv(st)
    requires st.scadVersions.Some? ==> IsListing(listing, st.scadVersions.value.Keys)
    ensures Inv(Restore(st, version, listing, render).state)
  {
  }

  /** Which version can be restored depends on the snapshot directory only,
      never on the (capped) history: a version evicted from the history is
      found as before. */
  lemma {:induction false} RestoreIgnoresHistory(st: State, h: seq<Entry>, version: Option<int>, listing: seq<string>, render: string -> bool)
    requires st.scadVersions.Some? ==> IsListing(listing, st.scadVersions.value.Keys)
    ensures Restore(st.(history := h), version, listing, render).response
         == Restore(st, version, listing, render).response
    ensures Restore(st.(history := h), version, listing, render).state
         == Restore(st, version, listing, render).state.(history := h)
  {
  }

  /** `s1` differs from `st` at most in the head (same file), the head
      file's text, the active version and the saved state. */
  predicate SameButHead(s1: State, st: State) {
    s1.(modifier := st.modifier, designs := st.designs, active := st.active, saved := st.saved) == st &&
    st.modifier.Some? && s1.modifier.Some? && s1.modifier.value.scadFile == st.modifier.value.scadFile &&
    (s1.designs == st.designs || s1.designs == st.designs[st.modifier.value.scadFile := s1.modifier.value.content])
  }

  lemma {:induction false} RestoreSameButHead(st: State, a: Option<int>, listing: seq<string>, render: string -> bool)
    requires st.scadVersions.Some? ==> IsListing(listing, st.scadVersions.value.Keys)
    requires st.modifier.Some?
    ensures SameButHead(Restore(st, a, listing, render).state, st)
  {
  }

  /** Reinstating a version forgets everything a head-only change did. */
  lemma {:induction false} ReinstateAbsorbs(s1: State, st: State, n: int, t: string)
    requires SameButHead(s1, st)
    ensures Save(Reinstate(s1, n, t)) == Save(Reinstate(st, n, t))
  {
    var file := st.modifier.value.scadFile;
    assert s1.designs[file := t] == st.designs[file := t];
    assert Reinstate(s1, n, t).(saved := st.saved) == Reinstate(st, n, t);
  }

  /** A restore that succeeds overrides any earlier restore: undo then redo
      (or any sequence of restores) ends where the last restore alone ends. */
  lemma {:induction false} RestoreOverridesRestore(st: State, a: Option<int>, n: int, listing: seq<string>, render: string -> bool)
    requires st.scadVersions.Some? && IsListing(listing, st.scadVersions.value.Keys)
    requires Restorable(st, n, listing, render)
    ensures Restore(Restore(st, a, listing, render).state, Some(n), listing, render).response
         == Restore(st, Some(n), listing, render).response
    ensures Restore(Restore(st, a, listing, render).state, Some(n), listing, render).state
         == Restore(st, Some(n), listing, render).state
  {
    var s1 := Restore(st, a, listing, render).state;
    RestoreSameButHead(st, a, listing, render);
    RestoreSucceeds(st, n, listing, render);
    RestoreSucceeds(s1, n, listing, render);
    ReinstateAbsorbs(s1, st, n, SnapshotText(st.scadVersions.value, listing, n).value);
  }

  /** `update_parameters`. `params` is the request's dict in JSON order. */
  function UpdateParameters(st: State, params: seq<(string, Num)>, desc: JsonText, createBackup: bool,
                            render: string -> bool, show: Num -> string, clock: Clock): (r: Outcome)
    ensures |params| == 0 ==> r == Outcome(Error(400), st)
    ensures |params| > 0 && st.modifier.None? ==> r == Outcome(Error(500), st)
    // the head is rewritten before the render, so a failed render keeps it
    ensures |params| > 0 && st.modifier.Some? ==>
              r.state.modifier.Some? &&
              r.state.modifier.value.content == RewriteAll(st.modifier.value.content, params, show) &&
              r.state.modifier.value.params == Extract(r.state.modifier.value.content) &&
              r.state.modifier.value.pending == st.modifier.value.pending
    // the update succeeds exactly when the rewritten head renders
    ensures |params| > 0 && st.modifier.Some? ==>
              (r.response.ParametersUpdated? <==> Rendered(ApplyModifications(st, params, show), render)) &&
              (!r.response.ParametersUpdated? ==> r.response == Error(500))
    // a version is created exactly when asked for and the render succeeded
    ensures r.response.ParametersUpdated? ==> (r.response.newVersion.Some? <==> createBackup)
    ensures r.response.ParametersUpdated? && createBackup ==>
              r.state.counter == st.counter + 1 && r.response.newVersion == Some(r.state.counter)
    ensures !(r.response.ParametersUpdated? && createBackup) ==>
              r.state.counter == st.counter && r.state.history == st.history
    ensures r.response.ParametersUpdated? ==> r.response.parameters == r.state.modifier.value.params
    ensures r.state.preview == st.preview
  {
    if |params| == 0 then Outcome(Error(400), st)
    else if st.modifier.None? then Outcome(Error(500), st)
    else
      var st1 := ApplyModifications(st, params, show);
      if !Rendered(st1, render) then Outcome(Error(500), st1)
      else if createBackup then
        var n := st.counter + 1;
        var desc' := TextArg(desc, "parameters_updated");
        var st2 := Backup(st1, desc', clock);
        Outcome(ParametersUpdated(st2.modifier.value.params, Some(n), Some(StlBackupName(n, desc', clock))), st2)
      else Outcome(ParametersUpdated(st1.modifier.value.params, None, None), st1)
  }

  lemma {:induction false} UpdateParametersInv(st: State, params: seq<(string, Num)>, desc: JsonText, createBackup: bool,
                            render: string -> bool, show: Num -> string, clock: Clock)
    requires Inv(st)
    ensures Inv(UpdateParameters(st, params, desc, createBackup, render, show, clock).state)
  {
    if |params| > 0 && st.modifier.Some? {
      var st1 := ApplyModifications(st, params, show);
      assert Inv(st1);
      if Rendered(st1, render) && createBackup {
        BackupInv(st1, TextArg(desc, "parameters_updated"), clock);
      }
    }
  }
}
